=== FILE: README.md ===
# SamsWeb dashboard core, modelled in Dafny

This project models the decision logic of the SamsWeb structure-inspection
dashboard, a React front end over a remote API. It covers:

- the API client's token handling: the Bearer header on every request, and the single token refresh that a 401 Unauthorized starts while later 401s wait in a queue;
- the authentication service's effects on browser storage, and the authentication context's reducer;
- the structures service: how the list query is built, how list items are normalised, the pagination and summary defaults, the completion percentage, status texts and badge classes;
- the string formatters;
- the sign-in, registration and e-mail verification forms;
- the remarks dialog;
- the three route guards;
- the table, list, page and dialog state rules;
- the label and colour mappings of badges, cards and avatars;
- the two sidebars, the navigation hook, the header and the dashboard greeting.

Each source concern is one module:

| module | file |
|---|---|
| `Wrappers`, `Text`, `Users`, `Session` | shared: optional values, JavaScript string operations, the user record and role test, storage |
| `ApiClient` | `api_client.dfy` |
| `AuthService`, `AuthReducer` | `auth_service.dfy`, `auth_reducer.dfy` |
| `Structures`, `UrlQuery` | `structures.dfy`, `url_query.dfy` |
| `Formatters` | `formatters.dfy` |
| `AuthForms`, `VerifyEmail` | `auth_forms.dfy`, `verify_email.dfy` |
| `Remarks`, `Guards` | `remarks.dfy`, `guards.dfy` |
| `Table`, `StructureLists` | `table.dfy`, `structure_lists.dfy` |
| `Badges`, `Avatar` | `badges.dfy`, `avatar.dfy` |
| `Navigation`, `Header` | `navigation.dfy`, `header.dfy` |

The outside world enters only as parameters:

- the server's answers, `JSON.parse` and `JSON.stringify`, and the e-mail pattern;
- the clock: the greeting takes the hour, and the cooldown timer is an explicit tick;
- the router's current location.

What an operation asks of the router, the server or the page is returned as a value: a navigation, a list of effects, or a rendered outcome.

Where the code and its documentation disagree, the model follows the code.

- The refresh flow replays queued requests without marking them as retried. Only the request that started the refresh is protected from a second refresh.
- The authentication context keeps the user under the key `user`. The service layer keeps it under `userData`. The two keys are kept distinct.
- `formatAddress` shows the dash also when the only address part is itself a dash.
- `truncateText` with a limit shorter than its suffix slices with a negative end. It then keeps all but the last few characters.
- `maskEmail` fails for a local part shorter than two characters, where `repeat` throws.
- The dashboard card's badge is amber for `ratings_in_progress`, not gray as for drafts.

The list query follows the `application/x-www-form-urlencoded` serialiser of the WHATWG URL Standard. The bearer header follows section 2.1 of RFC 6750, and the refresh trigger is the 401 status of section 15.5.2 of RFC 9110.

## Model

| member | source | states |
|---|---|---|
| ApiClient.BearerRoundTrip | src/services/api.ts:40 | the header written for a token is a Bearer credential (RFC 6750 section 2.1) from which the same token is read back |
| ApiClient.Intercept | src/services/api.ts:32-45 | the request keeps its identity and retry mark; a non-empty stored access token becomes `Bearer <token>`; with no token or an empty one the request is unchanged |
| ApiClient.InterceptHeaderIff | src/services/api.ts:37-43 | a request without a header gets one exactly when a non-empty access token is stored |
| ApiClient.ResumeAll | src/services/api.ts:81-83 | one resumption per queued request, in queue order, each carrying the new Bearer header and its `_retry` mark as it was |
| ApiClient.RejectAll | src/services/api.ts:121 | one rejection per queued request, in queue order, all with the same error |
| ApiClient.StepPreservesValid | src/services/api.ts:74-133 | every event keeps the client invariant: refreshing iff an originating request exists, that request is retry-marked, the queue is empty when idle and holds no retry-marked request |
| ApiClient.RefreshCalledOnlyFromIdle | src/services/api.ts:77-90 | a step posts a refresh only from a client with no refresh outstanding, so at most one refresh is in flight |
| ApiClient.RejectionsCallNothing | src/services/api.ts:118-129 | the failure path never posts a refresh |
| ApiClient.QueuedWhileRefreshing | src/services/api.ts:77-87 | a 401 (RFC 9110 section 15.5.2) on an unmarked request while refreshing is appended to the queue and has no other effect |
| ApiClient.PassThrough | src/services/api.ts:74-135 | any status other than 401, and a 401 on a retry-marked request, is rejected with the original error and changes nothing |
| ApiClient.FirstUnauthorizedStartsRefresh | src/services/api.ts:89-103 | the first 401 marks the request, sets the refreshing flag and posts exactly the stored refresh token |
| ApiClient.NoRefreshTokenFailsAtOnce | src/services/api.ts:93-97 | without a refresh token no refresh is posted and the failure path runs at once: the session is cleared and the user sent to `/login` |
| ApiClient.RefreshOkSettles | src/services/api.ts:105-117 | a successful refresh stores both tokens, resumes the queue in order with the new token, replays the originating request, and leaves nothing outstanding |
| ApiClient.RefreshFailSettles | src/services/api.ts:118-132 | a failed refresh rejects the queue in order and then the originating request with the same error, removes the three session keys and redirects to `/login` |
| ApiClient.OnlyOriginIsRetryProtected | src/services/api.ts:80-83 | after a successful refresh the replayed originating request is retry-marked while the resumed queued requests are not, so only the latter can start a second refresh |
| ApiClient.Unauthorized | src/services/api.ts:74 | a burst of 401 events, one per request id, none retry-marked |
| ApiClient.BurstQueues | src/services/api.ts:77-87 | while refreshing, every 401 of a burst is queued in arrival order and nothing is posted |
| ApiClient.BurstRefreshesOnce | src/services/api.ts:74-103 | a burst of 401s on an idle client posts exactly one refresh, and every request but the first waits in the queue |
| ApiClient.HandleError | src/services/api.ts:190-210 | the normalised error is never a success; an Axios error keeps the server's `error` text or else its own message, the server's `details` and the status; any other error has no details and no status and keeps its message, or "An unexpected error occurred" when it has none; the text is empty only for an Axios error with no server text and an empty message |
| Session.ClearSession | src/services/auth.ts:74-79 | the three session keys are removed and every other key keeps its value |
| AuthService.Login | src/services/auth.ts:13-49 | a successful response stores both tokens and the serialised user; an unsuccessful one stores nothing; a thrown error becomes a failure with no user and empty tokens, carrying the server's `message` or else "Login failed. Please check your credentials." |
| AuthService.ThrownLoginIgnoresServerError | src/services/auth.ts:37-48 | a thrown sign-in error whose body has an `error` but no `message` shows the fallback, although the shared error handler would have shown that `error` text |
| AuthService.Logout | src/services/auth.ts:64-80 | the refresh token is posted only when a non-empty one is stored, and the three session keys are removed whatever the server does |
| AuthService.LogoutIdempotent | src/services/auth.ts:64-80 | a second logout posts nothing and leaves the storage as the first left it |
| AuthService.RefreshToken | src/services/auth.ts:82-108 | without a refresh token it fails with "No refresh token available" and clears the session; a transport error clears the session too; a successful response overwrites both tokens |
| AuthService.GetStoredUser | src/services/auth.ts:128-137 | no stored value gives no user; an unparsable one is removed and gives no user; otherwise the parsed value |
| AuthService.IsAuthenticated | src/services/auth.ts:147-151 | signed in exactly when a non-empty access token and a stored user are both present |
| AuthService.StoredHasRole | src/services/auth.ts:153-158 | the stored user's role test agrees with the shared role check |
| AuthService.CanManageRemarksIff | src/services/auth.ts:160-162 | remarks may be managed exactly by a stored verification engineer or administrator |
| AuthService.LoginThenAuthenticated | src/services/auth.ts:26-31 | after a successful login whose user survives serialisation, the session is authenticated and the stored user is the one that signed in |
| AuthService.LogoutThenUnauthenticated | src/services/auth.ts:74-79 | after logout nobody is authenticated |
| Users.HasAnyRoleIff | src/contexts/AuthContext.tsx:447-450 | `hasAnyRole` holds exactly when some listed role passes `hasRole` |
| Users.HasAnyRoleNoUser | src/contexts/AuthContext.tsx:447-449 | with no user no list of roles matches |
| Users.RoleHelpers | src/contexts/AuthContext.tsx:452-455 | each role helper is `hasAnyRole` of its one code, and a user passes one of the four exactly when they hold one of the four codes |
| AuthReducer.Reduce | src/contexts/AuthContext.tsx:66-207 | one transition never undoes initialisation, sets it only on an initialise outcome, and never breaks "authenticated implies a user" |
| AuthReducer.RunKeepsInvariants | src/contexts/AuthContext.tsx:66-207 | over any run of actions initialisation stays set and the session invariant stays true |
| AuthReducer.InitializedOnlyByInitialize | src/contexts/AuthContext.tsx:75-95 | a run from the initial state is initialised only if it contains INITIALIZE_SUCCESS or INITIALIZE_FAILURE |
| AuthReducer.InitializedOnlyFrom | src/contexts/AuthContext.tsx:75-95 | from any uninitialised state, initialisation requires one of the two initialise outcomes in the run |
| AuthReducer.StartActions | src/contexts/AuthContext.tsx:68-73 | every start action raises the loading flag, clears the error and changes nothing else |
| AuthReducer.LogoutClears | src/contexts/AuthContext.tsx:181-190 | LOGOUT removes the user, authentication, loading, error and pending verification, and keeps the initialisation flag |
| AuthReducer.NarrowActions | src/contexts/AuthContext.tsx:192-202 | CLEAR_ERROR changes only the error and UPDATE_USER only the user |
| AuthReducer.FailureActions | src/contexts/AuthContext.tsx:115-179 | a login failure records the message and ends the session; registration and verification failures record the message and keep the session |
| AuthReducer.VerificationActions | src/contexts/AuthContext.tsx:124-172 | needing verification records the address and keeps the user; a successful verification clears it and authenticates the verified user |
| AuthReducer.RoleHelpers | src/contexts/AuthContext.tsx:442-452 | the context's role test reads the state's user, `hasAnyRole` is its existential and `isAdmin` is the administrator code |
| AuthForms.HandleChange | src/components/auth/RegisterForm.tsx:31-39 | the edited field takes the new value; that field's error stops showing; every other error and the set of error keys are unchanged |
| AuthForms.ChangeClearsOnlyThatField | src/components/auth/LoginForm.tsx:24-31 | after an edit an error shows exactly for the other fields that already showed one |
| AuthForms.UsernameError | src/components/auth/RegisterForm.tsx:45-51 | the username passes exactly when it is not blank, has at least 3 characters and only `[A-Za-z0-9_]`; each failure gets the message of the first check it fails |
| AuthForms.EmailError | src/components/auth/RegisterForm.tsx:54-58 | the address passes exactly when it is not blank and matches the address pattern; a blank one is "required" |
| AuthForms.PasswordError | src/components/auth/RegisterForm.tsx:61-65 | the form's password passes exactly when it has at least 6 characters |
| AuthForms.ConfirmError | src/components/auth/RegisterForm.tsx:68-72 | the confirmation passes exactly when it is non-empty and equals the password |
| AuthForms.ValidateRegister | src/components/auth/RegisterForm.tsx:41-76 | valid exactly when no field failed; each field has an entry iff its check fails, holding that check's message, and no other key appears |
| AuthForms.DetailField | src/components/auth/RegisterForm.tsx:93-96 | a server detail goes to the first of username, email, password it mentions, else to `submit` |
| AuthForms.RouteDetails | src/components/auth/RegisterForm.tsx:91-98 | routed details only produce the four known keys |
| AuthForms.RouteDetailsKeys | src/components/auth/RegisterForm.tsx:92-97 | a field has an entry exactly when some detail belongs to it |
| AuthForms.RouteDetailsLastWins | src/components/auth/RegisterForm.tsx:92-97 | a field's entry is the last detail belonging to it |
| AuthForms.RegisterFailureErrors | src/components/auth/RegisterForm.tsx:89-104 | a details array, even an empty one, replaces all errors by the routed details; otherwise only `submit` is set, to the server's error, or "Registration failed. Please try again." when it has none |
| AuthForms.ValidateLogin | src/components/auth/LoginForm.tsx:33-46 | valid exactly when the identifier is not blank and the password is non-empty, with an entry for each failing field only |
| AuthForms.WhitespacePassword | src/components/auth/LoginForm.tsx:36-42 | an example: the password "   " passes while the identifier "   " fails |
| AuthForms.LoginErrorMessage | src/components/auth/LoginForm.tsx:66-67 | the shown message is the server's error when it has one, else the fixed fallback |
| AuthForms.UsernameRule | src/pages/auth/RegisterPage.tsx:91-105 | the page accepts a username exactly when it has 3 to 50 characters, all in `[A-Za-z0-9_]` |
| AuthForms.EmailRule | src/pages/auth/RegisterPage.tsx:116-122 | the page accepts an address exactly when it is non-empty and matches the pattern |
| AuthForms.PasswordRule | src/pages/auth/RegisterPage.tsx:143-153 | the page demands the password, then at least 8 characters, then a lower-case letter, an upper-case letter and a digit before the first line break (the lookaheads' `.` stops there), each failure with its own message |
| AuthForms.FirstLine | src/pages/auth/RegisterPage.tsx:150 | the text a `.*` lookahead can scan: the longest prefix with no line terminator, stopped by one when the text goes on |
| AuthForms.MixedFirstLineMeansMixed | src/pages/auth/RegisterPage.tsx:150 | a password matching the pattern has all three classes, and without a line break the pattern is exactly the three-class test |
| AuthForms.FirstLineBeforeBreak | src/pages/auth/RegisterPage.tsx:150 | the first line of a line, a line break and more is that line |
| AuthForms.LineBreakHidesUpper | src/pages/auth/RegisterPage.tsx:150-151 | with the only capital after a line break the page rejects the password, while the strength meter rates it 4 |
| AuthForms.ConfirmRule | src/pages/auth/RegisterPage.tsx:174-177 | the page accepts a confirmation exactly when it is non-empty and equals the password |
| AuthForms.SubmitRegisterPage | src/pages/auth/RegisterPage.tsx:39-56 | the data is sent unchanged exactly when every rule passes and the two passwords agree; a mismatch blocks with a message on the confirmation |
| AuthForms.SubmitMessages | src/pages/auth/RegisterPage.tsx:172-177 | an empty confirmation blocks with "Please confirm your password", a different one with "Passwords do not match", and every message shown is non-empty |
| AuthForms.MinimumsDiffer | src/components/auth/RegisterForm.tsx:63 | an example: the six-character password `Abc123` passes the form (minimum 6) but is blocked by the page (minimum 8) |
| AuthForms.PasswordStrength | src/pages/auth/RegisterPage.tsx:253-269 | strength is at most 4; it is 4 exactly when all four criteria hold and 0 exactly when none does |
| AuthForms.AcceptedPasswordIsStrong | src/pages/auth/RegisterPage.tsx:143-153 | any password the page accepts has full strength |
| AuthForms.BarClass | src/pages/auth/RegisterPage.tsx:191-198 | a bar is grey exactly when its level exceeds the strength; a filled bar is green at 4, amber at 3 and red below |
| AuthForms.StrengthMeter | src/pages/auth/RegisterPage.tsx:182-200 | no meter for an empty password, else exactly four bars |
| AuthForms.MeterFillsFromLeft | src/pages/auth/RegisterPage.tsx:186-199 | bar `i` is filled exactly when the strength exceeds `i`, and all filled bars share one colour |
| VerifyEmail.FilledConcat | src/pages/auth/VerifyEmailPage.tsx:70 | six filled one-digit cells join into a code of the same length whose characters are the cells' digits in order |
| VerifyEmail.OtpChange | src/pages/auth/VerifyEmailPage.tsx:56-73 | a value other than empty or one digit changes nothing; otherwise only cell `index` changes, focus moves to the next cell after a digit unless in the last cell, and the six-digit code is submitted exactly when every cell is filled |
| VerifyEmail.Paste | src/pages/auth/VerifyEmailPage.tsx:82-99 | the first digits of the text, at most six, overwrite the first cells and the rest keep their value; focus goes to the cell after the last digit (at most the last); the code is submitted exactly when six digits were pasted |
| VerifyEmail.HandleSubmit | src/pages/auth/VerifyEmailPage.tsx:107-133 | the code is the given one or else the joined cells; a code not of length six is refused, then a missing address redirects to sign in, else the code is sent with that address |
| VerifyEmail.AutoSubmitReachesVerify | src/pages/auth/VerifyEmailPage.tsx:69-72 | every code the cells submit on their own reaches the verification request when an address is pending |
| VerifyEmail.OnVerifyFailed | src/pages/auth/VerifyEmailPage.tsx:127-131 | a failed verification empties all six cells and leaves the cooldown alone |
| VerifyEmail.HandleResend | src/pages/auth/VerifyEmailPage.tsx:135-155 | without an address the user goes back to sign in; a successful resend empties the cells and starts the 30-second cooldown; a failed one changes nothing |
| VerifyEmail.Tick | src/pages/auth/VerifyEmailPage.tsx:47-54 | a positive cooldown drops by one per second and zero stays zero |
| VerifyEmail.CooldownCountsDown | src/pages/auth/VerifyEmailPage.tsx:47-54 | after `n` seconds the cooldown is `c - n`, stopping at zero |
| VerifyEmail.EntryRedirect | src/pages/auth/VerifyEmailPage.tsx:29-39 | a signed-in user goes to the dashboard; otherwise the page redirects to sign in exactly when no verification is pending or no address is known |
| VerifyEmail.MaskEmail | src/pages/auth/VerifyEmailPage.tsx:168-172 | masking fails exactly when the part before the first `@` is shorter than two characters |
| VerifyEmail.MaskEmailShape | src/pages/auth/VerifyEmailPage.tsx:168-172 | for `local@domain` with a local part of two or more characters, the mask keeps the length, the first two characters, the `@` and the domain, and stars the rest of the local part |
| VerifyEmail.MaskEmailShortLocal | src/pages/auth/VerifyEmailPage.tsx:170 | a local part shorter than two characters makes the mask fail |
| Remarks.EditRights | src/components/modals/RemarksModal.tsx:85-91 | an administrator may edit any remark, a verification or field engineer exactly the remarks written by their own role, anyone else none; the author's name plays no part, and anyone who may edit also sees the add form |
| Remarks.HandleAdd | src/components/modals/RemarksModal.tsx:44-56 | blank input sends nothing; otherwise the trimmed, non-empty text is sent and the input is emptied only when the call succeeds |
| Remarks.HandleUpdate | src/components/modals/RemarksModal.tsx:58-70 | with no edit under way or blank text nothing is sent; otherwise the id and the trimmed, non-empty text are sent and the edit ends only on success |
| Remarks.EditedMark | src/components/modals/RemarksModal.tsx:249-251 | `(edited)` is shown exactly when the update time differs from the creation time, and nothing otherwise |
| Remarks.Insert | src/components/modals/RemarksModal.tsx:98 | inserting into a newest-first list keeps it newest first and adds exactly the one entry |
| Remarks.SortNewestFirst | src/components/modals/RemarksModal.tsx:98 | the result is newest first and a permutation of the input |
| Remarks.MergedRemarks | src/components/modals/RemarksModal.tsx:95-98 | the merged list is newest first, holds exactly the tagged field-engineer and verification-engineer remarks (a missing list counting as empty), and its length is the sum of theirs |
| Remarks.MergedMembership | src/components/modals/RemarksModal.tsx:95-98 | an entry is in the merged list exactly when its remark is in the list its tag names |
| Guards.ContextGuard | src/components/ProtectedRoute.tsx:15-116 | the spinner exactly until the session is initialised and idle; the fallback path without a signed-in user; for a signed-in user, the verification page exactly when verification is required and the address is unverified, otherwise the dashboard exactly when the administrator or role check fails, otherwise the inactive notice or the children |
| Guards.ContextGuardDefaults | src/components/ProtectedRoute.tsx:15-21 | with the default options an initialised, signed-in, verified and active user gets the children, and an admitted user holds one of any required roles |
| Guards.RoleGuard | src/components/auth/ProtectedRoute.tsx:11-49 | the spinner exactly while loading, sign-in exactly when signed out, Access Denied exactly when roles are listed and a present user holds none of them, the children otherwise |
| Guards.RoleGuardCopies | src/routes/AppRoutes.tsx:87-115 | the route table's copy of the guard differs from the hook's only in not carrying `from`, and a listed role set admits a user exactly when one role is held |
| Guards.AppRoute | src/routes/AppRoutes.tsx:29-79 | paths are matched without regard to ASCII case, as the table's routes set no `caseSensitive`; the spinner while loading; `/` to the dashboard or sign-in; sign-in and registration send signed-in users to the dashboard and show their page otherwise; protected pages show exactly for signed-in users and send others to sign in; the not-found page exactly for paths no route matches |
| Guards.RouteIgnoresCase | src/routes/AppRoutes.tsx:40-76 | paths differing only in ASCII case are both routed or both not found, and reach the same view unless they name a structure, whose id is kept as written |
| Guards.MixedCaseRoutes | src/routes/AppRoutes.tsx:48-61 | an example: `/Login` shows the sign-in page to a signed-out visitor and `/DASHBOARD` the dashboard to a signed-in one |
| Structures.SentPairs | src/services/structures.ts:27-31 | every parameter that is not undefined, null or empty is sent as a string, and everything sent comes from such a parameter |
| Structures.SentPairsInOrder | src/services/structures.ts:27-31 | the parameters are appended in their order: the pairs sent for two lists one after the other are the pairs of the first list then those of the second, and one parameter gives its own pair or nothing |
| Structures.SentPairsEmptyIff | src/services/structures.ts:27-31 | nothing is sent exactly when every parameter is undefined, null or empty |
| Structures.ListUrlQuery | src/services/structures.ts:33-34 | the list URL carries `?` and the serialised query exactly when some parameter is sent, and is the bare path otherwise |
| Structures.ItemId | src/services/structures.ts:42 | the id is the first non-empty of `_id`, `structure_id`, `uid`, and empty exactly when all three are |
| Structures.ItemStatistics | src/services/structures.ts:72-82 | missing counts read as 0, pending ratings are total minus rated but never negative, and no issues are reported |
| Structures.TransformItem | src/services/structures.ts:41-98 | the id chain, `uid` falling back to the id, the status falling back to `draft`, an empty floor list, and statistics exactly when a ratings summary is present |
| Structures.CeilDiv | src/services/structures.ts:125 | the quotient is the least integer at or above the exact one, for either sign of the divisor |
| Structures.DefaultTotalPages | src/services/structures.ts:125 | the derived page count is at least 1 and is the fewest pages of `per_page` items that hold all items |
| Structures.NormalizePagination | src/services/structures.ts:122-127 | each field comes from the backend, then the request, then the defaults 1, 12 and the number received; a backend page count and backend next/previous flags pass through unchanged; a computed count covers the items; missing flags mean "before the last page" and "after the first" |
| Structures.EmptyPaginationDefaults | src/services/structures.ts:122-127 | with nothing from the backend or the request and at most 12 items, the pagination is page 1 of 1, 12 per page, no next or previous page |
| Structures.BumpKeys | src/services/structures.ts:134 | after counting a status the tally lists exactly the old statuses and that one |
| Structures.BumpDistinct | src/services/structures.ts:134 | counting a status never lists a status twice |
| Structures.BumpCounts | src/services/structures.ts:134 | counting a status raises its count and the total by one and no other count |
| Structures.CountByStatusSpec | src/services/structures.ts:130-136 | the computed counts list each status once, count exactly the structures with that status, and add up to the number of structures |
| Structures.Summarize | src/services/structures.ts:129-141 | without the backend's counts the counts are computed and add up to the number of structures; without its total the total is that number |
| Structures.Normalize | src/services/structures.ts:119-164 | one transformed structure per item, in order; a missing total means the number received; a missing summary is computed from the list |
| Structures.FormatStatusTextPointwise | src/services/structures.ts:389-394 | the status text keeps the length, turns underscores into spaces and upper-cases the first character and every character after an underscore |
| Structures.LookupListed | src/services/structures.ts:364 | a table lookup finds a value exactly when the key is listed, and the value is listed with it |
| Structures.BadgeFallbackIff | src/services/structures.ts:364 | in a table of non-empty classes none of which is the fallback, a key gets the fallback exactly when it is not listed |
| Structures.BadgeLookupsFallBack | src/services/structures.ts:352-387 | each of the status, health and priority badge lookups falls back exactly for the keys it does not list |
| Structures.SixthsPercent | src/services/structures.ts:419 | `k` sixths as a percentage is the nearest integer, halves rounded up, between 0 and 100 |
| Structures.CompletedSteps | src/services/structures.ts:402-417 | between 0 and 6 steps are met |
| Structures.CompletionPercentage | src/services/structures.ts:396-420 | the progress record's percentage when present, else the rounded share of the six steps met |
| Structures.CompletionValues | src/services/structures.ts:401-419 | without a progress record the percentage is one of 0, 17, 33, 50, 67, 83, 100 |
| Structures.TransformedCompletion | src/services/structures.ts:67 | a normalised list item has no floors, so the "all flats rated" step holds vacuously, the floor steps never do, and without progress it scores 17, 33 or 50 |
| StructureLists.ToggleStatus | src/components/dashboard/StructureList.tsx:50-52 | choosing the current status clears the filter and any other choice selects it |
| StructureLists.ToggleStatusTwice | src/components/dashboard/StructureList.tsx:50-52 | choosing the same status twice restores the filter exactly when it was empty or already that status |
| StructureLists.SortBy | src/components/dashboard/StructureList.tsx:54-61 | the clicked field is selected; the same field flips the order and another field starts descending |
| StructureLists.SortByTwice | src/components/dashboard/StructureList.tsx:54-61 | clicking one field twice restores the order; a new field clicked twice ends ascending |
| StructureLists.ShownRange | src/components/dashboard/StructureList.tsx:161-162 | on a page inside the listing the range starts after the earlier pages and ends at the page's end or at the total |
| StructureLists.DashboardRange | src/components/dashboard/StructureList.tsx:161-162 | the range starts at `(page - 1) * size + 1`, and at 1 when the page or the size is missing; it ends at the smaller of `page * size` and the total, so at 0 without a size and at most 0 without a total |
| StructureLists.DashboardRangeWithin | src/components/dashboard/StructureList.tsx:160-163 | inside the listing the range is non-empty, lies within the total and covers at most one page |
| StructureLists.PageButtons | src/components/dashboard/StructureList.tsx:223-234 | the buttons are 1 up to the smaller of the page count and 5, none for a count that is not positive |
| StructureLists.PageButtonsValid | src/components/dashboard/StructureList.tsx:223-240 | a page has a button exactly when it exists and is at most 5, and the trailing `... N` appears exactly when there are more than 5 pages |
| StructureLists.PagerHasTwoButtons | src/components/dashboard/StructureList.tsx:212-234 | the dashboard pager is hidden while loading and, once loaded, shown exactly when it holds at least two page buttons |
| StructureLists.EmptyStateText | src/components/dashboard/StructureList.tsx:194-201 | a typed search shows "No structures found" with the adjust hint, otherwise "No structures yet" with the get-started hint |
| StructureLists.FilterChange | src/pages/structures/StructuresPage.tsx:87-96 | the key takes its value, each of the other six filters keeps its value, and the page goes back to 1 whatever key changed |
| StructureLists.Search | src/pages/structures/StructuresPage.tsx:79-85 | the search text is replaced and the page goes back to 1 |
| StructureLists.GoToPage | src/components/modals/StructureListModal.tsx:102-104 | the dialog's page change sets the page and keeps every other filter |
| StructureLists.SelectValue | src/pages/structures/StructuresPage.tsx:306 | the empty choice means no filter and any other choice is kept |
| StructureLists.PagerAlwaysFirstPage | src/pages/structures/StructuresPage.tsx:87-96 | every pager button lands on page 1, so from page 2 Next shows page 1 instead of 3 |
| StructureLists.PageHandler | src/pages/structures/StructuresPage.tsx:459-490 | as written, a pager button of the structures page keeps every filter but the page, and the page it shows is always 1 |
| StructureLists.PagerTarget | src/pages/structures/StructuresPage.tsx:461-487 | the intended pager shows the page the button names and keeps every other filter |
| StructureLists.FilterThenPage | src/pages/structures/StructuresPage.tsx:87-96 | changing a filter and then paging keeps the filter and shows the page asked for |
| StructureLists.PageRange | src/pages/structures/StructuresPage.tsx:451-452 | the page's range uses the request's limit, 20 when it is missing or zero |
| StructureLists.DialogRange | src/components/modals/StructureListModal.tsx:384-385 | the dialog's range uses the request's limit and lies within the total on a page inside the listing |
| StructureLists.RangesAgreeOnInitialLimit | src/components/modals/StructureListModal.tsx:40-43 | with the initial limit of 20 the page's and the dialog's ranges agree, and a filter change keeps that limit |
| StructureLists.PrevNextFollowPosition | src/components/dashboard/StructureList.tsx:212-248 | the dashboard list's pagination is the service's normalised block, so without backend flags its Previous is enabled exactly after the first page and Next exactly before the last; backend flags decide otherwise |
| StructureLists.DialogPrevNext | src/components/modals/StructureListModal.tsx:391-420 | the dialog reads the backend's flags unnormalised, so a button is enabled exactly when its flag is sent as `true` |
| StructureLists.DialogAndListButtonsDiffer | src/components/modals/StructureListModal.tsx:391-420 | on page 2 of 3 with no flags sent, the dialog disables both buttons while the dashboard list enables both |
| StructureLists.ViewFromDialog | src/components/modals/StructureListModal.tsx:106-109 | viewing from the dialog goes to `/structures/` followed by the id, and closes the dialog |
| StructureLists.CountStatus | src/pages/structures/StructuresPage.tsx:373 | a status card counts at most every row |
| StructureLists.CountWithIssues | src/pages/structures/StructuresPage.tsx:393 | the issues card counts at most every row |
| StructureLists.SummaryCounts | src/pages/structures/StructuresPage.tsx:371-385 | the Approved and Requires Inspection cards together never exceed the listing, and a status card is non-zero exactly when some row has that status |
| Formatters.FormatPhoneNumber | src/utils/formatters.ts:134-153 | a missing or empty number shows the dash; ten digits, or twelve starting with 91, show as `+91 ddddd ddddd`; anything else shows as given |
| Formatters.IndianFormatDigits | src/utils/formatters.ts:141-149 | the digits of a formatted number are 91 followed by the ten digits |
| Formatters.FormatPhoneIdempotent | src/utils/formatters.ts:134-153 | formatting a formatted number changes nothing |
| Formatters.SliceTo | src/utils/formatters.ts:172 | `slice(0, end)` is a prefix of length `end` capped at the text's length, a negative end counting from the back |
| Formatters.TruncateText | src/utils/formatters.ts:161-173 | a missing text shows the dash; a text within the limit is kept; a longer one becomes a prefix of the text followed by the suffix |
| Formatters.TruncateFits | src/utils/formatters.ts:168-172 | with room for the suffix a truncated text is exactly `maxLength` long: the first `maxLength - |suffix|` characters and the suffix |
| Formatters.TruncateOverlong | src/utils/formatters.ts:172 | without room for the suffix the slice end is negative, so `abcdef` truncated to 2 becomes `abcde...`, longer than the text |
| Formatters.CapitalizeWords | src/utils/formatters.ts:180-184 | an empty or missing text gives the empty text; otherwise the length is kept |
| Formatters.LowerOfCapitalized | src/utils/formatters.ts:183 | lower-casing a capitalised text gives back the lower-cased original |
| Formatters.CapitalizeWordsSpec | src/utils/formatters.ts:180-184 | capitalisation is idempotent and ignores the input's case; a word character is upper-cased exactly when it starts a run of word characters, and everything else is lower-cased |
| Formatters.Present | src/utils/formatters.ts:199-206 | the kept parts are non-empty, no more than given, and all of them when all are non-empty |
| Formatters.PresentMembers | src/utils/formatters.ts:199-206 | a text is kept exactly when it is non-empty and given as a part |
| Formatters.PresentInOrder | src/utils/formatters.ts:199-206 | the filter keeps the parts' order: the parts kept from two lists are those of the first then those of the second, and one part is kept alone or dropped |
| Formatters.PresentAllTruthy | src/utils/formatters.ts:199-206 | when every part is non-empty the filter keeps each part at its own position |
| Formatters.FullAddress | src/utils/formatters.ts:191-209 | an address with all six parts keeps them in the order line 1, line 2, city, state, pincode, country |
| Formatters.FormatAddressDashIff | src/utils/formatters.ts:191-209 | the address shows the dash exactly when no part is given or the only part is itself a dash; two or more parts give at least their count plus the separators |
| Formatters.FormatEnumValuePointwise | src/utils/formatters.ts:282-289 | an enum value keeps its length, underscores become spaces, a character starting the value or following an underscore is upper-cased and every other is lower-cased |
| Formatters.FormatHealthStatus | src/utils/formatters.ts:296-343 | a missing health is "Unknown" in grey, and every caption is non-empty |
| Formatters.HealthStatusCaseInsensitive | src/utils/formatters.ts:307-309 | two spellings that agree once lower-cased get the same caption and classes |
| Formatters.HealthStatusKnown | src/utils/formatters.ts:309-342 | good, fair, poor and critical in any case get their caption with the success, warning, warning and danger classes; any other value is capitalised with neutral classes |
| Formatters.HealthCaptionIsCapitalized | src/utils/formatters.ts:296-343 | every non-empty health gets the caption `capitalizeWords` would give it, the four known ones included |
| Table.CurrentKey | src/components/ui/Table.tsx:64 | a non-empty `sortKey` prop overrides the table's own key |
| Table.ClickToggles | src/components/ui/Table.tsx:67-81 | without a callback or overriding props, clicking a column starts ascending (unless it already sorted ascending) and then alternates; another column starts ascending |
| Table.HandleSort | src/components/ui/Table.tsx:67-81 | a non-sortable table ignores the click; otherwise the clicked key goes to the callback, or to the table's state when there is none, and the direction is descending exactly when that key is the current one in ascending order |
| Table.HeaderClick | src/components/ui/Table.tsx:126-136 | a header click sorts only a column that does not opt out in a sortable table, and then does what the sort handler does; anything else leaves the state as it is |
| Table.TableBody | src/components/ui/Table.tsx:101-116 | the spinner exactly while loading, even with rows; the empty state with its message when there are no rows; otherwise all the rows |
| Table.Cell | src/components/ui/Table.tsx:196 | a cell shows the dash exactly for a falsy value or the dash text itself; other text is shown as it is and a non-zero number as its decimal text |
| UrlQuery.Encode | src/services/structures.ts:29-33 | the form encoding of a name or value is at least as long as the text and at most twelve times as long, no character costing more than four percent-escaped bytes |
| UrlQuery.EncodeChars | src/services/structures.ts:33-34 | an encoding holds only unreserved characters, `+` and `%`, and never the separators `&` and `=` |
| UrlQuery.SerializeSplits | src/services/structures.ts:24-33 | splitting the query on `&` gives one piece per appended pair, in order, and each piece splits on `=` into its encoded name and value |
| UrlQuery.SerializeEmptyIff | src/services/structures.ts:33-34 | the query is empty, and so the address carries no `?`, exactly when no pair was appended |
| Badges.StatusConfig | src/components/ui/StatusBadge.tsx:15-73 | the structure statuses are looked up first, then the health statuses, the priorities and the roles, so `Critical` reads as the health status and never as `Critical Priority`; any other value gets the secondary colours and a label with underscores spaced |
| Badges.FallbackLabelShape | src/components/ui/StatusBadge.tsx:72 | the fallback label keeps the length, holds no underscore, and only spaces underscores or upper-cases letters |
| Badges.IconMatchesVariant | src/components/dashboard/StructureCard.tsx:23-35 | the card's icon and badge variant agree on approved and submitted; the building icon always comes with amber; amber is the building icon or ratings in progress; no status is red |
| Badges.CompletionColour | src/components/dashboard/StructureCard.tsx:140-144 | the bar is green exactly at 100, blue from 70 otherwise, amber from 40 below 70, and gray below 40 |
| Badges.CompletionColourMonotone | src/components/dashboard/StructureCard.tsx:140-144 | within 0 to 100 the colour never gets worse as completion grows |
| Badges.CompletionAbove100 | src/components/dashboard/StructureCard.tsx:140-144 | above 100 the bar is blue, ranked below the green of exactly 100 |
| Badges.ComputedCompletionColour | src/components/dashboard/StructureCard.tsx:140-144 | without a backend percentage the bar is green exactly when all six steps are done |
| Badges.CardHealthVariant | src/components/dashboard/StructureCard.tsx:118-125 | the card's health badge shows only for a truthy score: green from 4, red below 3, amber in between |
| Badges.HealthStatusColour | src/components/modals/StructureDetailModal.tsx:46-51 | the dialog's health colour is gray exactly for a missing or zero score |
| Badges.HealthColoursAgree | src/components/modals/StructureDetailModal.tsx:46-51 | whenever the card shows a health badge, the dialog shows the same colour, never gray |
| Badges.PriorityColour | src/components/modals/StructureDetailModal.tsx:53-61 | the priority is green exactly for Low, amber exactly for Medium, red exactly for High and Critical, and gray exactly for a missing or unknown one; it is never blue |
| Badges.RemarkCountIsMergedLength | src/components/modals/StructureDetailModal.tsx:122-125 | the remark count is the number of entries the remarks dialog lists |
| Badges.CardRemarkCount | src/components/dashboard/StructureCard.tsx:171-176 | the card shows a count exactly when the structure has a remarks object, and that count is the remark count |
| Badges.ListedItemHasNoCriticalAlert | src/components/dashboard/StructureCard.tsx:151-156 | a card in the list never shows the critical-issue alert, because the statistics derived for a listed item report zero critical issues |
| Badges.DashboardStats | src/components/dashboard/DashboardStats.tsx:17-48 | without a summary nothing is shown; with one, the four figures in order are the total, approved, submitted, and drafts plus ratings in progress, a missing count reading as 0 |
| Badges.CountedFiguresWithinTotal | src/components/dashboard/DashboardStats.tsx:17-48 | with a summary counted from the list, the approved, submitted and in-progress figures together never exceed the total |
| Avatar.Words | src/components/ui/Avatar.tsx:30 | every word is a non-empty run without whitespace, and text that starts with a word has it as its first word, starting with the text's first character |
| Avatar.WordsCons | src/components/ui/Avatar.tsx:30 | a word followed by whitespace and more text splits into that word, then the words of the rest |
| Avatar.Initials | src/components/ui/Avatar.tsx:27-36 | a blank name gives `?`; otherwise one or two characters, the first being the trimmed name's first character upper-cased, two exactly when there are two or more words |
| Avatar.InitialsOfFullName | src/components/ui/Avatar.tsx:27-36 | a first and last name around any middle names give the two upper-cased first letters |
| Avatar.BackgroundColour | src/components/ui/Avatar.tsx:38-63 | the secondary colour exactly for a blank name, otherwise a palette colour |
| Avatar.CharSumPermutation | src/components/ui/Avatar.tsx:61 | names with the same characters in any order have the same code sum |
| Avatar.AnagramsShareColour | src/components/ui/Avatar.tsx:59-62 | anagrams get the same colour |
| Avatar.ColoursDistinct | src/components/ui/Avatar.tsx:39-57 | the seventeen palette colours are all different |
| Avatar.LeadingSpaceKeepsInitials | src/components/ui/Avatar.tsx:28-30 | a leading space does not change the initials |
| Avatar.LeadingSpaceChangesColour | src/components/ui/Avatar.tsx:59-62 | a leading space always changes the colour of a non-blank name, because the code sum is taken before trimming |
| Avatar.ColourClass | src/components/ui/Avatar.tsx:65-70 | the colour class is present exactly when no image source is given, and it is the name's colour |
| Navigation.FilterAccess | src/components/layout/Sidebar.tsx:70-77 | the shown entries are the accessible ones, in their order; when every entry is accessible, all are shown |
| Navigation.LayoutAccess | src/components/layout/Sidebar.tsx:22-77 | every entry but `Users` is for everyone; `Users` is for administrators, who see the whole list |
| Navigation.AdminSectionsAgree | src/components/navigation/Sidebar.tsx:12-27 | the navigation sidebar shows `Admin Panel` exactly to those for whom the layout sidebar keeps `Users`, after the fixed entries |
| Navigation.HighlightsCompared | src/components/navigation/Sidebar.tsx:29-31 | the navigation sidebar's highlight implies the layout sidebar's except on the dashboard; the layout's also fires on `/reportsarchive` under `/reports`, where the other does not |
| Navigation.CreatePageHighlights | src/components/navigation/Sidebar.tsx:12-31 | on the create page exactly `Structures` and `Create Structure` are highlighted |
| Navigation.NavigateTo | src/hooks/useNavigation.tsx:57-71 | navigating clears the error, remembers the current location and asks the router for the path, replacing the entry exactly when asked to |
| Navigation.NavigateBack | src/hooks/useNavigation.tsx:73-84 | going back steps through history exactly when no previous path is remembered, and otherwise pushes that path |
| Navigation.BackUndoesNavigate | src/hooks/useNavigation.tsx:57-84 | navigating somewhere and then back returns to the location navigated from |
| Navigation.FixedDestinations | src/hooks/useNavigation.tsx:86-100 | signing in again replaces the entry with `/login`; opening a structure pushes its page, whose segments are `structures` and the id |
| Navigation.CurrentIsChild | src/hooks/useNavigation.tsx:106-112 | the current path is also a child path of itself |
| Navigation.PathSegments | src/hooks/useNavigation.tsx:114-116 | every segment is non-empty and holds no slash |
| Navigation.SegmentsRebuildPath | src/hooks/useNavigation.tsx:114-116 | a path `/a/b/c` without empty pieces is a slash followed by its segments joined with slashes |
| Header.HeaderName | src/components/layout/Header.tsx:28-33 | without a user the header shows `User`; without a first or last name it shows the username, or `User` when that is empty |
| Header.HeaderNameParts | src/components/layout/Header.tsx:28-33 | with tidy names the header shows `first last` or the one name set; names that are set but all blank show as empty, not as the username |
| Header.RoleDisplayName | src/components/layout/Header.tsx:35-43 | the four role codes get a longer name; any other text is shown as it is |
| Header.RoleNamesCompared | src/components/layout/Header.tsx:35-43 | the header and the status badge agree on the engineers' names but not on the administrator's |
| Header.RoleCaption | src/components/layout/Header.tsx:94 | the caption is empty without a user, `Administrator` for a primary AD role, and any unknown role as it is |
| Header.CaptionIgnoresRoleList | src/components/layout/Header.tsx:94 | a field engineer whose role list grants administration is an administrator but is captioned `Field Engineer` |
| Header.MoreRoles | src/components/layout/Header.tsx:96-100 | the note shows exactly when the user lists more than one role, and counts the others |
| Header.HandleLogout | src/components/layout/Header.tsx:23-26 | signing out from the header clears the three session keys, keeps every other key, drops the user and closes the menu |
| Header.HeaderLogoutSignsOut | src/components/layout/Header.tsx:23-26 | after signing out from the header the session is not authenticated |
| Header.Greeting | src/pages/DashboardPage.tsx:43-48 | morning exactly before 12, afternoon exactly from 12 to before 17, evening exactly from 17 |
| Header.DashboardName | src/pages/DashboardPage.tsx:50-55 | the dashboard shows the first name when one is set, otherwise the username, otherwise `User`; never the empty text |
| Header.NewStructureNeedsPermission | src/pages/DashboardPage.tsx:100 | the "New Structure" button is shown exactly when the user's permissions allow creating structures, whatever the user's roles |
| Header.DashboardSubtitle | src/pages/dashboard/DashboardPage.tsx:102-104 | the subtitle is "System Administrator" exactly for administrators, "Verification Engineer" exactly for other verification engineers, and "Dashboard" for everyone else |
| Header.NamesAgreeWithoutProfileName | src/pages/DashboardPage.tsx:50-55 | without a first or last name the header and the dashboard show the same name |
| Header.HeaderNameStartsWithDashboardName | src/pages/DashboardPage.tsx:50-55 | with a tidy first name the header's name starts with the dashboard's |
| Header.SelectedId | src/pages/DashboardPage.tsx:182 | the dialog gets an id exactly when a structure with a non-empty id is selected, and it is that id |
| Header.ClickOpensDialog | src/pages/DashboardPage.tsx:28-31 | clicking a listed structure renders the dialog exactly when one of its three identifiers was non-empty |
| Header.DashboardAlwaysShowsFigures | src/pages/DashboardPage.tsx:112 | the dashboard always shows the four figures, all zero when no summary has arrived |
| Badges.StructureStatusConfig | src/components/ui/StatusBadge.tsx:17-28 | the structure-status table has an entry exactly for the ten structure statuses |
| Badges.HealthStatusConfig | src/components/ui/StatusBadge.tsx:31-36 | the health table has an entry exactly for the four health statuses |
| Badges.PriorityConfig | src/components/ui/StatusBadge.tsx:39-44 | the priority table has an entry exactly for the four priorities |
| Badges.UserRoleConfig | src/components/ui/StatusBadge.tsx:47-52 | the role table has an entry exactly for the four role codes |

## Left out

- Asynchrony, React effects and re-renders: each handler is one atomic step, and an awaited call's outcome is a parameter.
- The e-mail regular expressions are a parameter `validEmail`, because regular-expression matching beyond `\d`, `\w` and `\s` is not modelled.
- react-hook-form's registration, focus and submit plumbing are not modelled. Only the field rules they are given are.
- Object keys inherited from the prototype are not modelled. Such a key passes the `in` tests of the badge tables and the reducer, and the model treats every lookup as an own-key lookup.
- The shape sniffing in `normalize` (src/services/structures.ts:100-117) is not modelled, because it guesses among several backend envelopes. The model starts from the item list and the optional pagination and summary.
- Dates are not modelled as dates. Remark timestamps are integers ordered by value.
- `formatDate`, `formatNumber`, `formatCurrency`, `formatPercentage`, `formatFileSize`, `formatCoordinates` and `formatRating` are not modelled. They depend on `Intl`, dates or floating-point rounding.
- `toFixed` display of health scores and `Math.round` of backend percentages are not modelled. They are floating point.
- Case mapping covers ASCII only, and a character outside the Basic Multilingual Plane counts as one code unit. `toUpperCase`, `toLowerCase` and `charCodeAt` on other characters are not modelled.
- Trailing slashes in paths get no special treatment, and paths are taken as already percent-decoded. Case is ignored only for ASCII letters, the only letters the route table holds.
- Structures.CountByStatus: the tally keeps statuses in first-seen order. A JavaScript object lists integer-like keys first, in ascending order, and this model does not reproduce that. Only the counts are stated.
- The router, browser history, toasts, console logging and `window.confirm` before a delete are not modelled. A navigation is returned as a value.
- Loading structures when a dialog opens, and fetching a structure's details or remarks, are left out. Both are server calls.
- `src/hooks/useAuth.tsx` is not part of this model, except for the sign-out its header uses, which is modelled by the service's `logout`.
- Navigation.FixedDestinations: the `state` passed with a navigation is not modelled, because it is handed to the router unchanged.
- Remarks.SortNewestFirst: the order among remarks with equal creation times is not stated, because the model's insertion sort is not proved stable as `Array.prototype.sort` is.
- The detail dialog fetches its structure again by id, with the backend's own statistics; that fetch is left out, so its critical-issue alert is stated only through `ShowsCriticalAlert`.
- Badges.CardHealthVariant: scores are reals, so the one-decimal display beside the badge is not modelled.

## Findings

| source | as written | input that shows it | evidently intended | confidence | as-written member | corrected member |
|---|---|---|---|---|---|---|
| src/pages/structures/StructuresPage.tsx:87-96 | the Previous, numbered and Next buttons call the filter handler with `page`, and that handler always sets the page back to 1 | from page 2 of a listing, Next asks for page 3 and page 1 is shown | each button shows the page it names and keeps every other filter, as the structures dialog's page change does | high; not executed | StructureLists.PagerAlwaysFirstPage | StructureLists.PagerTarget |

=== FILE: api_client.dfy ===
/**
 * The API client's interceptors: the request interceptor that attaches the
 * stored access token as a Bearer credential (section 2.1 of RFC 6750), and the
 * response interceptor that reacts to 401 Unauthorized (section 15.5.2 of
 * RFC 9110) by refreshing the token pair once and queueing every other 401 that
 * arrives while that refresh is outstanding.
 *
 * Each interceptor step is an atomic transition of `Client`; what the step
 * asks the outside world to do is returned as a list of `Effect`s.
 */
module ApiClient {
  import opened Wrappers
  import opened Text
  import opened Session

  /** A request configuration: its identity, the `_retry` mark, and the Authorization header. */
  datatype Request = Request(id: nat, retry: bool, authorization: Option<string>)

  /** What a promise is rejected with. */
  datatype Failure =
    | Original(id: nat)           // the request's own error, passed through unchanged
    | NoRefreshToken              // `new Error('No refresh token available')`
    | RefreshRejected(reason: string)

  datatype Effect =
    | CallRefresh(refreshToken: string)   // POST of the refresh token to the refresh endpoint
    | Resume(req: Request)                // a queued promise resolves; its continuation sends `req`
    | Replay(req: Request)                // the request that started the refresh is sent again
    | Reject(id: nat, reason: Failure)
    | Redirect(path: string)

  /**
   * The client's mutable fields. `origin` is the request whose 401 started the
   * outstanding refresh; `queue` holds the requests waiting for its outcome.
   */
  datatype Client = Client(
    isRefreshing: bool,
    origin: Option<Request>,
    queue: seq<Request>,
    storage: Storage,
    location: Option<string>)

  const Idle := Client(false, None, [], map[], None)

  /** The credential of the Bearer scheme. */
  function Bearer(token: string): string { "Bearer " + token }

  /** The token inside a Bearer credential, if the header is one. */
  function BearerToken(header: string): Option<string> {
    if StartsWith(header, "Bearer ") then Some(header[7..]) else None
  }

  lemma BearerRoundTrip(token: string)
    ensures BearerToken(Bearer(token)) == Some(token)
  {
    assert Bearer(token)[..7] == "Bearer ";
    assert Bearer(token)[7..] == token;
  }

  /**
   * The request interceptor: a truthy stored access token becomes the
   * Authorization header; otherwise the request goes out as it came.
   */
  function Intercept(st: Storage, req: Request): (r: Request)
    ensures r.id == req.id && r.retry == req.retry
    ensures AccessTokenKey in st && st[AccessTokenKey] != "" ==>
      r.authorization.Some? && BearerToken(r.authorization.value) == Some(st[AccessTokenKey])
    ensures AccessTokenKey !in st || st[AccessTokenKey] == "" ==> r == req
  {
    var token := GetItem(st, AccessTokenKey);
    if Truthy(token) then
      BearerRoundTrip(token.value);
      req.(authorization := Some(Bearer(token.value)))
    else req
  }

  /** A request without a header carries one after interception exactly when a token is stored. */
  lemma InterceptHeaderIff(st: Storage, req: Request)
    requires req.authorization.None?
    ensures Intercept(st, req).authorization.Some? <==> AccessTokenKey in st && st[AccessTokenKey] != ""
  {
  }

  /** The response interceptor's error handler, for a failure of `req` with HTTP status `status`. */
  function OnResponseError(c: Client, req: Request, status: Option<int>): (Client, seq<Effect>) {
    if status == Some(401) && !req.retry then
      if c.isRefreshing then (c.(queue := c.queue + [req]), [])
      else StartRefresh(c, req.(retry := true))
    else (c, [Reject(req.id, Original(req.id))])
  }

  /** Marks the refresh as outstanding, then posts the stored refresh token or fails at once. */
  function StartRefresh(c: Client, req: Request): (Client, seq<Effect>) {
    var started := c.(isRefreshing := true, origin := Some(req));
    var token := GetItem(c.storage, RefreshTokenKey);
    if Truthy(token) then (started, [CallRefresh(token.value)])
    else RefreshFail(started, NoRefreshToken)
  }

  /** The queued requests, each resumed with the new access token; `_retry` is left as it was. */
  function ResumeAll(queue: seq<Request>, token: string): (r: seq<Effect>)
    ensures |r| == |queue|
    ensures forall i | 0 <= i < |queue| ::
      r[i] == Resume(queue[i].(authorization := Some(Bearer(token))))
  {
    seq(|queue|, i requires 0 <= i < |queue| => Resume(queue[i].(authorization := Some(Bearer(token)))))
  }

  function RejectAll(queue: seq<Request>, e: Failure): (r: seq<Effect>)
    ensures |r| == |queue|
    ensures forall i | 0 <= i < |queue| :: r[i] == Reject(queue[i].id, e)
  {
    seq(|queue|, i requires 0 <= i < |queue| => Reject(queue[i].id, e))
  }

  /** The refresh endpoint answered with a new token pair. */
  function RefreshOk(c: Client, access: string, refresh: string): (Client, seq<Effect>)
    requires c.origin.Some?
  {
    var st := c.storage[AccessTokenKey := access][RefreshTokenKey := refresh];
    var replay := Replay(c.origin.value.(authorization := Some(Bearer(access))));
    (Client(false, None, [], st, c.location), ResumeAll(c.queue, access) + [replay])
  }

  /** The refresh failed (or could not start): everyone waiting is rejected and the session ends. */
  function RefreshFail(c: Client, e: Failure): (Client, seq<Effect>)
    requires c.origin.Some?
  {
    var rejected := RejectAll(c.queue, e) + [Reject(c.origin.value.id, e)];
    (Client(false, None, [], ClearSession(c.storage), Some("/login")), rejected + [Redirect("/login")])
  }

  /** The events the client reacts to. */
  datatype Event =
    | ResponseError(req: Request, status: Option<int>)
    | RefreshSucceeded(access: string, refresh: string)
    | RefreshFailed(reason: string)

  /** One event; a refresh outcome with no refresh outstanding changes nothing. */
  function Step(c: Client, ev: Event): (Client, seq<Effect>) {
    match ev
    case ResponseError(req, status) => OnResponseError(c, req, status)
    case RefreshSucceeded(a, r) => if c.origin.Some? then RefreshOk(c, a, r) else (c, [])
    case RefreshFailed(e) => if c.origin.Some? then RefreshFail(c, RefreshRejected(e)) else (c, [])
  }

  /**
   * The client's invariant: a refresh is outstanding exactly when there is an
   * originating request, that request is retry-marked, nothing waits while no
   * refresh is outstanding, and no waiting request is retry-marked.
   */
  ghost predicate Valid(c: Client) {
    && (c.isRefreshing <==> c.origin.Some?)
    && (c.origin.Some? ==> c.origin.value.retry)
    && (!c.isRefreshing ==> c.queue == [])
    && (forall i | 0 <= i < |c.queue| :: !c.queue[i].retry)
  }

  predicate IsCallRefresh(e: Effect) { e.CallRefresh? }

  /** Every step keeps the invariant. */
  lemma StepPreservesValid(c: Client, ev: Event)
    requires Valid(c)
    ensures Valid(Step(c, ev).0)
  {
  }

  /**
   * At most one refresh is ever outstanding: a step asks for a refresh only
   * from a client that had none outstanding, and leaves one outstanding.
   */
  lemma {:induction false} RefreshCalledOnlyFromIdle(c: Client, ev: Event)
    requires Valid(c)
    ensures (exists i | 0 <= i < |Step(c, ev).1| :: IsCallRefresh(Step(c, ev).1[i])) ==>
      !c.isRefreshing && Step(c, ev).0.isRefreshing && |Step(c, ev).1| == 1
  {
    var r := Step(c, ev);
    if ev.RefreshSucceeded? && c.origin.Some? {
      var a, t := ev.access, ev.refresh;
      forall i | 0 <= i < |r.1| ensures !IsCallRefresh(r.1[i]) {
        if i < |c.queue| {
          assert r.1[i] == ResumeAll(c.queue, a)[i];
        } else {
          assert r.1[i] == Replay(c.origin.value.(authorization := Some(Bearer(a))));
        }
      }
    } else if ev.RefreshFailed? && c.origin.Some? {
      RejectionsCallNothing(c, RefreshRejected(ev.reason));
    } else if ev.ResponseError? && ev.status == Some(401) && !ev.req.retry && !c.isRefreshing {
      var token := GetItem(c.storage, RefreshTokenKey);
      if !Truthy(token) {
        RejectionsCallNothing(c.(isRefreshing := true, origin := Some(ev.req.(retry := true))), NoRefreshToken);
      }
    }
  }

  lemma RejectionsCallNothing(c: Client, e: Failure)
    requires c.origin.Some?
    ensures forall i | 0 <= i < |RefreshFail(c, e).1| :: !IsCallRefresh(RefreshFail(c, e).1[i])
  {
    var r := RefreshFail(c, e).1;
    forall i | 0 <= i < |r| ensures !IsCallRefresh(r[i]) {
      if i < |c.queue| {
        assert r[i] == RejectAll(c.queue, e)[i];
      }
    }
  }

  /** A 401 while a refresh is outstanding is queued and starts nothing. */
  lemma QueuedWhileRefreshing(c: Client, req: Request)
    requires c.isRefreshing && !req.retry
    ensures OnResponseError(c, req, Some(401)) == (c.(queue := c.queue + [req]), [])
  {
  }

  /** Any other error, and any 401 on a retry-marked request, is passed through untouched. */
  lemma PassThrough(c: Client, req: Request, status: Option<int>)
    requires status != Some(401) || req.retry
    ensures OnResponseError(c, req, status) == (c, [Reject(req.id, Original(req.id))])
  {
  }

  /**
   * The first 401 with a stored refresh token marks the request, marks the
   * client as refreshing and posts exactly that token.
   */
  lemma FirstUnauthorizedStartsRefresh(c: Client, req: Request)
    requires !c.isRefreshing && !req.retry
    requires RefreshTokenKey in c.storage && c.storage[RefreshTokenKey] != ""
    ensures var r := OnResponseError(c, req, Some(401));
      && r.0.isRefreshing && r.0.origin == Some(req.(retry := true))
      && r.0.queue == c.queue && r.0.storage == c.storage
      && r.1 == [CallRefresh(c.storage[RefreshTokenKey])]
  {
  }

  /** Without a refresh token the failure path runs immediately and no refresh is posted. */
  lemma NoRefreshTokenFailsAtOnce(c: Client, req: Request)
    requires Valid(c) && !c.isRefreshing && !req.retry
    requires RefreshTokenKey !in c.storage || c.storage[RefreshTokenKey] == ""
    ensures var r := OnResponseError(c, req, Some(401));
      && !r.0.isRefreshing && r.0.location == Some("/login")
      && AccessTokenKey !in r.0.storage && RefreshTokenKey !in r.0.storage && UserDataKey !in r.0.storage
      && r.1 == [Reject(req.id, NoRefreshToken), Redirect("/login")]
  {
  }

  /**
   * A successful refresh stores both tokens, resumes every queued request in
   * enqueue order with the new token, replays the originating request with it
   * and settles with nothing outstanding.
   */
  lemma RefreshOkSettles(c: Client, access: string, refresh: string)
    requires Valid(c) && c.isRefreshing
    ensures var r := RefreshOk(c, access, refresh);
      && !r.0.isRefreshing && r.0.queue == []
      && r.0.storage[AccessTokenKey] == access && r.0.storage[RefreshTokenKey] == refresh
      && |r.1| == |c.queue| + 1
      && (forall i | 0 <= i < |c.queue| ::
            r.1[i].Resume? && r.1[i].req.id == c.queue[i].id
            && r.1[i].req.retry == c.queue[i].retry
            && r.1[i].req.authorization == Some(Bearer(access)))
      && r.1[|c.queue|] == Replay(c.origin.value.(authorization := Some(Bearer(access))))
  {
  }

  /**
   * A failed refresh rejects every queued request with the same error, in
   * order, then the originating request, clears the session and goes to the
   * login page.
   */
  lemma RefreshFailSettles(c: Client, e: string)
    requires Valid(c) && c.isRefreshing
    ensures var r := RefreshFail(c, RefreshRejected(e));
      && !r.0.isRefreshing && r.0.queue == [] && r.0.location == Some("/login")
      && AccessTokenKey !in r.0.storage && RefreshTokenKey !in r.0.storage && UserDataKey !in r.0.storage
      && |r.1| == |c.queue| + 2
      && (forall i | 0 <= i < |c.queue| :: r.1[i] == Reject(c.queue[i].id, RefreshRejected(e)))
      && r.1[|c.queue|] == Reject(c.origin.value.id, RefreshRejected(e))
  {
  }

  /**
   * Only the request that started a refresh is protected against a second
   * round: replayed and answered 401 again, it is rejected, while a resumed
   * queued request answered 401 again starts a new refresh.
   */
  lemma OnlyOriginIsRetryProtected(c: Client, access: string, refresh: string)
    requires Valid(c) && c.isRefreshing && |c.queue| > 0 && refresh != ""
    ensures var r := RefreshOk(c, access, refresh);
      var origin := r.1[|c.queue|].req;
      var first := r.1[0].req;
      && OnResponseError(r.0, origin, Some(401)).1 == [Reject(origin.id, Original(origin.id))]
      && OnResponseError(r.0, first, Some(401)).1 == [CallRefresh(refresh)]
  {
    var r := RefreshOk(c, access, refresh);
    assert r.1[0] == ResumeAll(c.queue, access)[0];
    assert r.1[|c.queue|] == Replay(c.origin.value.(authorization := Some(Bearer(access))));
    assert r.0.storage[RefreshTokenKey] == refresh;
  }

  /** The events of a run, applied in order, with all effects collected. */
  function Run(c: Client, evs: seq<Event>): (Client, seq<Effect>)
    decreases |evs|
  {
    if |evs| == 0 then (c, [])
    else
      var s := Step(c, evs[0]);
      var rest := Run(s.0, evs[1..]);
      (rest.0, s.1 + rest.1)
  }

  function Unauthorized(ids: seq<nat>): (evs: seq<Event>)
    ensures |evs| == |ids|
  {
    seq(|ids|, i requires 0 <= i < |ids| => ResponseError(Request(ids[i], false, None), Some(401)))
  }

  /** Every later 401 of a burst lands in the queue and posts nothing. */
  lemma {:induction false} BurstQueues(c: Client, ids: seq<nat>)
    requires c.isRefreshing
    ensures Run(c, Unauthorized(ids)).1 == []
    ensures Run(c, Unauthorized(ids)).0 ==
      c.(queue := c.queue + seq(|ids|, i requires 0 <= i < |ids| => Request(ids[i], false, None)))
    decreases |ids|
  {
    var waiting := seq(|ids|, i requires 0 <= i < |ids| => Request(ids[i], false, None));
    if |ids| == 0 {
      assert c.queue + waiting == c.queue;
    } else {
      var evs := Unauthorized(ids);
      var c1 := c.(queue := c.queue + [Request(ids[0], false, None)]);
      assert Step(c, evs[0]) == (c1, []);
      assert evs[1..] == Unauthorized(ids[1..]);
      BurstQueues(c1, ids[1..]);
      var tail := seq(|ids[1..]|, i requires 0 <= i < |ids[1..]| => Request(ids[1..][i], false, None));
      assert waiting == [Request(ids[0], false, None)] + tail;
      assert c1.queue + tail == c.queue + waiting;
    }
  }

  /**
   * A burst of fresh 401s on an idle client holding a refresh token posts
   * exactly one refresh, and queues every request of the burst but the first.
   */
  lemma BurstRefreshesOnce(c: Client, ids: seq<nat>)
    requires Valid(c) && !c.isRefreshing && |ids| > 0
    requires RefreshTokenKey in c.storage && c.storage[RefreshTokenKey] != ""
    ensures Run(c, Unauthorized(ids)).1 == [CallRefresh(c.storage[RefreshTokenKey])]
    ensures |Run(c, Unauthorized(ids)).0.queue| == |ids| - 1
    ensures Run(c, Unauthorized(ids)).0.origin == Some(Request(ids[0], true, None))
  {
    var evs := Unauthorized(ids);
    var s := Step(c, evs[0]);
    assert s.1 == [CallRefresh(c.storage[RefreshTokenKey])];
    assert evs[1..] == Unauthorized(ids[1..]);
    BurstQueues(s.0, ids[1..]);
  }

  /** The service's `handleError` input: an Axios error or anything else thrown. */
  datatype ErrorBody = ErrorBody(error: Option<string>, message: Option<string>, details: Option<seq<string>>)
  datatype HttpResponse = HttpResponse(status: int, data: Option<ErrorBody>)
  datatype Thrown =
    | AxiosError(message: string, response: Option<HttpResponse>)
    | OtherError(text: Option<string>)

  /** The message of an error that carries none. */
  const UnexpectedError := "An unexpected error occurred"

  /** The normalised error every service call throws. */
  datatype ApiError = ApiError(success: bool, error: string, details: Option<seq<string>>, statusCode: Option<int>)

  /** The response body of an Axios error, when the server sent one. */
  function Body(e: Thrown): Option<ErrorBody> {
    if e.AxiosError? && e.response.Some? then e.response.value.data else None
  }

  /** `error.response?.data?.error`. */
  function ServerError(e: Thrown): Option<string> {
    if Body(e).Some? then Body(e).value.error else None
  }

  /** `error.response?.data?.message`. */
  function ServerMessage(e: Thrown): Option<string> {
    if Body(e).Some? then Body(e).value.message else None
  }

  /**
   * `handleError`: never a success; an Axios error keeps the server's
   * `error` text (else its own message), details and status; anything else
   * keeps its message or a fixed fallback.
   */
  function HandleError(e: Thrown): (r: ApiError)
    ensures !r.success
    ensures e.AxiosError? ==>
      && r.statusCode == (if e.response.Some? then Some(e.response.value.status) else None)
      && (Truthy(ServerError(e)) ==> r.error == ServerError(e).value)
      && (!Truthy(ServerError(e)) ==> r.error == e.message)
      && r.details == (if Body(e).Some? then Body(e).value.details else None)
    ensures e.OtherError? ==> r.details.None? && r.statusCode.None?
    ensures e.OtherError? && Truthy(e.text) ==> r.error == e.text.value
    ensures e.OtherError? && !Truthy(e.text) ==> r.error == UnexpectedError
    ensures r.error == "" <==> e.AxiosError? && !Truthy(ServerError(e)) && e.message == ""
  {
    match e
    case AxiosError(msg, resp) =>
      ApiError(
        false,
        OrElse(ServerError(e), msg),
        if Body(e).Some? then Body(e).value.details else None,
        if resp.Some? then Some(resp.value.status) else None)
    case OtherError(msg) =>
      ApiError(false, OrElse(msg, UnexpectedError), None, None)
  }
}

=== FILE: auth_forms.dfy ===
/**
 * The sign-in and registration forms: the field validators of the
 * registration form and of the registration page (whose rules differ), the
 * sign-in form's validator, the per-field error bookkeeping shared by both
 * forms, the routing of server-side validation details to fields, and the
 * password-strength meter.
 *
 * Field errors are a map from field name to message, as the forms keep them;
 * an entry with the empty message is a cleared error. The e-mail pattern is a
 * parameter (`validEmail`): the regular expression itself is not modelled.
 */
module AuthForms {
  import opened Wrappers
  import opened Text

  type Errors = map<string, string>

  /** An error is on display when its field has a non-empty message. */
  predicate Shown(errors: Errors, field: string) {
    field in errors && errors[field] != ""
  }

  /**
   * `handleChange` of both forms: the edited field gets its new value, and
   * that field's error, if one is on display, is replaced by the empty message.
   */
  function HandleChange(form: map<string, string>, errors: Errors, name: string, value: string)
    : (r: (map<string, string>, Errors))
    ensures r.0 == form[name := value]
    ensures r.1.Keys == errors.Keys
    ensures !Shown(r.1, name)
    ensures forall k | k in errors && k != name :: r.1[k] == errors[k]
  {
    (form[name := value], if Shown(errors, name) then errors[name := ""] else errors)
  }

  /** Editing a field hides that field's error and no other. */
  lemma ChangeClearsOnlyThatField(form: map<string, string>, errors: Errors, name: string, value: string, k: string)
    ensures Shown(HandleChange(form, errors, name, value).1, k) <==> k != name && Shown(errors, k)
  {
  }

  // ----- Registration form -----

  datatype RegisterData = RegisterData(username: string, email: string, password: string, confirmPassword: string)

  const UsernameRequired := "Username is required"
  const UsernameTooShort := "Username must be at least 3 characters long"
  const UsernameInvalid := "Username can only contain letters, numbers, and underscores"
  const EmailRequired := "Email is required"
  const EmailInvalid := "Please enter a valid email address"
  const PasswordRequired := "Password is required"
  const PasswordTooShort := "Password must be at least 6 characters long"
  const ConfirmRequired := "Please confirm your password"
  const PasswordsDiffer := "Passwords do not match"

  /** `/^[a-zA-Z0-9_]+$/` apart from the emptiness, which every caller checks first. */
  predicate AllWordChars(s: string) {
    forall i | 0 <= i < |s| :: IsWordChar(s[i])
  }

  /** Records `m` under `k` when there is a message, and leaves the errors alone otherwise. */
  function Put(e: Errors, k: string, m: Option<string>): (r: Errors)
    ensures m.Some? ==> r == e[k := m.value]
    ensures m.None? ==> r == e
  {
    if m.Some? then e[k := m.value] else e
  }

  /** The registration form's username check: blank, then too short, then a character outside `[A-Za-z0-9_]`. */
  function UsernameError(u: string): (r: Option<string>)
    ensures r.None? <==> !IsBlank(u) && |u| >= 3 && AllWordChars(u)
    ensures IsBlank(u) ==> r == Some(UsernameRequired)
    ensures !IsBlank(u) && |u| < 3 ==> r == Some(UsernameTooShort)
    ensures !IsBlank(u) && |u| >= 3 && !AllWordChars(u) ==> r == Some(UsernameInvalid)
  {
    if IsBlank(u) then Some(UsernameRequired)
    else if |u| < 3 then Some(UsernameTooShort)
    else if !AllWordChars(u) then Some(UsernameInvalid)
    else None
  }

  function EmailError(e: string, validEmail: string -> bool): (r: Option<string>)
    ensures r.None? <==> !IsBlank(e) && validEmail(e)
    ensures IsBlank(e) ==> r == Some(EmailRequired)
  {
    if IsBlank(e) then Some(EmailRequired)
    else if !validEmail(e) then Some(EmailInvalid)
    else None
  }

  /** The registration form's password check: empty, then shorter than six. */
  function PasswordError(p: string): (r: Option<string>)
    ensures r.None? <==> |p| >= 6
    ensures p != "" && |p| < 6 ==> r == Some(PasswordTooShort)
  {
    if p == "" then Some(PasswordRequired)
    else if |p| < 6 then Some(PasswordTooShort)
    else None
  }

  function ConfirmError(p: string, c: string): (r: Option<string>)
    ensures r.None? <==> c != "" && c == p
    ensures c != "" && c != p ==> r == Some(PasswordsDiffer)
  {
    if c == "" then Some(ConfirmRequired)
    else if p != c then Some(PasswordsDiffer)
    else None
  }

  /**
   * The registration form's `validate`: each failing field gets its first
   * failing check's message and no other field gets an entry. The result is
   * true exactly when no entry was made.
   */
  function ValidateRegister(d: RegisterData, validEmail: string -> bool): (r: (bool, Errors))
    ensures r.0 <==> r.1 == map[]
    ensures r.0 <==>
      && !IsBlank(d.username) && |d.username| >= 3 && AllWordChars(d.username)
      && !IsBlank(d.email) && validEmail(d.email)
      && |d.password| >= 6
      && d.confirmPassword != "" && d.confirmPassword == d.password
    ensures r.1.Keys <= {"username", "email", "password", "confirmPassword"}
    ensures "username" in r.1 <==> UsernameError(d.username).Some?
    ensures "username" in r.1 ==> r.1["username"] == UsernameError(d.username).value
    ensures "email" in r.1 <==> EmailError(d.email, validEmail).Some?
    ensures "email" in r.1 ==> r.1["email"] == EmailError(d.email, validEmail).value
    ensures "password" in r.1 <==> PasswordError(d.password).Some?
    ensures "password" in r.1 ==> r.1["password"] == PasswordError(d.password).value
    ensures "confirmPassword" in r.1 <==> ConfirmError(d.password, d.confirmPassword).Some?
    ensures "confirmPassword" in r.1 ==> r.1["confirmPassword"] == ConfirmError(d.password, d.confirmPassword).value
  {
    var u, e, p, c :=
      UsernameError(d.username), EmailError(d.email, validEmail),
      PasswordError(d.password), ConfirmError(d.password, d.confirmPassword);
    var errors := Put(Put(Put(Put(map[], "username", u), "email", e), "password", p), "confirmPassword", c);
    var ok := u.None? && e.None? && p.None? && c.None?;
    assert !ok ==> errors != map[] by {
      if !ok {
        assert "username" in errors || "email" in errors || "password" in errors || "confirmPassword" in errors;
      }
    }
    (ok, errors)
  }

  /**
   * The field a server-side validation detail belongs to: the first of
   * `username`, `email`, `password` it mentions, else the form-wide `submit`.
   */
  function DetailField(detail: string): (f: string)
    ensures f in {"username", "email", "password", "submit"}
    ensures f == "submit" <==>
      !Contains(detail, "username") && !Contains(detail, "email") && !Contains(detail, "password")
  {
    if Contains(detail, "username") then "username"
    else if Contains(detail, "email") then "email"
    else if Contains(detail, "password") then "password"
    else "submit"
  }

  /** The details routed in order, each overwriting the entry of its field. */
  function RouteDetails(details: seq<string>): (r: Errors)
    ensures r.Keys <= {"username", "email", "password", "submit"}
    decreases |details|
  {
    if |details| == 0 then map[]
    else
      var last := details[|details| - 1];
      RouteDetails(details[..|details| - 1])[DetailField(last) := last]
  }

  /** A field has an entry exactly when some detail belongs to it. */
  lemma {:induction false} RouteDetailsKeys(details: seq<string>, f: string)
    ensures f in RouteDetails(details) <==> exists i | 0 <= i < |details| :: DetailField(details[i]) == f
    decreases |details|
  {
    if |details| > 0 {
      var n := |details| - 1;
      var init := details[..n];
      RouteDetailsKeys(init, f);
      if f in RouteDetails(init) {
        var i :| 0 <= i < n && DetailField(init[i]) == f;
        assert details[i] == init[i];
      }
      if exists i | 0 <= i < |details| :: DetailField(details[i]) == f {
        var i :| 0 <= i < |details| && DetailField(details[i]) == f;
        if i < n {
          assert DetailField(init[i]) == f;
        }
      }
    }
  }

  /** A field's entry is the LAST detail that belongs to it: later details of that field overwrite earlier ones. */
  lemma {:induction false} RouteDetailsLastWins(details: seq<string>, f: string)
    requires f in RouteDetails(details)
    ensures exists i | 0 <= i < |details| ::
      && RouteDetails(details)[f] == details[i] && DetailField(details[i]) == f
      && forall j | i < j < |details| :: DetailField(details[j]) != f
    decreases |details|
  {
    var n := |details| - 1;
    var init := details[..n];
    if DetailField(details[n]) == f {
      assert RouteDetails(details)[f] == details[n];
    } else {
      assert f in RouteDetails(init);
      RouteDetailsLastWins(init, f);
      var i :| 0 <= i < n && RouteDetails(init)[f] == init[i] && DetailField(init[i]) == f
        && forall j | i < j < n :: DetailField(init[j]) != f;
      assert details[i] == init[i];
      forall j | i < j < |details| ensures DetailField(details[j]) != f {
        if j < n {
          assert details[j] == init[j];
        }
      }
    }
  }

  const RegistrationFallback := "Registration failed. Please try again."

  /**
   * The registration form's errors after the server rejects the submission:
   * a `details` array (even an empty one) is routed field by field and
   * replaces all errors; otherwise the server's `error`, or a fixed message,
   * goes to `submit`.
   */
  function RegisterFailureErrors(details: Option<seq<string>>, error: Option<string>): (r: Errors)
    ensures details.Some? ==> r == RouteDetails(details.value)
    ensures details.None? ==> r.Keys == {"submit"} && r["submit"] != ""
    ensures details.None? && Truthy(error) ==> r["submit"] == error.value
    ensures details.None? && !Truthy(error) ==> r["submit"] == RegistrationFallback
  {
    if details.Some? then RouteDetails(details.value)
    else map["submit" := OrElse(error, RegistrationFallback)]
  }

  // ----- Sign-in form -----

  const IdentifierRequired := "Email or username is required"
  const LoginFallback := "Login failed. Please try again."

  /**
   * The sign-in form's `validate`: a blank identifier and an empty password
   * are the only errors (the password is not trimmed).
   */
  function ValidateLogin(identifier: string, password: string): (r: (bool, Errors))
    ensures r.0 <==> r.1 == map[]
    ensures r.0 <==> !IsBlank(identifier) && password != ""
    ensures "identifier" in r.1 <==> IsBlank(identifier)
    ensures "password" in r.1 <==> password == ""
    ensures r.1.Keys <= {"identifier", "password"}
  {
    var e0: Errors := map[];
    var e1 := if IsBlank(identifier) then e0["identifier" := IdentifierRequired] else e0;
    var e2 := if password == "" then e1["password" := PasswordRequired] else e1;
    (|e2| == 0, e2)
  }

  /** A password made of spaces passes; an identifier made of spaces does not. */
  lemma WhitespacePassword()
    ensures ValidateLogin("user", "   ").0
    ensures !ValidateLogin("   ", "secret").0
  {
    assert !IsBlank("user") by { assert !IsWhitespace("user"[0]); }
    assert IsBlank("   ");
  }

  /** The message shown when the sign-in request throws: the server's `error`, else a fixed text. */
  function LoginErrorMessage(error: Option<string>): (m: string)
    ensures m != ""
    ensures Truthy(error) ==> m == error.value
    ensures !Truthy(error) ==> m == LoginFallback
  {
    OrElse(error, LoginFallback)
  }

  // ----- Registration page -----

  const NameRequired := "Username is required"
  const NameTooShort := "Username must be at least 3 characters long"
  const NameTooLong := "Username cannot exceed 50 characters"
  const NameInvalid := "Username can only contain letters, numbers, and underscores"
  const AddressRequired := "Email address is required"
  const PageTooShort := "Password must be at least 8 characters long"
  const PageMixRequired := "Password must contain at least one uppercase letter, one lowercase letter, and one number"

  predicate HasLower(s: string) { exists i | 0 <= i < |s| :: IsLower(s[i]) }

  predicate HasUpper(s: string) { exists i | 0 <= i < |s| :: IsUpper(s[i]) }

  predicate HasDigit(s: string) { exists i | 0 <= i < |s| :: IsDigit(s[i]) }

  /**
   * A field rule of the registration page, checked in the order required,
   * length bounds, pattern; `None` when the value passes.
   */
  function UsernameRule(u: string): (r: Option<string>)
    ensures r.None? <==> 3 <= |u| <= 50 && AllWordChars(u)
    ensures u == "" ==> r == Some(NameRequired)
  {
    if u == "" then Some(NameRequired)
    else if |u| < 3 then Some(NameTooShort)
    else if |u| > 50 then Some(NameTooLong)
    else if !AllWordChars(u) then Some(NameInvalid)
    else None
  }

  function EmailRule(e: string, validEmail: string -> bool): (r: Option<string>)
    ensures r.None? <==> e != "" && validEmail(e)
  {
    if e == "" then Some(AddressRequired)
    else if !validEmail(e) then Some(EmailInvalid)
    else None
  }

  /**
   * The text before the first line terminator: what a `.` in the page's
   * lookaheads can reach from the start of the password.
   */
  function FirstLine(s: string): (r: string)
    ensures |r| <= |s| && r == s[..|r|]
    ensures forall i | 0 <= i < |r| :: !IsLineTerminator(r[i])
    ensures |r| < |s| ==> IsLineTerminator(s[|r|])
    decreases |s|
  {
    if |s| == 0 || IsLineTerminator(s[0]) then []
    else [s[0]] + FirstLine(s[1..])
  }

  /** The page's pattern `^(?=.*[a-z])(?=.*[A-Z])(?=.*\d)`: each class occurs on the first line. */
  predicate MixedFirstLine(p: string) {
    HasLower(FirstLine(p)) && HasUpper(FirstLine(p)) && HasDigit(FirstLine(p))
  }

  /** The page's password rule: required, then at least 8 characters, then the pattern. */
  function PasswordRule(p: string): (r: Option<string>)
    ensures r.None? <==> |p| >= 8 && MixedFirstLine(p)
    ensures p == "" ==> r == Some(PasswordRequired)
    ensures p != "" && |p| < 8 ==> r == Some(PageTooShort)
    ensures |p| >= 8 && !MixedFirstLine(p) ==> r == Some(PageMixRequired)
  {
    if p == "" then Some(PasswordRequired)
    else if |p| < 8 then Some(PageTooShort)
    else if !MixedFirstLine(p) then Some(PageMixRequired)
    else None
  }

  /**
   * The pattern looks at the first line only: on a password without a line
   * break it is the plain "has a lower-case letter, an upper-case letter and
   * a digit", and a match always means the whole password has all three.
   */
  lemma MixedFirstLineMeansMixed(p: string)
    ensures MixedFirstLine(p) ==> HasLower(p) && HasUpper(p) && HasDigit(p)
    ensures (forall i | 0 <= i < |p| :: !IsLineTerminator(p[i])) ==>
      (MixedFirstLine(p) <==> HasLower(p) && HasUpper(p) && HasDigit(p))
  {
    var l := FirstLine(p);
    if forall i | 0 <= i < |p| :: !IsLineTerminator(p[i]) {
      assert |l| == |p|;
      assert l == p;
    }
    if MixedFirstLine(p) {
      var a :| 0 <= a < |l| && IsLower(l[a]);
      var b :| 0 <= b < |l| && IsUpper(l[b]);
      var c :| 0 <= c < |l| && IsDigit(l[c]);
      assert p[a] == l[a] && p[b] == l[b] && p[c] == l[c];
    }
  }

  /** The first line of a line, a line break and anything after it is that line. */
  lemma {:induction false} FirstLineBeforeBreak(line: string, rest: string)
    requires forall i | 0 <= i < |line| :: !IsLineTerminator(line[i])
    requires |rest| > 0 && IsLineTerminator(rest[0])
    ensures FirstLine(line + rest) == line
    decreases |line|
  {
    if |line| > 0 {
      assert (line + rest)[1..] == line[1..] + rest;
      FirstLineBeforeBreak(line[1..], rest);
    }
  }

  /** A letter or digit after a line break does not count for the page, though it does for the meter. */
  lemma LineBreakHidesUpper()
    ensures PasswordRule("abcdefg1\nA") == Some(PageMixRequired)
    ensures PasswordStrength("abcdefg1\nA") == 4
  {
    var line, rest := "abcdefg1", "\nA";
    assert forall i | 0 <= i < |line| :: !IsLineTerminator(line[i]);
    FirstLineBeforeBreak(line, rest);
    assert "abcdefg1\nA" == line + rest;
    assert !HasUpper(line);
    var p := line + rest;
    assert IsLower(p[0]) && IsUpper(p[9]) && IsDigit(p[7]);
  }

  function ConfirmRule(c: string, password: string): (r: Option<string>)
    ensures r.None? <==> c != "" && c == password
  {
    if c == "" then Some(ConfirmRequired)
    else if c != password then Some(PasswordsDiffer)
    else None
  }

  /** Outcome of submitting the registration page. */
  datatype Submission = Blocked(errors: Errors) | Registered(data: RegisterData)

  /**
   * Submitting the page: any failing field rule blocks the submission with
   * that field's message; a confirmation that differs from the password
   * blocks it with the mismatch message on `confirmPassword`; otherwise the
   * data is sent to registration.
   */
  function SubmitRegisterPage(d: RegisterData, validEmail: string -> bool): (r: Submission)
    ensures r.Registered? <==>
      && 3 <= |d.username| <= 50 && AllWordChars(d.username)
      && d.email != "" && validEmail(d.email)
      && |d.password| >= 8 && MixedFirstLine(d.password)
      && d.confirmPassword == d.password
    ensures r.Registered? ==> r.data == d
    ensures d.confirmPassword != d.password ==>
      r.Blocked? && "confirmPassword" in r.errors && r.errors["confirmPassword"] != ""
  {
    var u, e, pw, c :=
      UsernameRule(d.username), EmailRule(d.email, validEmail),
      PasswordRule(d.password), ConfirmRule(d.confirmPassword, d.password);
    var errors := Put(Put(Put(Put(map[], "username", u), "email", e), "password", pw), "confirmPassword", c);
    assert errors == map[] ==> u.None? && e.None? && pw.None? && c.None? by {
      if !(u.None? && e.None? && pw.None? && c.None?) {
        assert "username" in errors || "email" in errors || "password" in errors || "confirmPassword" in errors;
      }
    }
    if errors != map[] then Blocked(errors)
    else if d.password != d.confirmPassword then Blocked(map["confirmPassword" := PasswordsDiffer])
    else Registered(d)
  }

  /**
   * The confirmation's messages: an empty confirmation asks for it, a
   * different one reports the mismatch, and no message shown is empty.
   */
  lemma SubmitMessages(d: RegisterData, validEmail: string -> bool)
    ensures var r := SubmitRegisterPage(d, validEmail);
      && (d.confirmPassword != "" && d.confirmPassword != d.password ==>
            r.Blocked? && "confirmPassword" in r.errors && r.errors["confirmPassword"] == PasswordsDiffer)
      && (d.confirmPassword == "" ==>
            r.Blocked? && "confirmPassword" in r.errors && r.errors["confirmPassword"] == ConfirmRequired)
      && (r.Blocked? ==> forall k | k in r.errors :: r.errors[k] != "")
  {
    var u, e, pw, c :=
      UsernameRule(d.username), EmailRule(d.email, validEmail),
      PasswordRule(d.password), ConfirmRule(d.confirmPassword, d.password);
    var errors := Put(Put(Put(Put(map[], "username", u), "email", e), "password", pw), "confirmPassword", c);
    assert c.Some? ==> "confirmPassword" in errors && errors["confirmPassword"] == c.value && errors != map[];
    assert SubmitRegisterPage(d, validEmail) ==
      if errors != map[] then Blocked(errors)
      else if d.password != d.confirmPassword then Blocked(map["confirmPassword" := PasswordsDiffer])
      else Registered(d);
  }

  /**
   * The two registration screens disagree: a six-character mixed password is
   * accepted by the form and rejected by the page.
   */
  lemma MinimumsDiffer(validEmail: string -> bool)
    requires validEmail("ab@cd.com")
    ensures ValidateRegister(RegisterData("abc", "ab@cd.com", "Abc123", "Abc123"), validEmail).0
    ensures SubmitRegisterPage(RegisterData("abc", "ab@cd.com", "Abc123", "Abc123"), validEmail).Blocked?
  {
    assert !IsBlank("abc") by { assert !IsWhitespace("abc"[0]); }
    assert !IsBlank("ab@cd.com") by { assert !IsWhitespace("ab@cd.com"[0]); }
  }

  function B2N(b: bool): nat { if b then 1 else 0 }

  /** `getPasswordStrength`: one point each for length at least 8, a lower-case letter, an upper-case letter and a digit. */
  function PasswordStrength(p: string): (s: nat)
    ensures s <= 4
    ensures s == 4 <==> |p| >= 8 && HasLower(p) && HasUpper(p) && HasDigit(p)
    ensures s == 0 <==> |p| < 8 && !HasLower(p) && !HasUpper(p) && !HasDigit(p)
  {
    B2N(|p| >= 8) + B2N(HasLower(p)) + B2N(HasUpper(p)) + B2N(HasDigit(p))
  }

  /** Any password the page accepts is rated at full strength. */
  lemma AcceptedPasswordIsStrong(p: string)
    requires PasswordRule(p).None?
    ensures PasswordStrength(p) == 4
  {
    MixedFirstLineMeansMixed(p);
  }

  /** The class of one of the four bars of the meter (levels 1 to 4). */
  function BarClass(strength: nat, level: nat): (c: string)
    ensures c != "bg-secondary-200" <==> strength >= level
    ensures strength >= level ==>
      c == (if strength >= 4 then "bg-success-500" else if strength >= 3 then "bg-warning-500" else "bg-danger-500")
  {
    if strength >= level then
      (if strength >= 4 then "bg-success-500" else if strength >= 3 then "bg-warning-500" else "bg-danger-500")
    else "bg-secondary-200"
  }

  /** The meter for a password: four bars, or nothing while the password is empty. */
  function StrengthMeter(p: string): (bars: seq<string>)
    ensures p == "" <==> bars == []
    ensures p != "" ==> |bars| == 4
  {
    if p == "" then [] else seq(4, i requires 0 <= i < 4 => BarClass(PasswordStrength(p), i + 1))
  }

  /**
   * The bars fill from the left: bar `i` is filled exactly when the strength
   * exceeds `i`, and all filled bars share one colour.
   */
  lemma MeterFillsFromLeft(p: string, i: nat, j: nat)
    requires p != "" && i < 4 && j < 4
    ensures StrengthMeter(p)[i] != "bg-secondary-200" <==> PasswordStrength(p) > i
    ensures StrengthMeter(p)[i] != "bg-secondary-200" && StrengthMeter(p)[j] != "bg-secondary-200" ==>
      StrengthMeter(p)[i] == StrengthMeter(p)[j]
  {
    assert StrengthMeter(p)[i] == BarClass(PasswordStrength(p), i + 1);
    assert StrengthMeter(p)[j] == BarClass(PasswordStrength(p), j + 1);
  }
}

=== FILE: auth_reducer.dfy ===
/**
 * The authentication context's reducer: a pure transition function over the
 * seven-field session state, driven by the sixteen actions the context
 * dispatches, and the role helpers the context exposes.
 */
module AuthReducer {
  import opened Wrappers
  import opened Users

  datatype AuthState = AuthState(
    user: Option<User>,
    isAuthenticated: bool,
    isLoading: bool,
    isInitialized: bool,
    error: Option<string>,
    requiresVerification: bool,
    pendingVerificationEmail: Option<string>)

  datatype Action =
    | InitializeStart
    | InitializeSuccess(user: User)
    | InitializeFailure
    | LoginStart
    | LoginSuccess(user: User, accessToken: string, refreshToken: string)
    | LoginFailure(message: string)
    | LoginRequiresVerification(email: string)
    | RegisterStart
    | RegisterSuccess(email: string)
    | RegisterFailure(message: string)
    | VerifyEmailStart
    | VerifyEmailSuccess(user: User)
    | VerifyEmailFailure(message: string)
    | Logout
    | ClearError
    | UpdateUser(user: User)

  const Initial := AuthState(None, false, false, false, None, false, None)

  function Reduce(s: AuthState, a: Action): (r: AuthState)
    ensures s.isInitialized ==> r.isInitialized
    ensures r.isInitialized != s.isInitialized ==> a.InitializeSuccess? || a.InitializeFailure?
    ensures (s.isAuthenticated ==> s.user.Some?) ==> (r.isAuthenticated ==> r.user.Some?)
  {
    match a
    case InitializeStart => s.(isLoading := true, error := None)
    case InitializeSuccess(u) =>
      s.(user := Some(u), isAuthenticated := true, isLoading := false, isInitialized := true,
         error := None, requiresVerification := false, pendingVerificationEmail := None)
    case InitializeFailure =>
      s.(user := None, isAuthenticated := false, isLoading := false, isInitialized := true, error := None)
    case LoginStart => s.(isLoading := true, error := None)
    case LoginSuccess(u, _, _) =>
      s.(user := Some(u), isAuthenticated := true, isLoading := false, error := None,
         requiresVerification := false, pendingVerificationEmail := None)
    case LoginFailure(m) =>
      s.(user := None, isAuthenticated := false, isLoading := false, error := Some(m))
    case LoginRequiresVerification(email) =>
      s.(isLoading := false, requiresVerification := true, pendingVerificationEmail := Some(email), error := None)
    case RegisterStart => s.(isLoading := true, error := None)
    case RegisterSuccess(email) =>
      s.(isLoading := false, requiresVerification := true, pendingVerificationEmail := Some(email), error := None)
    case RegisterFailure(m) => s.(isLoading := false, error := Some(m))
    case VerifyEmailStart => s.(isLoading := true, error := None)
    case VerifyEmailSuccess(u) =>
      s.(user := Some(u), isAuthenticated := true, isLoading := false, requiresVerification := false,
         pendingVerificationEmail := None, error := None)
    case VerifyEmailFailure(m) => s.(isLoading := false, error := Some(m))
    case Logout =>
      s.(user := None, isAuthenticated := false, isLoading := false, error := None,
         requiresVerification := false, pendingVerificationEmail := None)
    case ClearError => s.(error := None)
    case UpdateUser(u) => s.(user := Some(u))
  }

  /** The session invariant: an authenticated session has a user. */
  predicate Consistent(s: AuthState) {
    s.isAuthenticated ==> s.user.Some?
  }

  /** The state after a sequence of actions. */
  function Run(s: AuthState, actions: seq<Action>): (r: AuthState)
    decreases |actions|
  {
    if |actions| == 0 then s else Run(Reduce(s, actions[0]), actions[1..])
  }

  /**
   * Over any run, initialisation is never undone and the invariant is never
   * broken; in particular every state reachable from the initial one is consistent.
   */
  lemma {:induction false} RunKeepsInvariants(s: AuthState, actions: seq<Action>)
    ensures s.isInitialized ==> Run(s, actions).isInitialized
    ensures Consistent(s) ==> Consistent(Run(s, actions))
    decreases |actions|
  {
    if |actions| > 0 {
      RunKeepsInvariants(Reduce(s, actions[0]), actions[1..]);
    }
  }

  /** Initialisation is reached only through one of the two initialise outcomes. */
  lemma {:induction false} InitializedOnlyByInitialize(actions: seq<Action>)
    ensures Run(Initial, actions).isInitialized ==>
      exists i | 0 <= i < |actions| :: actions[i].InitializeSuccess? || actions[i].InitializeFailure?
  {
    InitializedOnlyFrom(Initial, actions);
  }

  lemma {:induction false} InitializedOnlyFrom(s: AuthState, actions: seq<Action>)
    requires !s.isInitialized
    ensures Run(s, actions).isInitialized ==>
      exists i | 0 <= i < |actions| :: actions[i].InitializeSuccess? || actions[i].InitializeFailure?
    decreases |actions|
  {
    if |actions| > 0 {
      var s1 := Reduce(s, actions[0]);
      if !s1.isInitialized {
        InitializedOnlyFrom(s1, actions[1..]);
        if Run(s, actions).isInitialized {
          var i :| 0 <= i < |actions[1..]| && (actions[1..][i].InitializeSuccess? || actions[1..][i].InitializeFailure?);
          assert actions[i + 1] == actions[1..][i];
        }
      }
    }
  }

  /** Every *_START action raises the loading flag, clears the error and touches nothing else. */
  lemma StartActions(s: AuthState, a: Action)
    requires a.InitializeStart? || a.LoginStart? || a.RegisterStart? || a.VerifyEmailStart?
    ensures Reduce(s, a) == s.(isLoading := true, error := None)
  {
  }

  /** LOGOUT ends the session and the pending verification but keeps the initialisation flag. */
  lemma LogoutClears(s: AuthState)
    ensures var r := Reduce(s, Logout);
      && r.user.None? && !r.isAuthenticated && !r.isLoading && r.error.None?
      && !r.requiresVerification && r.pendingVerificationEmail.None?
      && r.isInitialized == s.isInitialized
  {
  }

  /** CLEAR_ERROR changes only the error, UPDATE_USER only the user. */
  lemma NarrowActions(s: AuthState, u: User)
    ensures Reduce(s, ClearError) == s.(error := None)
    ensures Reduce(s, UpdateUser(u)) == s.(user := Some(u))
  {
  }

  /**
   * A login failure records the message and ends the session; registration
   * and verification failures record the message and keep the user.
   */
  lemma FailureActions(s: AuthState, m: string)
    ensures var r := Reduce(s, LoginFailure(m));
      r.error == Some(m) && r.user.None? && !r.isAuthenticated && !r.isLoading
    ensures var r := Reduce(s, RegisterFailure(m));
      r.error == Some(m) && r.user == s.user && r.isAuthenticated == s.isAuthenticated && !r.isLoading
    ensures var r := Reduce(s, VerifyEmailFailure(m));
      r.error == Some(m) && r.user == s.user && r.isAuthenticated == s.isAuthenticated && !r.isLoading
  {
  }

  /**
   * Needing verification (after login or registration) records the address;
   * a successful verification clears it and authenticates the verified user.
   */
  lemma VerificationActions(s: AuthState, email: string, u: User)
    ensures var r := Reduce(s, LoginRequiresVerification(email));
      r.requiresVerification && r.pendingVerificationEmail == Some(email) && r.user == s.user
    ensures var r := Reduce(s, RegisterSuccess(email));
      r.requiresVerification && r.pendingVerificationEmail == Some(email) && r.user == s.user
    ensures var r := Reduce(s, VerifyEmailSuccess(u));
      !r.requiresVerification && r.pendingVerificationEmail.None?
      && r.isAuthenticated && r.user == Some(u) && r.error.None?
  {
  }

  /** The context's `hasRole`, `hasAnyRole` and `isAdmin`, read off the state's user. */
  predicate StateHasRole(s: AuthState, role: string) { HasRole(s.user, role) }

  predicate StateHasAnyRole(s: AuthState, roles: seq<string>) { HasAnyRole(s.user, roles) }

  predicate StateIsAdmin(s: AuthState) { IsAdmin(s.user) }

  /**
   * Role checks see the user: nothing holds without one, and otherwise a role
   * holds when listed in `roles` or equal to `role`; `hasAnyRole` is the
   * existential and `isAdmin` is the administrator code.
   */
  lemma RoleHelpers(s: AuthState, role: string, roles: seq<string>)
    ensures StateHasRole(s, role) <==>
      s.user.Some? && ((s.user.value.roles.Some? && role in s.user.value.roles.value) || s.user.value.role == role)
    ensures StateHasAnyRole(s, roles) <==> exists i | 0 <= i < |roles| :: StateHasRole(s, roles[i])
    ensures StateIsAdmin(s) <==> StateHasRole(s, AD)
  {
    HasAnyRoleIff(s.user, roles);
  }
}

=== FILE: auth_service.dfy ===
/**
 * The authentication service's storage effects: what `login`, `logout` and
 * `refreshToken` leave in `localStorage`, and the session queries built on
 * the stored user.
 *
 * The server's answer is a parameter of each operation (`Delivered` or a
 * thrown error); `JSON.stringify` and `JSON.parse` are parameters too.
 */
module AuthService {
  import opened Wrappers
  import opened Session
  import opened Users
  import ApiClient

  /** What an awaited API call produced: its response body, or the error it threw. */
  datatype Reply<T> = Delivered(body: T) | Threw(error: ApiClient.Thrown)

  /** `JSON.parse` of a stored user: a syntax error, the literal `null`, or a user. */
  datatype Parsed = Malformed | ParsedNull | ParsedUser(user: User)

  datatype LoginResponse = LoginResponse(
    success: bool, message: string, user: User, accessToken: string, refreshToken: string)

  /** The object `login` throws: no user and empty tokens. */
  datatype LoginFailure = LoginFailure(
    success: bool, message: string, user: Option<User>, accessToken: string, refreshToken: string)

  datatype LoginOutcome = LoggedIn(response: LoginResponse) | LoginThrew(failure: LoginFailure)

  const LoginFallback := "Login failed. Please check your credentials."

  /**
   * `login`: a successful response stores both tokens and the serialised user;
   * an unsuccessful one is returned and stores nothing; a thrown error becomes
   * a failure object carrying the server's message or a fixed fallback.
   */
  function Login(st: Storage, serialize: User -> string, reply: Reply<LoginResponse>): (r: (Storage, LoginOutcome))
    ensures reply.Delivered? && reply.body.success ==>
      && r.0 == st[AccessTokenKey := reply.body.accessToken][RefreshTokenKey := reply.body.refreshToken]
                  [UserDataKey := serialize(reply.body.user)]
      && r.1 == LoggedIn(reply.body)
    ensures reply.Delivered? && !reply.body.success ==> r == (st, LoggedIn(reply.body))
    ensures reply.Threw? ==>
      && r.0 == st
      && r.1.LoginThrew? && !r.1.failure.success && r.1.failure.user.None?
      && r.1.failure.accessToken == "" && r.1.failure.refreshToken == ""
      && r.1.failure.message != ""
      && (Truthy(ApiClient.ServerMessage(reply.error)) ==>
            r.1.failure.message == ApiClient.ServerMessage(reply.error).value)
      && (!Truthy(ApiClient.ServerMessage(reply.error)) ==> r.1.failure.message == LoginFallback)
  {
    match reply
    case Delivered(resp) =>
      if resp.success then
        var st1 := st[AccessTokenKey := resp.accessToken][RefreshTokenKey := resp.refreshToken];
        (st1[UserDataKey := serialize(resp.user)], LoggedIn(resp))
      else (st, LoggedIn(resp))
    case Threw(e) =>
      var msg := OrElse(ApiClient.ServerMessage(e), LoginFallback);
      (st, LoginThrew(LoginFailure(false, msg, None, "", "")))
  }

  /**
   * A failed login reads the server's `message` field, while the client's
   * `handleError` reads its `error` field: for a server that fills only
   * `error`, the user sees the fixed fallback although the client has the
   * server's text, and the stored session is untouched.
   */
  lemma ThrownLoginIgnoresServerError(st: Storage, serialize: User -> string, e: ApiClient.Thrown)
    requires Truthy(ApiClient.ServerError(e)) && !Truthy(ApiClient.ServerMessage(e))
    ensures Login(st, serialize, Threw(e)) == (st, LoginThrew(LoginFailure(false, LoginFallback, None, "", "")))
    ensures ApiClient.HandleError(e).error == ApiClient.ServerError(e).value
  {
  }

  /**
   * `logout`: the refresh token is posted to the server only when one is
   * stored; whatever the server does, the three session keys are removed.
   * The first component is the token posted, if any.
   */
  function Logout(st: Storage): (r: (Option<string>, Storage))
    ensures r.0.Some? <==> RefreshTokenKey in st && st[RefreshTokenKey] != ""
    ensures r.0.Some? ==> r.0.value == st[RefreshTokenKey]
    ensures AccessTokenKey !in r.1 && RefreshTokenKey !in r.1 && UserDataKey !in r.1
  {
    var token := GetItem(st, RefreshTokenKey);
    (if Truthy(token) then token else None, ClearSession(st))
  }

  /** A second logout contacts nobody and changes nothing. */
  lemma LogoutIdempotent(st: Storage)
    ensures Logout(Logout(st).1).0.None?
    ensures Logout(Logout(st).1).1 == Logout(st).1
  {
    var once := Logout(st).1;
    assert ClearSession(once) == once;
  }

  datatype RefreshResponse = RefreshResponse(success: bool, accessToken: string, refreshToken: string)

  datatype RefreshOutcome = Refreshed(response: RefreshResponse) | RefreshThrew(error: ApiClient.ApiError)

  /**
   * `refreshToken`: without a stored refresh token it fails without calling
   * the server; a transport failure fails too; both failures clear the
   * session. A response marked successful overwrites both tokens. The first
   * component is the token posted, if any.
   */
  function RefreshToken(st: Storage, reply: Reply<RefreshResponse>): (r: (Option<string>, Storage, RefreshOutcome))
    ensures r.0.Some? <==> RefreshTokenKey in st && st[RefreshTokenKey] != ""
    ensures r.0.None? ==>
      && r.2 == RefreshThrew(ApiClient.ApiError(false, "No refresh token available", None, None))
      && r.1 == ClearSession(st)
    ensures r.0.Some? && reply.Threw? ==>
      r.1 == ClearSession(st) && r.2 == RefreshThrew(ApiClient.HandleError(reply.error))
    ensures r.0.Some? && reply.Delivered? ==>
      && r.2 == Refreshed(reply.body)
      && (reply.body.success ==>
            r.1 == st[AccessTokenKey := reply.body.accessToken][RefreshTokenKey := reply.body.refreshToken])
      && (!reply.body.success ==> r.1 == st)
  {
    var token := GetItem(st, RefreshTokenKey);
    if !Truthy(token) then
      var missing := ApiClient.OtherError(Some("No refresh token available"));
      (None, ClearSession(st), RefreshThrew(ApiClient.HandleError(missing)))
    else
      match reply
      case Threw(e) => (token, ClearSession(st), RefreshThrew(ApiClient.HandleError(e)))
      case Delivered(resp) =>
        if resp.success then
          (token, st[AccessTokenKey := resp.accessToken][RefreshTokenKey := resp.refreshToken], Refreshed(resp))
        else (token, st, Refreshed(resp))
  }

  /**
   * `getStoredUser`: no stored value (or an empty one) gives no user; an
   * unparsable value is removed and gives no user; otherwise the parsed user.
   */
  function GetStoredUser(st: Storage, parse: string -> Parsed): (r: (Option<User>, Storage))
    ensures UserDataKey !in st || st[UserDataKey] == "" ==> r == (None, st)
    ensures UserDataKey in st && st[UserDataKey] != "" ==>
      match parse(st[UserDataKey])
      case Malformed => r.0.None? && r.1 == st - {UserDataKey}
      case ParsedNull => r == (None, st)
      case ParsedUser(u) => r == (Some(u), st)
  {
    var data := GetItem(st, UserDataKey);
    if !Truthy(data) then (None, st)
    else
      match parse(data.value)
      case Malformed => (None, st - {UserDataKey})
      case ParsedNull => (None, st)
      case ParsedUser(u) => (Some(u), st)
  }

  /** `isAuthenticated`: a non-empty access token and a stored user. */
  function IsAuthenticated(st: Storage, parse: string -> Parsed): (r: (bool, Storage))
    ensures r.0 <==> AccessTokenKey in st && st[AccessTokenKey] != "" && GetStoredUser(st, parse).0.Some?
    ensures r.1 == GetStoredUser(st, parse).1
  {
    var token := GetItem(st, AccessTokenKey);
    var (user, st1) := GetStoredUser(st, parse);
    (Truthy(token) && user.Some?, st1)
  }

  /** `hasRole` on the stored user. */
  function StoredHasRole(st: Storage, parse: string -> Parsed, role: string): (r: (bool, Storage))
    ensures r.0 <==> HasRole(GetStoredUser(st, parse).0, role)
    ensures r.1 == GetStoredUser(st, parse).1
  {
    var (user, st1) := GetStoredUser(st, parse);
    (user.Some? && UserHasRole(user.value, role), st1)
  }

  /** `canManageRemarks`: `hasRole('VE') || hasRole('AD')`, the second asked only if the first fails. */
  function CanManageRemarks(st: Storage, parse: string -> Parsed): (r: (bool, Storage))
  {
    var (ve, st1) := StoredHasRole(st, parse, VE);
    if ve then (true, st1) else StoredHasRole(st1, parse, AD)
  }

  /** Remark management is allowed exactly to a stored verification engineer or administrator. */
  lemma CanManageRemarksIff(st: Storage, parse: string -> Parsed)
    ensures CanManageRemarks(st, parse).0 <==>
      HasRole(GetStoredUser(st, parse).0, VE) || HasRole(GetStoredUser(st, parse).0, AD)
  {
    var (user, st1) := GetStoredUser(st, parse);
    if !HasRole(user, VE) {
      assert GetStoredUser(st1, parse).0 == user;
    }
  }

  /**
   * After a successful login whose user survives serialisation, the session
   * is authenticated as soon as the access token is non-empty, and the stored
   * user is the one that logged in.
   */
  lemma LoginThenAuthenticated(st: Storage, serialize: User -> string, parse: string -> Parsed, resp: LoginResponse)
    requires resp.success && resp.accessToken != ""
    requires serialize(resp.user) != "" && parse(serialize(resp.user)) == ParsedUser(resp.user)
    ensures var st1 := Login(st, serialize, Delivered(resp)).0;
      IsAuthenticated(st1, parse).0 && GetStoredUser(st1, parse).0 == Some(resp.user)
  {
  }

  /** After logout nobody is authenticated, whatever was stored before. */
  lemma LogoutThenUnauthenticated(st: Storage, parse: string -> Parsed)
    ensures !IsAuthenticated(Logout(st).1, parse).0
  {
  }
}

=== FILE: avatar.dfy ===
/**
 * The avatar: the initials drawn from a name, the background colour picked
 * from the name's character codes, and when the colour class applies.
 *
 * Upper-casing is ASCII only, and a character counts once in the code sum
 * (characters outside the Basic Multilingual Plane are not split into
 * UTF-16 halves).
 */
module Avatar {
  import opened Wrappers
  import opened Text

  // ----- Words -----

  /** The length of the leading run of non-whitespace characters. */
  function RunLength(s: string): (k: nat)
    ensures k <= |s|
    ensures forall i | 0 <= i < k :: !IsWhitespace(s[i])
    ensures k < |s| ==> IsWhitespace(s[k])
    decreases |s|
  {
    if |s| == 0 || IsWhitespace(s[0]) then 0 else 1 + RunLength(s[1..])
  }

  predicate Word(w: string) {
    |w| > 0 && forall i | 0 <= i < |w| :: !IsWhitespace(w[i])
  }

  /**
   * The maximal runs of non-whitespace characters, in order: what
   * `t.split(/\s+/)` yields for a trimmed, non-blank `t`.
   */
  function Words(s: string): (ws: seq<string>)
    ensures forall i | 0 <= i < |ws| :: Word(ws[i])
    ensures |s| > 0 && !IsWhitespace(s[0]) ==> |ws| > 0 && |ws[0]| > 0 && ws[0][0] == s[0]
    decreases |s|
  {
    if |s| == 0 then []
    else if IsWhitespace(s[0]) then Words(s[1..])
    else
      var k := RunLength(s);
      [s[..k]] + Words(s[k..])
  }

  /** A word followed by whitespace and more text is the first word, then the words of the rest. */
  lemma WordsCons(w: string, gap: string, rest: string)
    requires Word(w) && |gap| > 0 && IsBlank(gap)
    ensures Words(w + gap + rest) == [w] + Words(rest)
  {
    var s := w + gap + rest;
    RunStopsAtGap(w, gap + rest);
    assert s == w + (gap + rest);
    assert s[..|w|] == w;
    assert s[|w|..] == gap + rest;
    WordsSkipBlank(gap, rest);
  }

  /** The leading run of a word followed by whitespace is the word. */
  lemma RunStopsAtGap(w: string, t: string)
    requires Word(w) && |t| > 0 && IsWhitespace(t[0])
    ensures RunLength(w + t) == |w|
  {
    var s := w + t;
    assert forall i | 0 <= i < |w| :: s[i] == w[i];
    assert s[|w|] == t[0];
  }

  /** Leading whitespace contributes no word. */
  lemma {:induction false} WordsSkipBlank(gap: string, rest: string)
    requires IsBlank(gap)
    ensures Words(gap + rest) == Words(rest)
    decreases |gap|
  {
    if |gap| > 0 {
      assert (gap + rest)[1..] == gap[1..] + rest;
      WordsSkipBlank(gap[1..], rest);
    } else {
      assert gap + rest == rest;
    }
  }

  /** A single word is its own only word. */
  lemma WordsOfWord(w: string)
    requires Word(w)
    ensures Words(w) == [w]
  {
    var k := RunLength(w);
    assert k == |w|;
    assert w[..k] == w && w[k..] == [];
  }

  // ----- Initials -----

  /**
   * `getInitials`: `?` for a blank name; otherwise the upper-cased first
   * character of the only word, or of the first and the last word.
   */
  function Initials(name: string): (r: string)
    ensures IsBlank(name) ==> r == "?"
    ensures !IsBlank(name) ==> 1 <= |r| <= 2 && r[0] == UpperChar(Trim(name)[0])
    ensures !IsBlank(name) ==> (|r| == 2 <==> |Words(Trim(name))| >= 2)
  {
    var t := Trim(name);
    if t == "" then "?" else WordInitials(Words(t))
  }

  /** The upper-cased first character of the only word, or of the first and the last word. */
  function WordInitials(ws: seq<string>): (r: string)
    requires |ws| > 0 && forall i | 0 <= i < |ws| :: |ws[i]| > 0
    ensures 1 <= |r| <= 2 && r[0] == UpperChar(ws[0][0])
    ensures |r| == 2 <==> |ws| >= 2
  {
    if |ws| == 1 then [UpperChar(ws[0][0])]
    else [UpperChar(ws[0][0]), UpperChar(ws[|ws| - 1][0])]
  }

  /** A trimmed text (nothing to strip at either end) is its own trim. */
  lemma TrimOfTrimmed(s: string)
    requires |s| > 0 && !IsWhitespace(s[0]) && !IsWhitespace(s[|s| - 1])
    ensures Trim(s) == s
  {
    assert TrimStart(s) == s;
    assert TrimEnd(s) == s;
  }

  /**
   * A first and a last name separated by single spaces give the two
   * upper-cased first letters; any middle words in between play no part.
   */
  lemma InitialsOfFullName(first: string, middle: seq<string>, last: string)
    requires Word(first) && Word(last) && forall i | 0 <= i < |middle| :: Word(middle[i])
    ensures Initials(first + " " + JoinSpaced(middle) + last) == [UpperChar(first[0]), UpperChar(last[0])]
  {
    var s := first + " " + JoinSpaced(middle) + last;
    FullNameWords(first, middle, last);
    FullNameTrimmed(first, middle, last);
    InitialsFromWords(s);
  }

  lemma FullNameWords(first: string, middle: seq<string>, last: string)
    requires Word(first) && Word(last) && forall i | 0 <= i < |middle| :: Word(middle[i])
    ensures Words(first + " " + JoinSpaced(middle) + last) == [first] + middle + [last]
  {
    var rest := JoinSpaced(middle) + last;
    ConcatRegroup(first, JoinSpaced(middle), last);
    WordsSpaced(middle, last);
    WordsCons(first, " ", rest);
  }

  lemma ConcatRegroup(a: string, b: string, c: string)
    ensures a + " " + b + c == a + " " + (b + c)
  {
  }

  lemma FullNameTrimmed(first: string, middle: seq<string>, last: string)
    requires Word(first) && Word(last)
    ensures Trim(first + " " + JoinSpaced(middle) + last) == first + " " + JoinSpaced(middle) + last
  {
    var s := first + " " + JoinSpaced(middle) + last;
    assert s[0] == first[0];
    assert s[|s| - 1] == last[|last| - 1];
    TrimOfTrimmed(s);
  }

  lemma InitialsFromWords(s: string)
    requires Trim(s) != ""
    ensures Initials(s) == WordInitials(Words(Trim(s)))
  {
  }

  /** Each word followed by one space. */
  function JoinSpaced(ws: seq<string>): string
    decreases |ws|
  {
    if |ws| == 0 then "" else ws[0] + " " + JoinSpaced(ws[1..])
  }

  lemma {:induction false} WordsSpaced(ws: seq<string>, last: string)
    requires Word(last) && forall i | 0 <= i < |ws| :: Word(ws[i])
    ensures Words(JoinSpaced(ws) + last) == ws + [last]
    decreases |ws|
  {
    if |ws| == 0 {
      assert JoinSpaced(ws) + last == last;
      WordsOfWord(last);
    } else {
      WordsSpaced(ws[1..], last);
      assert JoinSpaced(ws) + last == ws[0] + " " + (JoinSpaced(ws[1..]) + last);
      WordsCons(ws[0], " ", JoinSpaced(ws[1..]) + last);
      assert ws == [ws[0]] + ws[1..];
    }
  }

  // ----- Background colour -----

  const Colours: seq<string> := [
    "bg-red-500", "bg-orange-500", "bg-amber-500", "bg-yellow-500", "bg-lime-500", "bg-green-500",
    "bg-emerald-500", "bg-teal-500", "bg-cyan-500", "bg-sky-500", "bg-blue-500", "bg-indigo-500",
    "bg-violet-500", "bg-purple-500", "bg-fuchsia-500", "bg-pink-500", "bg-rose-500"]

  const BlankColour := "bg-secondary-500"

  /** The sum of the character codes. */
  function CharSum(s: string): nat
    decreases |s|
  {
    if |s| == 0 then 0 else s[0] as nat + CharSum(s[1..])
  }

  /**
   * `getBackgroundColor`: the secondary colour for a blank name, otherwise
   * the palette entry at the code sum modulo the palette's size, taken over
   * the untrimmed name.
   */
  function BackgroundColour(name: string): (r: string)
    ensures IsBlank(name) <==> r == BlankColour
    ensures !IsBlank(name) ==> r in Colours
  {
    if IsBlank(name) then BlankColour else Colours[CharSum(name) % |Colours|]
  }

  lemma {:induction false} CharSumAppend(a: string, b: string)
    ensures CharSum(a + b) == CharSum(a) + CharSum(b)
    decreases |a|
  {
    if |a| > 0 {
      assert (a + b)[1..] == a[1..] + b;
      CharSumAppend(a[1..], b);
    } else {
      assert a + b == b;
    }
  }

  /** Names with the same characters, in any order, have the same code sum. */
  lemma {:induction false} CharSumPermutation(a: string, b: string)
    requires multiset(a) == multiset(b)
    ensures CharSum(a) == CharSum(b)
    decreases |a|
  {
    if |a| > 0 {
      assert a[0] in multiset(b);
      var j :| 0 <= j < |b| && b[j] == a[0];
      var rest := b[..j] + b[j + 1..];
      assert b == b[..j] + [b[j]] + b[j + 1..];
      assert a == [a[0]] + a[1..];
      assert multiset(b) == multiset(b[..j]) + multiset{b[j]} + multiset(b[j + 1..]);
      assert multiset(a) == multiset{a[0]} + multiset(a[1..]);
      assert multiset(rest) == multiset(b[..j]) + multiset(b[j + 1..]);
      calc {
        multiset(a[1..]);
        multiset(a) - multiset{a[0]};
        multiset(b) - multiset{b[j]};
        multiset(rest);
      }
      CharSumPermutation(a[1..], rest);
      CharSumAppend(b[..j] + [b[j]], b[j + 1..]);
      CharSumAppend(b[..j], [b[j]]);
      CharSumAppend(b[..j], b[j + 1..]);
    } else {
      assert |multiset(b)| == 0;
    }
  }

  /** Anagrams get the same colour. */
  lemma AnagramsShareColour(a: string, b: string)
    requires multiset(a) == multiset(b)
    ensures BackgroundColour(a) == BackgroundColour(b)
  {
    CharSumPermutation(a, b);
    if IsBlank(a) { BlankPermutation(a, b); }
    if IsBlank(b) { BlankPermutation(b, a); }
  }

  lemma BlankPermutation(a: string, b: string)
    requires multiset(a) == multiset(b) && IsBlank(a)
    ensures IsBlank(b)
  {
    forall i | 0 <= i < |b| ensures IsWhitespace(b[i]) {
      assert b[i] in multiset(a);
    }
  }

  /** The palette has no repeated colour. */
  lemma ColoursDistinct()
    ensures forall i, j | 0 <= i < j < |Colours| :: Colours[i] != Colours[j]
  {
    forall i, j | 0 <= i < j < |Colours| ensures Colours[i] != Colours[j] {
      assert Colours[i][3] != Colours[j][3] || Colours[i][4] != Colours[j][4];
    }
  }

  /** The initials ignore a leading space. */
  lemma LeadingSpaceKeepsInitials(name: string)
    ensures Initials(" " + name) == Initials(name)
  {
    assert (" " + name)[1..] == name;
    assert TrimStart(" " + name) == TrimStart(name);
  }

  /**
   * The colour does not ignore it: a space adds 32 to the code sum, which is
   * not a multiple of the palette's 17 colours, so a padded name always gets
   * a different colour.
   */
  lemma LeadingSpaceChangesColour(name: string)
    requires !IsBlank(name)
    ensures BackgroundColour(" " + name) != BackgroundColour(name)
  {
    assert !IsBlank(" " + name) by {
      var i :| 0 <= i < |name| && !IsWhitespace(name[i]);
      assert (" " + name)[i + 1] == name[i];
    }
    CharSumAppend(" ", name);
    assert CharSum(" ") == 32;
    var x := CharSum(name);
    assert (x + 32) % 17 != x % 17;
    ColoursDistinct();
  }

  /** The avatar's classes carry a background colour only when no image source is given. */
  function ColourClass(src: Option<string>, name: string): (r: Option<string>)
    ensures r.Some? <==> !Truthy(src)
    ensures r.Some? ==> r.value == BackgroundColour(name)
  {
    if Truthy(src) then None else Some(BackgroundColour(name))
  }
}

=== FILE: badges.dfy ===
/**
 * Labels and colours of the structure views: the status badge's four
 * lookup tables with their precedence and fallback label, the card's and
 * the detail dialog's icons and badge variants, the completion bar colour,
 * the remark count and critical-issue alert, and the dashboard's four
 * summary figures.
 *
 * Health scores are reals; their one-decimal display is not modelled.
 */
module Badges {
  import opened Wrappers
  import opened Text
  import opened Structures
  import Remarks

  // ----- The status badge -----

  /** The classes and text of one badge. */
  datatype Config = Config(bg: string, text: string, caption: string)

  const Secondary := Config("bg-secondary-100", "text-secondary-800", "")

  /** The structure-status table: one entry for each of the ten statuses. */
  function StructureStatusConfig(key: string): (c: Option<Config>)
    ensures c.Some? <==> key in StructureStatuses
  {
    match key
    case "draft" => Some(Config("bg-secondary-100", "text-secondary-800", "Draft"))
    case "location_completed" => Some(Config("bg-primary-100", "text-primary-800", "Location Set"))
    case "admin_completed" => Some(Config("bg-primary-100", "text-primary-800", "Admin Complete"))
    case "geometric_completed" => Some(Config("bg-primary-100", "text-primary-800", "Geometric Set"))
    case "ratings_in_progress" => Some(Config("bg-warning-100", "text-warning-800", "In Progress"))
    case "flat_ratings_completed" => Some(Config("bg-success-100", "text-success-800", "Ratings Complete"))
    case "submitted" => Some(Config("bg-primary-100", "text-primary-800", "Submitted"))
    case "approved" => Some(Config("bg-success-100", "text-success-800", "Approved"))
    case "requires_inspection" => Some(Config("bg-warning-100", "text-warning-800", "Requires Inspection"))
    case "maintenance_needed" => Some(Config("bg-danger-100", "text-danger-800", "Maintenance Needed"))
    case _ => None
  }

  /** The health table, total over the four health statuses. */
  function HealthStatusConfig(key: string): (c: Option<Config>)
    ensures c.Some? <==> key in HealthStatuses
  {
    match key
    case "Good" => Some(Config("bg-success-100", "text-success-800", "Good"))
    case "Fair" => Some(Config("bg-warning-100", "text-warning-800", "Fair"))
    case "Poor" => Some(Config("bg-warning-100", "text-warning-800", "Poor"))
    case "Critical" => Some(Config("bg-danger-100", "text-danger-800", "Critical"))
    case _ => None
  }

  /** The priority table, total over the four priorities. */
  function PriorityConfig(key: string): (c: Option<Config>)
    ensures c.Some? <==> key in Priorities
  {
    match key
    case "Low" => Some(Config("bg-success-100", "text-success-800", "Low Priority"))
    case "Medium" => Some(Config("bg-warning-100", "text-warning-800", "Medium Priority"))
    case "High" => Some(Config("bg-warning-100", "text-warning-800", "High Priority"))
    case "Critical" => Some(Config("bg-danger-100", "text-danger-800", "Critical Priority"))
    case _ => None
  }

  /** The role table, total over the four roles. */
  function UserRoleConfig(key: string): (c: Option<Config>)
    ensures c.Some? <==> key in UserRoles
  {
    match key
    case "AD" => Some(Config("bg-primary-100", "text-primary-800", "Admin"))
    case "TE" => Some(Config("bg-secondary-100", "text-secondary-800", "Technical Engineer"))
    case "VE" => Some(Config("bg-success-100", "text-success-800", "Verification Engineer"))
    case "FE" => Some(Config("bg-warning-100", "text-warning-800", "Field Engineer"))
    case _ => None
  }

  /** The enumerations the tables are keyed by. */
  const StructureStatuses := {"draft", "location_completed", "admin_completed", "geometric_completed",
    "ratings_in_progress", "flat_ratings_completed", "submitted", "approved", "requires_inspection",
    "maintenance_needed"}
  const HealthStatuses := {"Good", "Fair", "Poor", "Critical"}
  const Priorities := {"Low", "Medium", "High", "Critical"}
  const UserRoles := {"AD", "TE", "VE", "FE"}

  /** `s.replace(/_/g, ' ')`. */
  function UnderscoresToSpaces(s: string): (r: string)
    ensures |r| == |s|
    ensures forall i | 0 <= i < |s| :: r[i] == (if s[i] == '_' then ' ' else s[i])
  {
    seq(|s|, i requires 0 <= i < |s| => if s[i] == '_' then ' ' else s[i])
  }

  /** The label of a status no table lists: underscores become spaces, then word starts are uppercased. */
  function FallbackLabel(status: string): string {
    UpperWordStarts(UnderscoresToSpaces(status))
  }

  /**
   * `getStatusConfig`: the entry of the first table, in the order structure
   * status, health, priority, role, that lists the value; otherwise the
   * secondary colours with the fallback label. Each enumeration value gets
   * its own table's entry except the priority `Critical`, which the health
   * table answers first, so the `Critical Priority` caption is never chosen
   * from a table.
   */
  function StatusConfig(status: string): (r: Config)
    ensures status in StructureStatuses ==> Some(r) == StructureStatusConfig(status)
    ensures status in HealthStatuses ==> Some(r) == HealthStatusConfig(status)
    ensures status in Priorities - {"Critical"} ==> Some(r) == PriorityConfig(status)
    ensures status in UserRoles ==> Some(r) == UserRoleConfig(status)
    ensures status in StructureStatuses + HealthStatuses + Priorities + UserRoles ==> r.caption != "Critical Priority"
    ensures status !in StructureStatuses + HealthStatuses + Priorities + UserRoles ==>
      r == Secondary.(caption := FallbackLabel(status))
  {
    if StructureStatusConfig(status).Some? then StructureStatusConfig(status).value
    else if HealthStatusConfig(status).Some? then HealthStatusConfig(status).value
    else if PriorityConfig(status).Some? then PriorityConfig(status).value
    else if UserRoleConfig(status).Some? then UserRoleConfig(status).value
    else Secondary.(caption := FallbackLabel(status))
  }

  /** One character of the fallback label, from the status alone. */
  lemma FallbackLabelAt(status: string, i: nat)
    requires i < |status|
    ensures |FallbackLabel(status)| == |status|
    ensures status[i] == '_' ==> FallbackLabel(status)[i] == ' '
    ensures status[i] != '_' ==>
      FallbackLabel(status)[i] == (if i == 0 || !IsWordChar(UnderscoresToSpaces(status)[i - 1]) then UpperChar(status[i]) else status[i])
  {
    var t := UnderscoresToSpaces(status);
    assert FallbackLabel(status)[i] ==
      (if IsWordChar(t[i]) && (i == 0 || !IsWordChar(t[i - 1])) then UpperChar(t[i]) else t[i]);
  }

  /**
   * The fallback label keeps the length, has no underscore left, and
   * differs from the status only where an underscore became a space or a
   * lower-case letter starting a word was uppercased.
   */
  lemma FallbackLabelShape(status: string)
    ensures |FallbackLabel(status)| == |status|
    ensures '_' !in FallbackLabel(status)
    ensures forall i | 0 <= i < |status| ::
      (|| FallbackLabel(status)[i] == status[i]
       || (status[i] == '_' && FallbackLabel(status)[i] == ' ')
       || (IsLower(status[i]) && FallbackLabel(status)[i] == UpperChar(status[i])))
  {
    var l := FallbackLabel(status);
    forall i | 0 <= i < |status|
      ensures l[i] != '_'
      ensures l[i] == status[i] || (status[i] == '_' && l[i] == ' ') || (IsLower(status[i]) && l[i] == UpperChar(status[i]))
    {
      FallbackLabelAt(status, i);
    }
  }

  // ----- Structure card and detail dialog -----

  datatype Icon = CheckIcon | ClockIcon | WarningIcon | BuildingIcon

  /** `getStatusIcon` of the structure card. */
  function StatusIcon(status: string): (i: Icon) {
    match status
    case "approved" => CheckIcon
    case "submitted" => ClockIcon
    case "draft" => WarningIcon
    case "ratings_in_progress" => WarningIcon
    case _ => BuildingIcon
  }

  datatype Variant = Green | Blue | Amber | Red | Gray

  /** The status badge variant, the same in the card and the detail dialog. */
  function StatusVariant(status: string): Variant {
    if status == "approved" then Green
    else if status == "submitted" then Blue
    else if status == "draft" then Gray
    else Amber
  }

  /**
   * The icon and the variant follow the same split of the statuses: the
   * building icon (an unnamed status) always comes with amber, and only
   * `ratings_in_progress` differs from the other unnamed statuses, by its
   * warning icon.
   */
  lemma IconMatchesVariant(status: string)
    ensures StatusIcon(status) == CheckIcon <==> StatusVariant(status) == Green
    ensures StatusIcon(status) == ClockIcon <==> StatusVariant(status) == Blue
    ensures StatusIcon(status) == BuildingIcon ==> StatusVariant(status) == Amber
    ensures StatusVariant(status) == Amber <==> StatusIcon(status) == BuildingIcon || status == "ratings_in_progress"
    ensures StatusVariant(status) != Red
  {
  }

  /** The completion bar colour: green at exactly 100, then blue from 70, amber from 40, else gray. */
  function CompletionColour(percent: int): (c: string)
    ensures c == "bg-green-500" <==> percent == 100
    ensures c == "bg-blue-500" <==> percent != 100 && percent >= 70
    ensures c == "bg-amber-500" <==> 40 <= percent < 70
    ensures c == "bg-gray-400" <==> percent < 40
  {
    if percent == 100 then "bg-green-500"
    else if percent >= 70 then "bg-blue-500"
    else if percent >= 40 then "bg-amber-500"
    else "bg-gray-400"
  }

  function ColourRank(c: string): int {
    if c == "bg-green-500" then 3 else if c == "bg-blue-500" then 2 else if c == "bg-amber-500" then 1 else 0
  }

  /** Within 0..100 the colour never gets worse as completion grows. */
  lemma CompletionColourMonotone(p: int, q: int)
    requires 0 <= p <= q <= 100
    ensures ColourRank(CompletionColour(p)) <= ColourRank(CompletionColour(q))
  {
  }

  /**
   * Above 100 (a backend percentage is not clamped) the order breaks: the
   * bar is blue, a step below the green of exactly 100.
   */
  lemma CompletionAbove100(q: int)
    requires q > 100
    ensures CompletionColour(q) == "bg-blue-500"
    ensures ColourRank(CompletionColour(q)) < ColourRank(CompletionColour(100))
  {
  }

  /** Every percentage the completion computation yields without a backend value is coloured by its step count. */
  lemma ComputedCompletionColour(s: Structure)
    requires s.progress.None?
    ensures CompletionColour(CompletionPercentage(s)) == "bg-green-500" <==> CompletedSteps(s) == 6
  {
    CompletionValues(s);
  }

  /** The card's health badge: shown only for a truthy score, green from 4, amber from 3, else red. */
  function CardHealthVariant(score: Option<real>): (v: Option<Variant>)
    ensures v.None? <==> !TruthyReal(score)
    ensures v.Some? ==> v.value in {Green, Amber, Red}
    ensures v == Some(Green) <==> TruthyReal(score) && score.value >= 4.0
    ensures v == Some(Red) <==> TruthyReal(score) && score.value < 3.0
  {
    if !TruthyReal(score) then None
    else if score.value >= 4.0 then Some(Green)
    else if score.value >= 3.0 then Some(Amber)
    else Some(Red)
  }

  /** `getHealthStatusColor` of the detail dialog: gray for a missing or zero score. */
  function HealthStatusColour(score: Option<real>): (v: Variant)
    ensures v == Gray <==> !TruthyReal(score)
  {
    if !TruthyReal(score) then Gray
    else if score.value >= 4.0 then Green
    else if score.value >= 3.0 then Amber
    else Red
  }

  /**
   * The dialog shows its health badge under the same truthiness test as the
   * card, so whenever it is shown the two agree and gray never appears.
   */
  lemma HealthColoursAgree(score: Option<real>)
    ensures CardHealthVariant(score).Some? ==> CardHealthVariant(score).value == HealthStatusColour(score)
    ensures CardHealthVariant(score).Some? ==> HealthStatusColour(score) != Gray
  {
  }

  /** `getPriorityColor`: Low green, Medium amber, High and Critical red, anything else gray. */
  function PriorityColour(priority: Option<string>): (v: Variant)
    ensures v == Green <==> priority == Some("Low")
    ensures v == Amber <==> priority == Some("Medium")
    ensures v == Red <==> priority in {Some("High"), Some("Critical")}
    ensures v == Gray <==> priority.None? || priority.value !in Priorities
    ensures v != Blue
  {
    match priority
    case Some("Low") => Green
    case Some("Medium") => Amber
    case Some("High") => Red
    case Some("Critical") => Red
    case _ => Gray
  }

  /** The remark count: the lengths of the two lists, a missing list counting as none. */
  function RemarkCount(remarks: Option<RemarkLists>): (n: nat)
    ensures remarks.None? ==> n == 0
  {
    match remarks
    case None => 0
    case Some(lists) => |lists.fe.GetOr([])| + |lists.ve.GetOr([])|
  }

  /** The count on the card and the dialog is the number of entries the remarks dialog lists. */
  lemma RemarkCountIsMergedLength(lists: RemarkLists)
    ensures RemarkCount(Some(lists)) == |Remarks.MergedRemarks(lists)|
  {
  }

  /** The card shows a count only when the structure has a remarks object. */
  function CardRemarkCount(s: Structure): (r: Option<nat>)
    ensures r.Some? <==> s.remarks.Some?
    ensures r.Some? ==> r.value == RemarkCount(s.remarks)
  {
    if s.remarks.Some? then Some(RemarkCount(s.remarks)) else None
  }

  /**
   * The critical-issue alert, on the card and in the detail dialog: shown
   * exactly when statistics report a positive count.
   */
  predicate ShowsCriticalAlert(s: Structure) {
    s.statistics.Some? && s.statistics.value.criticalIssues > 0
  }

  /**
   * A card in the list never shows the alert: the statistics derived from a
   * listed item's ratings summary always report zero critical issues. (The
   * detail dialog fetches the structure again by its id, and the backend's
   * own statistics there can raise the alert.)
   */
  lemma ListedItemHasNoCriticalAlert(item: RawItem)
    ensures !ShowsCriticalAlert(TransformItem(item))
    ensures TransformItem(item).statistics.Some? ==> TransformItem(item).statistics.value.criticalIssues == 0
  {
  }

  /** The detail dialog renders only while open and given a structure id. */
  predicate DetailRenders(isOpen: bool, structureId: Option<string>) {
    isOpen && Truthy(structureId)
  }

  // ----- Dashboard figures -----

  datatype Stat = Stat(title: string, value: int)

  /**
   * The four dashboard figures in their fixed order: the total, the
   * approved and submitted counts, and drafts plus ratings in progress; a
   * missing count reads as zero. Nothing is shown without a summary.
   */
  function DashboardStats(summary: Option<Summary>): (r: Option<seq<Stat>>)
    ensures r.None? <==> summary.None?
    ensures r.Some? ==> (|r.value| == 4
      && r.value[0] == Stat("Total Structures", summary.value.totalStructures)
      && r.value[1] == Stat("Approved", CountOf(summary.value.byStatus, "approved"))
      && r.value[2] == Stat("Submitted", CountOf(summary.value.byStatus, "submitted"))
      && r.value[3] == Stat("In Progress",
           CountOf(summary.value.byStatus, "draft") + CountOf(summary.value.byStatus, "ratings_in_progress")))
  {
    match summary
    case None => None
    case Some(s) =>
      var t := s.byStatus;
      Some([Stat("Total Structures", s.totalStructures), Stat("Approved", CountOf(t, "approved")),
            Stat("Submitted", CountOf(t, "submitted")),
            Stat("In Progress", CountOf(t, "draft") + CountOf(t, "ratings_in_progress"))])
  }

  /** The structures counted under any of four distinct statuses are at most all of them. */
  lemma {:induction false} FourOccurrences(structures: seq<Structure>, a: string, b: string, c: string, d: string)
    requires a != b && a != c && a != d && b != c && b != d && c != d
    ensures Occurrences(structures, a) + Occurrences(structures, b) + Occurrences(structures, c)
      + Occurrences(structures, d) <= |structures|
    decreases |structures|
  {
    if |structures| > 0 {
      FourOccurrences(structures[..|structures| - 1], a, b, c, d);
    }
  }

  /**
   * When the summary is counted from the list, the approved, submitted and
   * in-progress figures together never exceed the total.
   */
  lemma CountedFiguresWithinTotal(structures: seq<Structure>)
    ensures var r := DashboardStats(Some(Summarize(None, structures))).value;
      r[1].value + r[2].value + r[3].value <= r[0].value
  {
    CountByStatusSpec(structures);
    FourOccurrences(structures, "approved", "submitted", "draft", "ratings_in_progress");
  }
}

=== FILE: formatters.dfy ===
/**
 * The display formatters: phone numbers, truncation, word capitalisation,
 * addresses, enum values and health labels. Absent and empty inputs share
 * the same falsy branch, as in the dashboard.
 */
module Formatters {
  import opened Wrappers
  import opened Text

  /** The em dash shown for missing values. */
  const Dash := "\U{2014}"

  // ----- Phone numbers -----

  /** `+91 ddddd ddddd` for a ten-digit number. */
  function IndianFormat(ten: string): string
    requires |ten| == 10
  {
    "+91 " + ten[..5] + " " + ten[5..]
  }

  /**
   * `formatPhoneNumber`: ten digits, or twelve starting with the country code
   * 91, are shown as `+91 ddddd ddddd`; anything else non-empty is shown as given.
   */
  function FormatPhoneNumber(phone: Option<string>): (r: string)
    ensures !Truthy(phone) ==> r == Dash
    ensures Truthy(phone) && |Digits(phone.value)| == 10 ==> r == IndianFormat(Digits(phone.value))
    ensures Truthy(phone) && |Digits(phone.value)| == 12 && StartsWith(Digits(phone.value), "91") ==>
      r == IndianFormat(Digits(phone.value)[2..])
    ensures (Truthy(phone) && |Digits(phone.value)| != 10 &&
             !(|Digits(phone.value)| == 12 && StartsWith(Digits(phone.value), "91"))) ==> r == phone.value
  {
    if !Truthy(phone) then Dash
    else
      var cleaned := Digits(phone.value);
      if |cleaned| == 10 then IndianFormat(cleaned)
      else if |cleaned| == 12 && StartsWith(cleaned, "91") then IndianFormat(cleaned[2..])
      else phone.value
  }

  /** The digits of a formatted number are the country code followed by the ten digits. */
  lemma IndianFormatDigits(ten: string)
    requires |ten| == 10 && forall i | 0 <= i < 10 :: IsDigit(ten[i])
    ensures Digits(IndianFormat(ten)) == "91" + ten
  {
    var a, b := ten[..5], ten[5..];
    var x, y := "+91 " + a, " " + b;
    assert IndianFormat(ten) == x + y;
    assert Digits(x) == "91" + a by {
      DigitsAppend("+91 ", a);
      CountryPrefixDigits();
      DigitsOfDigits(a);
    }
    assert Digits(y) == b by {
      DigitsAppend(" ", b);
      CountryPrefixDigits();
      DigitsOfDigits(b);
    }
    DigitsAppend(x, y);
    assert a + b == ten;
    assert ("91" + a) + b == "91" + ten;
  }

  lemma CountryPrefixDigits()
    ensures Digits("+91 ") == "91"
    ensures Digits(" ") == ""
  {
    assert "+91 "[1..] == "91 ";
    assert "91 "[1..] == "1 ";
    assert "1 "[1..] == " ";
    assert " "[1..] == "";
  }

  /** Formatting a phone number twice gives the same text as formatting it once. */
  lemma FormatPhoneIdempotent(phone: Option<string>)
    ensures FormatPhoneNumber(Some(FormatPhoneNumber(phone))) == FormatPhoneNumber(phone)
  {
    if Truthy(phone) {
      var cleaned := Digits(phone.value);
      if |cleaned| == 10 || (|cleaned| == 12 && StartsWith(cleaned, "91")) {
        var ten := if |cleaned| == 10 then cleaned else cleaned[2..];
        IndianFormatDigits(ten);
        assert ("91" + ten)[..2] == "91";
        assert ("91" + ten)[2..] == ten;
      }
    }
  }

  // ----- Truncation -----

  /** `s.slice(0, end)` for a non-negative start: a negative end counts from the back. */
  function SliceTo(s: string, end: int): (r: string)
    ensures |r| == if end < 0 then Max0(|s| + end) else Min(end, |s|)
    ensures r == s[..|r|]
  {
    var e := if end < 0 then Max0(|s| + end) else Min(end, |s|);
    s[..e]
  }

  function Max0(x: int): nat { if x > 0 then x else 0 }

  function Min(a: int, b: int): int { if a <= b then a else b }

  /** `truncateText`. */
  function TruncateText(text: Option<string>, maxLength: int, suffix: string): (r: string)
    ensures !Truthy(text) ==> r == Dash
    ensures Truthy(text) && |text.value| <= maxLength ==> r == text.value
    ensures Truthy(text) && |text.value| > maxLength ==>
      && |suffix| <= |r| <= |text.value| + |suffix|
      && r[|r| - |suffix|..] == suffix
      && r[..|r| - |suffix|] == text.value[..|r| - |suffix|]
  {
    if !Truthy(text) then Dash
    else if |text.value| <= maxLength then text.value
    else SliceTo(text.value, maxLength - |suffix|) + suffix
  }

  const DefaultSuffix := "..."

  /**
   * With room for the suffix, a truncated text is exactly `maxLength` long:
   * its first `maxLength - |suffix|` characters followed by the suffix.
   */
  lemma TruncateFits(text: string, maxLength: int, suffix: string)
    requires text != "" && |suffix| <= maxLength < |text|
    ensures TruncateText(Some(text), maxLength, suffix) == text[..maxLength - |suffix|] + suffix
    ensures |TruncateText(Some(text), maxLength, suffix)| == maxLength
  {
  }

  /**
   * Without room for the suffix, the end of the slice is negative and counts
   * from the back, so the result can be longer than the text itself.
   */
  lemma TruncateOverlong()
    ensures TruncateText(Some("abcdef"), 2, DefaultSuffix) == "abcde..."
  {
    assert SliceTo("abcdef", -1) == "abcde";
  }

  // ----- Capitalisation -----

  /** `capitalizeWords`: lower-case everything, then upper-case each word's first character. */
  function CapitalizeWords(text: Option<string>): (r: string)
    ensures !Truthy(text) ==> r == ""
    ensures Truthy(text) ==> |r| == |text.value|
  {
    if !Truthy(text) then "" else UpperWordStarts(Lower(text.value))
  }

  lemma CaseRoundTrips(c: char)
    ensures LowerChar(UpperChar(LowerChar(c))) == LowerChar(c)
    ensures LowerChar(LowerChar(c)) == LowerChar(c)
    ensures IsWordChar(LowerChar(c)) == IsWordChar(c)
    ensures IsWordChar(UpperChar(c)) == IsWordChar(c)
  {
  }

  /** Lower-casing a capitalised text gives back the lower-cased original. */
  lemma LowerOfCapitalized(s: string)
    ensures Lower(UpperWordStarts(Lower(s))) == Lower(s)
  {
    forall i | 0 <= i < |s| ensures Lower(UpperWordStarts(Lower(s)))[i] == Lower(s)[i] {
      CaseRoundTrips(s[i]);
    }
  }

  /**
   * Capitalisation is idempotent, ignores the input's case, and characterised
   * pointwise: a word character is upper-cased exactly when it starts a run
   * of word characters, and everything else is lower-cased.
   */
  lemma CapitalizeWordsSpec(s: string)
    requires s != ""
    ensures CapitalizeWords(Some(CapitalizeWords(Some(s)))) == CapitalizeWords(Some(s))
    ensures CapitalizeWords(Some(Lower(s))) == CapitalizeWords(Some(s))
    ensures forall i | 0 <= i < |s| ::
      CapitalizeWords(Some(s))[i] ==
        if IsWordChar(s[i]) && (i == 0 || !IsWordChar(s[i - 1])) then UpperChar(LowerChar(s[i]))
        else LowerChar(s[i])
  {
    LowerOfCapitalized(s);
    forall i | 0 <= i < |s| ensures LowerChar(LowerChar(s[i])) == LowerChar(s[i]) {
      CaseRoundTrips(s[i]);
    }
    assert Lower(Lower(s)) == Lower(s);
    forall i | 0 <= i < |s| ensures IsWordChar(Lower(s)[i]) == IsWordChar(s[i]) {
      CaseRoundTrips(s[i]);
    }
  }

  // ----- Addresses -----

  datatype Address = Address(line1: Option<string>, line2: Option<string>, city: Option<string>,
                             state: Option<string>, pincode: Option<string>, country: Option<string>)

  /** `[…].filter(Boolean)`: the present, non-empty parts in their fixed order. */
  function Present(parts: seq<Option<string>>): (r: seq<string>)
    ensures |r| <= |parts|
    ensures forall i | 0 <= i < |r| :: r[i] != ""
    ensures (forall i | 0 <= i < |parts| :: Truthy(parts[i])) ==> |r| == |parts|
    decreases |parts|
  {
    if |parts| == 0 then []
    else if Truthy(parts[0]) then [parts[0].value] + Present(parts[1..])
    else Present(parts[1..])
  }

  /** A text is kept exactly when it is non-empty and given as a part. */
  lemma {:induction false} PresentMembers(parts: seq<Option<string>>)
    ensures forall x :: x in Present(parts) <==> x != "" && Some(x) in parts
    decreases |parts|
  {
    if |parts| > 0 {
      PresentMembers(parts[1..]);
      assert forall o :: o in parts <==> o == parts[0] || o in parts[1..] by {
        assert parts == [parts[0]] + parts[1..];
      }
    }
  }

  /**
   * The kept parts follow the given order: each part contributes its text
   * when it is non-empty and nothing otherwise, and the parts of consecutive
   * runs follow each other.
   */
  lemma {:induction false} PresentInOrder(a: seq<Option<string>>, b: seq<Option<string>>)
    ensures Present(a + b) == Present(a) + Present(b)
    ensures |a| == 1 ==> Present(a) == if Truthy(a[0]) then [a[0].value] else []
    decreases |a|
  {
    if |a| > 0 {
      assert (a + b)[1..] == a[1..] + b;
      PresentInOrder(a[1..], b);
      if |a| == 1 {
        assert a[1..] == [];
      }
    } else {
      assert a + b == b;
    }
  }

  /** When every part is non-empty, all are kept, in order. */
  lemma {:induction false} PresentAllTruthy(parts: seq<Option<string>>)
    requires forall i | 0 <= i < |parts| :: Truthy(parts[i])
    ensures |Present(parts)| == |parts|
    ensures forall i | 0 <= i < |parts| :: Present(parts)[i] == parts[i].value
    decreases |parts|
  {
    if |parts| > 0 {
      PresentAllTruthy(parts[1..]);
      assert Present(parts) == [parts[0].value] + Present(parts[1..]);
    }
  }

  /** A full address lists line 1, line 2, city, state, pincode and country, in that order. */
  lemma FullAddress(a: Address)
    requires Truthy(a.line1) && Truthy(a.line2) && Truthy(a.city)
    requires Truthy(a.state) && Truthy(a.pincode) && Truthy(a.country)
    ensures AddressParts(a) == [a.line1.value, a.line2.value, a.city.value, a.state.value, a.pincode.value, a.country.value]
  {
    var ps := [a.line1, a.line2, a.city, a.state, a.pincode, a.country];
    PresentAllTruthy(ps);
    var r := Present(ps);
    assert |r| == 6;
    assert r[0] == a.line1.value && r[1] == a.line2.value && r[2] == a.city.value;
    assert r[3] == a.state.value && r[4] == a.pincode.value && r[5] == a.country.value;
  }

  function AddressParts(a: Address): seq<string> {
    Present([a.line1, a.line2, a.city, a.state, a.pincode, a.country])
  }

  /** `formatAddress`. */
  function FormatAddress(a: Address): string {
    var parts := AddressParts(a);
    if |parts| > 0 then Join(parts, ", ") else Dash
  }

  lemma {:induction false} SumLengthsPositive(parts: seq<string>)
    requires |parts| > 0 && forall i | 0 <= i < |parts| :: parts[i] != ""
    ensures SumLengths(parts) >= |parts|
    decreases |parts|
  {
    if |parts| > 1 {
      SumLengthsPositive(parts[1..]);
    }
  }

  /**
   * The address shows the dash exactly when no part is given, or when the
   * only part given is itself a dash; with two or more parts it is at least
   * as long as their count plus the separators.
   */
  lemma FormatAddressDashIff(a: Address)
    ensures FormatAddress(a) == Dash <==> AddressParts(a) == [] || AddressParts(a) == [Dash]
    ensures |AddressParts(a)| >= 2 ==> |FormatAddress(a)| >= 3 * |AddressParts(a)| - 2
  {
    var parts := AddressParts(a);
    if |parts| >= 1 {
      JoinLength(parts, ", ");
      SumLengthsPositive(parts);
    }
  }

  // ----- Enum values -----

  /** `w.charAt(0).toUpperCase() + w.slice(1).toLowerCase()`. */
  function EnumWord(w: string): string {
    if |w| == 0 then "" else [UpperChar(w[0])] + Lower(w[1..])
  }

  /** `formatEnumValue`. */
  function FormatEnumValue(value: Option<string>): string {
    if !Truthy(value) then Dash
    else
      var words := Split(value.value, '_');
      Join(seq(|words|, i requires 0 <= i < |words| => EnumWord(words[i])), " ")
  }

  function EnumCase(first: bool, c: char): char {
    if first then UpperChar(c) else LowerChar(c)
  }

  /**
   * An enum value, character by character: underscores become single spaces,
   * a character that starts the value or follows an underscore is
   * upper-cased, and every other character is lower-cased.
   */
  lemma FormatEnumValuePointwise(v: string)
    requires v != ""
    ensures |FormatEnumValue(Some(v))| == |v|
    ensures forall i | 0 <= i < |v| ::
      FormatEnumValue(Some(v))[i] ==
        if v[i] == '_' then ' '
        else if i == 0 || v[i - 1] == '_' then UpperChar(v[i])
        else LowerChar(v[i])
  {
    var words := Split(v, '_');
    forall i | 0 <= i < |words| ensures EnumWord(words[i]) == WordCase(EnumCase, words[i]) { }
    assert seq(|words|, i requires 0 <= i < |words| => EnumWord(words[i]))
        == seq(|words|, i requires 0 <= i < |words| => WordCase(EnumCase, words[i]));
    TransformWordsPointwise(v, '_', ' ', EnumCase);
  }

  // ----- Health labels -----

  datatype HealthStyle = HealthStyle(caption: string, colorClass: string, bgClass: string)

  /** `formatHealthStatus`. */
  function FormatHealthStatus(health: Option<string>): (r: HealthStyle)
    ensures !Truthy(health) ==> r == HealthStyle("Unknown", "text-secondary-500", "bg-secondary-100")
    ensures r.caption != ""
  {
    if !Truthy(health) then HealthStyle("Unknown", "text-secondary-500", "bg-secondary-100")
    else
      var lower := Lower(health.value);
      if lower == "good" then HealthStyle("Good", "text-success-700", "bg-success-100")
      else if lower == "fair" then HealthStyle("Fair", "text-warning-700", "bg-warning-100")
      else if lower == "poor" then HealthStyle("Poor", "text-warning-700", "bg-warning-100")
      else if lower == "critical" then HealthStyle("Critical", "text-danger-700", "bg-danger-100")
      else HealthStyle(CapitalizeWords(health), "text-secondary-700", "bg-secondary-100")
  }

  /**
   * Health labels ignore case: two non-empty spellings that agree once
   * lower-cased get the same label and classes, and the four known statuses
   * get their canonical labels.
   */
  lemma HealthStatusCaseInsensitive(a: string, b: string)
    requires a != "" && b != "" && Lower(a) == Lower(b)
    ensures FormatHealthStatus(Some(a)) == FormatHealthStatus(Some(b))
  {
  }

  lemma HealthStatusKnown(h: string)
    requires h != ""
    ensures Lower(h) == "good" ==>
      FormatHealthStatus(Some(h)) == HealthStyle("Good", "text-success-700", "bg-success-100")
    ensures Lower(h) == "fair" ==>
      FormatHealthStatus(Some(h)) == HealthStyle("Fair", "text-warning-700", "bg-warning-100")
    ensures Lower(h) == "poor" ==>
      FormatHealthStatus(Some(h)) == HealthStyle("Poor", "text-warning-700", "bg-warning-100")
    ensures Lower(h) == "critical" ==>
      FormatHealthStatus(Some(h)) == HealthStyle("Critical", "text-danger-700", "bg-danger-100")
    ensures Lower(h) !in {"good", "fair", "poor", "critical"} ==>
      FormatHealthStatus(Some(h)) == HealthStyle(CapitalizeWords(Some(h)), "text-secondary-700", "bg-secondary-100")
  {
  }

  /**
   * Every non-empty health gets the caption `capitalizeWords` gives it: the
   * four canonical captions are exactly what the default case would print.
   */
  lemma HealthCaptionIsCapitalized(h: string)
    requires h != ""
    ensures FormatHealthStatus(Some(h)).caption == CapitalizeWords(Some(h))
  {
    var l := Lower(h);
    if l in {"good", "fair", "poor", "critical"} {
      CapitalizedWord(l);
    }
  }

  /** A lower-case word is capitalised by upper-casing its first letter. */
  lemma CapitalizedWord(w: string)
    requires |w| > 0 && forall i | 0 <= i < |w| :: IsLower(w[i])
    ensures UpperWordStarts(w) == [UpperChar(w[0])] + w[1..]
  {
    var r := UpperWordStarts(w);
    forall i | 0 < i < |w| ensures r[i] == w[i] {
      assert IsWordChar(w[i - 1]);
    }
  }
}

=== FILE: guards.dfy ===
/**
 * The route guards: the context-based guard with its ordered checks
 * (initialisation, sign-in, e-mail verification, administrator, roles,
 * activity), the role guard of the older authentication hook and its copy
 * inside the route table, and the route table's public redirects.
 *
 * A guard's answer is what it renders: a spinner, a redirect (with or
 * without the `from` location), a notice, or the protected children.
 */
module Guards {
  import opened Text
  import opened Users
  import opened Wrappers
  import AuthReducer

  datatype View =
    | Spinner
    | Navigate(to: string, carriesFrom: bool)
    | InactiveNotice
    | AccessDenied
    | Children
    | Page(name: string)
    | NotFound

  // ----- The context guard -----

  datatype GuardOptions = GuardOptions(
    requiredRoles: seq<string>, adminOnly: bool, requireEmailVerification: bool, fallbackPath: string)

  const DefaultOptions := GuardOptions([], false, true, "/auth/login")

  /** The session is initialised, idle and signed in with a user. */
  predicate SignedIn(s: AuthReducer.AuthState) {
    s.isInitialized && !s.isLoading && s.isAuthenticated && s.user.Some?
  }

  /** The administrator check or the role check fails. */
  predicate FailsAccess(s: AuthReducer.AuthState, o: GuardOptions) {
    (o.adminOnly && !IsAdmin(s.user)) || (|o.requiredRoles| > 0 && !HasAnyRole(s.user, o.requiredRoles))
  }

  /** Every check before the activity check passes. */
  predicate Admitted(s: AuthReducer.AuthState, o: GuardOptions) {
    && SignedIn(s)
    && (!o.requireEmailVerification || s.user.value.isEmailVerified)
    && !FailsAccess(s, o)
  }

  /**
   * The context guard, checked in order: the spinner until the session is
   * initialised and idle; the fallback path (carrying `from`) without a
   * signed-in user; the verification page for an unverified address when
   * verification is required; the dashboard for a non-administrator on an
   * administrator route or a user holding none of the required roles; the
   * inactive notice; and otherwise the children.
   */
  function ContextGuard(s: AuthReducer.AuthState, o: GuardOptions): (v: View)
    ensures !s.isInitialized || s.isLoading <==> v == Spinner
    ensures s.isInitialized && !s.isLoading && (!s.isAuthenticated || s.user.None?) ==>
      v == Navigate(o.fallbackPath, true)
    ensures SignedIn(s) && o.requireEmailVerification && !s.user.value.isEmailVerified ==>
      v == Navigate("/auth/verify-email", true)
    ensures v == Navigate("/auth/verify-email", true) && o.fallbackPath != "/auth/verify-email" ==>
      o.requireEmailVerification && s.user.Some? && !s.user.value.isEmailVerified
    ensures SignedIn(s) && (!o.requireEmailVerification || s.user.value.isEmailVerified) && FailsAccess(s, o) ==>
      v == Navigate("/dashboard", false)
    ensures v == Navigate("/dashboard", false) ==> FailsAccess(s, o)
    ensures v == InactiveNotice <==> Admitted(s, o) && !s.user.value.isActive
    ensures v == Children <==> Admitted(s, o) && s.user.value.isActive
    ensures v in {Spinner, InactiveNotice, Children} || v.Navigate?
  {
    if !s.isInitialized || s.isLoading then Spinner
    else if !s.isAuthenticated || s.user.None? then Navigate(o.fallbackPath, true)
    else if o.requireEmailVerification && !s.user.value.isEmailVerified then Navigate("/auth/verify-email", true)
    else if o.adminOnly && !IsAdmin(s.user) then Navigate("/dashboard", false)
    else if |o.requiredRoles| > 0 && !HasAnyRole(s.user, o.requiredRoles) then Navigate("/dashboard", false)
    else if !s.user.value.isActive then InactiveNotice
    else Children
  }

  /**
   * With the default options an active, verified, signed-in user always gets
   * the children, and the role requirement is an existential over the list.
   */
  lemma ContextGuardDefaults(s: AuthReducer.AuthState, o: GuardOptions)
    ensures (s.isInitialized && !s.isLoading && s.isAuthenticated && s.user.Some?
             && s.user.value.isEmailVerified && s.user.value.isActive) ==>
      ContextGuard(s, DefaultOptions) == Children
    ensures Admitted(s, o) ==>
      (|o.requiredRoles| == 0 || exists i | 0 <= i < |o.requiredRoles| :: HasRole(s.user, o.requiredRoles[i]))
  {
    HasAnyRoleIff(s.user, o.requiredRoles);
  }

  // ----- The role guard -----

  /**
   * The role guard of the authentication hook (`carriesFrom` true) and of the
   * route table (`carriesFrom` false): the spinner while loading, the sign-in
   * page when signed out, Access Denied when roles are listed, a user is
   * present and holds none of them, and the children otherwise.
   */
  function RoleGuard(isLoading: bool, isAuthenticated: bool, user: Option<User>, roles: seq<string>, carriesFrom: bool)
    : (v: View)
    ensures isLoading <==> v == Spinner
    ensures !isLoading && !isAuthenticated <==> v == Navigate("/login", carriesFrom)
    ensures v == AccessDenied <==>
      !isLoading && isAuthenticated && |roles| > 0 && user.Some? && !HasAnyRole(user, roles)
    ensures v == Children <==>
      !isLoading && isAuthenticated && (|roles| == 0 || user.None? || HasAnyRole(user, roles))
  {
    if isLoading then Spinner
    else if !isAuthenticated then Navigate("/login", carriesFrom)
    else if |roles| > 0 && user.Some? && !HasAnyRole(user, roles) then AccessDenied
    else Children
  }

  /**
   * The two copies agree except that only the hook's copy carries `from`, and
   * a role list admits a user exactly when one listed role is held.
   */
  lemma RoleGuardCopies(isLoading: bool, isAuthenticated: bool, user: Option<User>, roles: seq<string>)
    ensures RoleGuard(isLoading, isAuthenticated, user, roles, true).Navigate? <==>
      RoleGuard(isLoading, isAuthenticated, user, roles, false).Navigate?
    ensures !RoleGuard(isLoading, isAuthenticated, user, roles, true).Navigate? ==>
      RoleGuard(isLoading, isAuthenticated, user, roles, true) == RoleGuard(isLoading, isAuthenticated, user, roles, false)
    ensures !isLoading && isAuthenticated && user.Some? && |roles| > 0 ==>
      (RoleGuard(isLoading, isAuthenticated, user, roles, true) == Children <==>
        exists i | 0 <= i < |roles| :: UserHasRole(user.value, roles[i]))
  {
    HasAnyRoleIff(user, roles);
  }

  // ----- The route table -----

  /**
   * The protected pages of the route table, `:id` matching one non-empty
   * segment. The table sets no `caseSensitive`, so React Router compares
   * paths with it without regard to ASCII case: `path` here is already
   * lower-cased.
   */
  predicate ProtectedPath(path: string) {
    path in {"/dashboard", "/structures", "/structures/create", "/profile"} || DetailPath(path)
  }

  /** The structure detail route `/structures/:id`, which the static `create` route outranks. */
  predicate DetailPath(path: string) {
    && path !in {"/dashboard", "/structures", "/structures/create", "/profile"}
    && StartsWith(path, "/structures/") && |path| > 12 && '/' !in path[12..]
  }

  /** The lower-cased paths the route table matches before its catch-all. */
  predicate Routed(path: string) {
    path in {"/", "/login", "/register", "/forgot-password", "/verify-email"} || ProtectedPath(path)
  }

  /**
   * The page a protected path shows: the route's own path, except that the
   * detail page keeps its `:id` segment as written.
   */
  function RoutePage(path: string): (r: string)
    ensures Lower(r) == Lower(path)
    ensures !DetailPath(Lower(path)) ==> r == Lower(path)
  {
    var p := Lower(path);
    if DetailPath(p) then
      assert Lower("/structures/" + path[12..]) == p by {
        forall i | 0 <= i < |p| ensures Lower("/structures/" + path[12..])[i] == p[i] {
          if i < 12 { assert p[i] == "/structures/"[i]; }
        }
      }
      "/structures/" + path[12..]
    else p
  }

  /**
   * The route table: the spinner while loading; `/` to the dashboard or the
   * sign-in page; the sign-in and registration pages send signed-in users to
   * the dashboard; the protected pages sit behind the route table's role
   * guard with no roles; anything else is the not-found page. Paths match
   * without regard to ASCII case.
   */
  function AppRoute(isLoading: bool, isAuthenticated: bool, user: Option<User>, path: string): (v: View)
    ensures isLoading ==> v == Spinner
    ensures !isLoading && Lower(path) == "/" ==> v == Navigate(if isAuthenticated then "/dashboard" else "/login", false)
    ensures !isLoading && Lower(path) in {"/login", "/register"} ==>
      && (v == Navigate("/dashboard", false) <==> isAuthenticated)
      && (!isAuthenticated ==> v == Page(Lower(path)))
    ensures !isLoading && ProtectedPath(Lower(path)) ==>
      && (v == Page(RoutePage(path)) <==> isAuthenticated)
      && (!isAuthenticated ==> v == Navigate("/login", false))
    ensures !isLoading && Lower(path) == "/forgot-password" ==> v == Page("/login")
    ensures !isLoading && Lower(path) == "/verify-email" ==> v == Page("/verify-email")
    ensures v == NotFound <==> !isLoading && !Routed(Lower(path))
  {
    var p := Lower(path);
    if isLoading then Spinner
    else if p == "/" then Navigate(if isAuthenticated then "/dashboard" else "/login", false)
    else if p == "/login" || p == "/register" then
      (if isAuthenticated then Navigate("/dashboard", false) else Page(p))
    else if ProtectedPath(p) then
      assert p != "/forgot-password" && p != "/verify-email" by {
        if DetailPath(p) { assert p[..12][1] == 's'; }
      }
      var guard := RoleGuard(false, isAuthenticated, user, [], false);
      if guard == Children then Page(RoutePage(path)) else guard
    else if p == "/forgot-password" then Page("/login")
    else if p == "/verify-email" then Page(p)
    else NotFound
  }

  /**
   * Paths that differ only in ASCII case reach the same route; they reach
   * the same view unless they name a structure, whose id is kept as written.
   */
  lemma RouteIgnoresCase(isLoading: bool, isAuthenticated: bool, user: Option<User>, a: string, b: string)
    requires Lower(a) == Lower(b)
    ensures AppRoute(isLoading, isAuthenticated, user, a).NotFound? == AppRoute(isLoading, isAuthenticated, user, b).NotFound?
    ensures !DetailPath(Lower(a)) ==> AppRoute(isLoading, isAuthenticated, user, a) == AppRoute(isLoading, isAuthenticated, user, b)
  {
  }

  /** For example, `/Login` is the sign-in page and `/DASHBOARD` the dashboard. */
  lemma MixedCaseRoutes(user: Option<User>)
    ensures AppRoute(false, false, user, "/Login") == Page("/login")
    ensures AppRoute(false, true, user, "/DASHBOARD") == Page("/dashboard")
  {
    assert Lower("/Login") == "/login";
    assert Lower("/DASHBOARD") == "/dashboard";
  }
}


=== FILE: header.dfy ===
/**
 * The page header and the dashboard greeting: the names shown for the
 * signed-in user, the role caption and the "+N more" note, the sign-out
 * step, the greeting by hour, the "New Structure" button, and which
 * structure the detail dialog is opened for.
 *
 * The clock is a parameter: the greeting takes the hour.
 */
module Header {
  import opened Wrappers
  import opened Text
  import opened Users
  import opened Session
  import opened Structures
  import AuthService
  import Badges

  // ----- Header -----

  /**
   * The header's `getUserDisplayName`: with a first or last name, the two
   * (a missing one as empty) joined by a space and trimmed; otherwise the
   * username, and `User` when that is empty too.
   */
  function HeaderName(user: Option<User>): (r: string)
    ensures user.None? ==> r == "User"
    ensures
      && user.Some?
      && (user.value.profile.None? ||
          (!Truthy(user.value.profile.value.firstName) && !Truthy(user.value.profile.value.lastName)))
      ==> r == (if user.value.username != "" then user.value.username else "User")
  {
    var p := if user.Some? then user.value.profile else None;
    if p.Some? && (Truthy(p.value.firstName) || Truthy(p.value.lastName)) then
      Trim(OrElse(p.value.firstName, "") + " " + OrElse(p.value.lastName, ""))
    else OrElse(if user.Some? then Some(user.value.username) else None, "User")
  }

  /** A name with no surrounding whitespace. */
  predicate Tidy(s: string) {
    s != "" && !IsWhitespace(s[0]) && !IsWhitespace(s[|s| - 1])
  }

  lemma TrimTidy(s: string)
    requires Tidy(s)
    ensures Trim(s) == s
  {
    assert TrimStart(s) == s;
    assert TrimEnd(s) == s;
  }

  /** Trimming removes a leading blank. */
  lemma TrimAfterBlank(b: string, s: string)
    requires IsBlank(b) && Tidy(s)
    ensures Trim(b + s) == s
    decreases |b|
  {
    if |b| > 0 {
      assert (b + s)[1..] == b[1..] + s;
      TrimAfterBlank(b[1..], s);
    } else {
      assert b + s == s;
      TrimTidy(s);
    }
  }

  /** Trimming removes a trailing blank. */
  lemma TrimBeforeBlank(s: string, b: string)
    requires IsBlank(b) && Tidy(s)
    ensures Trim(s + b) == s
    decreases |b|
  {
    if |b| > 0 {
      assert (s + b)[..|s + b| - 1] == s + b[..|b| - 1];
      TrimBeforeBlank(s, b[..|b| - 1]);
      assert TrimStart(s + b) == s + b;
      assert TrimStart(s + b[..|b| - 1]) == s + b[..|b| - 1];
    } else {
      assert s + b == s;
      TrimTidy(s);
    }
  }

  /**
   * With tidy names, the header shows `first last`, or the one name that is
   * set; a name that is set but blank counts as set, so a whitespace-only
   * first name with no last name shows as empty.
   */
  lemma HeaderNameParts(u: User, first: string, last: string)
    requires u.profile.Some?
    ensures u.profile.value.firstName == Some(first) && u.profile.value.lastName == Some(last) && Tidy(first) && Tidy(last) ==>
      HeaderName(Some(u)) == first + " " + last
    ensures u.profile.value.firstName == Some(first) && !Truthy(u.profile.value.lastName) && Tidy(first) ==>
      HeaderName(Some(u)) == first
    ensures !Truthy(u.profile.value.firstName) && u.profile.value.lastName == Some(last) && Tidy(last) ==>
      HeaderName(Some(u)) == last
    ensures
      && (Truthy(u.profile.value.firstName) || Truthy(u.profile.value.lastName))
      && IsBlank(OrElse(u.profile.value.firstName, ""))
      && IsBlank(OrElse(u.profile.value.lastName, ""))
      ==> HeaderName(Some(u)) == ""
  {
    var p := u.profile.value;
    if p.firstName == Some(first) && p.lastName == Some(last) && Tidy(first) && Tidy(last) {
      BothNames(u, first, last);
    }
    if p.firstName == Some(first) && !Truthy(p.lastName) && Tidy(first) {
      FirstNameOnly(u, first);
    }
    if !Truthy(p.firstName) && p.lastName == Some(last) && Tidy(last) {
      LastNameOnly(u, last);
    }
    if (Truthy(p.firstName) || Truthy(p.lastName)) && IsBlank(OrElse(p.firstName, "")) && IsBlank(OrElse(p.lastName, "")) {
      BlankNames(u);
    }
  }

  lemma BothNames(u: User, first: string, last: string)
    requires u.profile.Some? && u.profile.value.firstName == Some(first) && u.profile.value.lastName == Some(last)
    requires Tidy(first) && Tidy(last)
    ensures HeaderName(Some(u)) == first + " " + last
  {
    var s := first + " " + last;
    assert s[0] == first[0] && s[|s| - 1] == last[|last| - 1];
    TrimTidy(s);
  }

  lemma FirstNameOnly(u: User, first: string)
    requires u.profile.Some? && u.profile.value.firstName == Some(first) && !Truthy(u.profile.value.lastName)
    requires Tidy(first)
    ensures HeaderName(Some(u)) == first
  {
    assert OrElse(u.profile.value.lastName, "") == "";
    assert first + " " + "" == first + " ";
    TrimBeforeBlank(first, " ");
  }

  lemma LastNameOnly(u: User, last: string)
    requires u.profile.Some? && !Truthy(u.profile.value.firstName) && u.profile.value.lastName == Some(last)
    requires Tidy(last)
    ensures HeaderName(Some(u)) == last
  {
    assert OrElse(u.profile.value.firstName, "") == "";
    assert "" + " " + last == " " + last;
    TrimAfterBlank(" ", last);
  }

  lemma BlankNames(u: User)
    requires u.profile.Some? && (Truthy(u.profile.value.firstName) || Truthy(u.profile.value.lastName))
    requires IsBlank(OrElse(u.profile.value.firstName, "")) && IsBlank(OrElse(u.profile.value.lastName, ""))
    ensures HeaderName(Some(u)) == ""
  {
    var a, b := OrElse(u.profile.value.firstName, ""), OrElse(u.profile.value.lastName, "");
    var s := a + " " + b;
    assert forall i | 0 <= i < |s| :: IsWhitespace(s[i]) by {
      forall i | 0 <= i < |s| ensures IsWhitespace(s[i]) {
        if i < |a| { assert s[i] == a[i]; }
        else if i > |a| { assert s[i] == b[i - |a| - 1]; }
      }
    }
  }

  /** `getRoleDisplayName`: the four role codes by name; any other text as it is. */
  function RoleDisplayName(role: string): (r: string)
    ensures role !in {AD, TE, VE, FE} ==> r == role
    ensures role in {AD, TE, VE, FE} ==> r != role && |r| > 2
  {
    match role
    case "AD" => "Administrator"
    case "TE" => "Technical Engineer"
    case "VE" => "Verification Engineer"
    case "FE" => "Field Engineer"
    case _ => role
  }

  /**
   * The header and the status badge agree on the engineers' names but not
   * on the administrator's: `Administrator` in the header, `Admin` on a
   * badge.
   */
  lemma RoleNamesCompared()
    ensures forall r | r in {TE, VE, FE} :: RoleDisplayName(r) == Badges.StatusConfig(r).caption
    ensures RoleDisplayName(AD) == "Administrator" && Badges.StatusConfig(AD).caption == "Admin"
  {
  }

  /** The caption under the name: the primary role's name, an absent user giving the empty text. */
  function RoleCaption(user: Option<User>): (r: string)
    ensures user.None? ==> r == ""
    ensures user.Some? && user.value.role == AD ==> r == "Administrator"
    ensures user.Some? && user.value.role !in {AD, TE, VE, FE} ==> r == user.value.role
  {
    RoleDisplayName(if user.Some? then user.value.role else "")
  }

  /**
   * The caption follows the primary `role` alone: a field engineer whose
   * role list also grants administration is an administrator everywhere
   * else but is captioned `Field Engineer`.
   */
  lemma CaptionIgnoresRoleList(u: User)
    requires u.role == FE && u.roles == Some([AD, FE])
    ensures IsAdmin(Some(u))
    ensures RoleCaption(Some(u)) == "Field Engineer"
  {
  }

  /** The "+N more" note: shown when the user lists more than one role, counting the others. */
  function MoreRoles(user: Option<User>): (r: Option<nat>)
    ensures r.Some? <==> user.Some? && user.value.roles.Some? && |user.value.roles.value| > 1
    ensures r.Some? ==> r.value + 1 == |user.value.roles.value| && r.value >= 1
  {
    if user.Some? && user.value.roles.Some? && |user.value.roles.value| > 1 then
      Some(|user.value.roles.value| - 1)
    else None
  }

  /**
   * Signing out from the header: the session's sign-out runs (it clears the
   * stored session whether or not the server answers), the user becomes
   * absent, and only then does the menu close.
   */
  function HandleLogout(st: Storage): (r: (Storage, Option<User>, bool))
    ensures AccessTokenKey !in r.0 && RefreshTokenKey !in r.0 && UserDataKey !in r.0
    ensures r.1.None? && !r.2
    ensures forall k | k in st && k !in {AccessTokenKey, RefreshTokenKey, UserDataKey} :: k in r.0 && r.0[k] == st[k]
  {
    (AuthService.Logout(st).1, None, false)
  }

  /** After signing out from the header the session no longer counts as signed in. */
  lemma HeaderLogoutSignsOut(st: Storage, parse: string -> AuthService.Parsed)
    ensures !AuthService.IsAuthenticated(HandleLogout(st).0, parse).0
  {
    AuthService.LogoutThenUnauthenticated(st, parse);
  }

  // ----- Dashboard page -----

  /** `getGreeting` at hour `hour` of the day. */
  function Greeting(hour: int): (r: string)
    ensures r == "Good morning" <==> hour < 12
    ensures r == "Good afternoon" <==> 12 <= hour < 17
    ensures r == "Good evening" <==> hour >= 17
  {
    if hour < 12 then "Good morning" else if hour < 17 then "Good afternoon" else "Good evening"
  }

  /** The dashboard's `getUserDisplayName`: the first name, else the username, else `User`. */
  function DashboardName(user: Option<User>): (r: string)
    ensures r != ""
    ensures user.Some? && user.value.profile.Some? && Truthy(user.value.profile.value.firstName) ==>
      r == user.value.profile.value.firstName.value
    ensures user.Some? && (user.value.profile.None? || !Truthy(user.value.profile.value.firstName)) ==>
      r == (if user.value.username != "" then user.value.username else "User")
    ensures user.None? ==> r == "User"
  {
    var first := if user.Some? && user.value.profile.Some? then user.value.profile.value.firstName else None;
    if Truthy(first) then first.value
    else OrElse(if user.Some? then Some(user.value.username) else None, "User")
  }

  /** Without a first or last name the header and the dashboard show the same name. */
  lemma NamesAgreeWithoutProfileName(u: User)
    requires u.profile.None? || (!Truthy(u.profile.value.firstName) && !Truthy(u.profile.value.lastName))
    ensures HeaderName(Some(u)) == DashboardName(Some(u))
  {
  }

  /** With a tidy first name, the header's name starts with the dashboard's. */
  lemma HeaderNameStartsWithDashboardName(u: User)
    requires u.profile.Some? && Truthy(u.profile.value.firstName) && Tidy(u.profile.value.firstName.value)
    ensures StartsWith(HeaderName(Some(u)), DashboardName(Some(u)))
  {
    var first := u.profile.value.firstName.value;
    assert DashboardName(Some(u)) == first;
    assert HeaderName(Some(u)) == Trim(first + " " + OrElse(u.profile.value.lastName, ""));
    FirstThenLastPrefix(first, OrElse(u.profile.value.lastName, ""));
  }

  /** A tidy first name followed by a space and anything is trimmed to something starting with it. */
  lemma FirstThenLastPrefix(first: string, last: string)
    requires Tidy(first)
    ensures StartsWith(Trim(first + " " + last), first)
  {
    var s := first + " " + last;
    assert s[0] == first[0];
    assert TrimStart(s) == s;
    assert s[|first| - 1] == first[|first| - 1];
    TrimEndKeeps(s, |first|);
    assert s[..|first|] == first;
  }

  /** Trimming the end keeps everything up to a non-whitespace character. */
  lemma TrimEndKeeps(s: string, k: nat)
    requires 0 < k <= |s| && !IsWhitespace(s[k - 1])
    ensures |TrimEnd(s)| >= k && TrimEnd(s)[..k] == s[..k]
  {
    var r := TrimEnd(s);
    assert |r| >= k;
    assert r[..k] == s[..|r|][..k];
  }

  /** The "New Structure" button: shown when the user's permissions allow creating structures. */
  predicate ShowsNewStructure(user: Option<User>) {
    user.Some? && user.value.permissions.Some? && user.value.permissions.value.canCreateStructures
  }

  /**
   * The button depends on the permissions record alone: it needs that record
   * with creation allowed, and no role makes up for a missing record.
   */
  lemma NewStructureNeedsPermission(u: User)
    ensures ShowsNewStructure(Some(u)) <==> u.permissions == Some(Permissions(true))
    ensures u.permissions.None? ==> !ShowsNewStructure(Some(u))
    ensures !ShowsNewStructure(None)
  {
  }

  /** The line under the dashboard's welcome: administrators first, then verification engineers. */
  function DashboardSubtitle(user: Option<User>): (r: string)
    ensures r == "System Administrator" <==> IsAdmin(user)
    ensures r == "Verification Engineer" <==> !IsAdmin(user) && IsVerificationEngineer(user)
    ensures r == "Dashboard" <==> !IsAdmin(user) && !IsVerificationEngineer(user)
  {
    if IsAdmin(user) then "System Administrator"
    else if IsVerificationEngineer(user) then "Verification Engineer"
    else "Dashboard"
  }

  /** The detail dialog's structure id: the selected structure's id, or none when it is empty. */
  function SelectedId(selected: Option<Structure>): (r: Option<string>)
    ensures r.Some? <==> selected.Some? && selected.value.id != ""
    ensures r.Some? ==> r.value == selected.value.id
  {
    if selected.Some? && selected.value.id != "" then Some(selected.value.id) else None
  }

  /**
   * Clicking a structure selects it and opens the dialog; the dialog then
   * renders exactly when the structure has an id, which for a listed item
   * means one of its three identifiers was non-empty.
   */
  lemma ClickOpensDialog(item: RawItem)
    ensures Badges.DetailRenders(true, SelectedId(Some(TransformItem(item)))) <==>
      Truthy(item.id) || Truthy(item.structureId) || Truthy(item.uid)
  {
  }

  /** The dashboard always shows the four figures, all zero when no summary has arrived. */
  lemma DashboardAlwaysShowsFigures(summary: Option<Summary>)
    ensures var shown := Badges.DashboardStats(Some(summary.GetOr(Summary(0, []))));
      && shown.Some?
      && (summary.None? ==> forall i | 0 <= i < 4 :: shown.value[i].value == 0)
  {
  }
}

=== FILE: navigation.dfy ===
/**
 * Navigation: which sidebar entries a user sees and which one is
 * highlighted, in the layout's sidebar and in the navigation sidebar, and
 * the navigation hook's state (the previous path, the back step, the path
 * tests and the path segments).
 *
 * The router is not modelled: a navigation is returned as a value, and the
 * current location is a parameter.
 */
module Navigation {
  import opened Wrappers
  import opened Text
  import opened Users

  // ----- The layout sidebar -----

  datatype NavItem = NavItem(name: string, href: string, roles: Option<seq<string>>)

  /** The layout sidebar's entries; only `Users` names roles (administrators). */
  const LayoutNavigation: seq<NavItem> := [
    NavItem("Dashboard", "/dashboard", None),
    NavItem("Structures", "/structures", None),
    NavItem("Analytics", "/analytics", None),
    NavItem("Reports", "/reports", None),
    NavItem("Files", "/files", None),
    NavItem("Users", "/users", Some([AD])),
    NavItem("Settings", "/settings", None)]

  /** `hasAccess`: an entry without roles is for everyone, otherwise for holders of one of them. */
  predicate HasAccess(user: Option<User>, item: NavItem) {
    item.roles.None? || |item.roles.value| == 0 || HasAnyRole(user, item.roles.value)
  }

  /** `r` is `s` with some entries left out, the rest in their order. */
  predicate Subsequence<T(==)>(r: seq<T>, s: seq<T>)
    decreases |s|
  {
    |r| == 0 || (|s| > 0 && ((r[0] == s[0] && Subsequence(r[1..], s[1..])) || Subsequence(r, s[1..])))
  }

  /** `navigation.filter(hasAccess)`. */
  function FilterAccess(user: Option<User>, items: seq<NavItem>): (r: seq<NavItem>)
    ensures Subsequence(r, items)
    ensures forall x :: x in r <==> x in items && HasAccess(user, x)
    ensures (forall i | 0 <= i < |items| :: HasAccess(user, items[i])) ==> r == items
    decreases |items|
  {
    if |items| == 0 then []
    else
      var rest := FilterAccess(user, items[1..]);
      assert forall x :: x in items <==> x == items[0] || x in items[1..] by {
        assert items == [items[0]] + items[1..];
      }
      if HasAccess(user, items[0]) then
        assert ([items[0]] + rest)[1..] == rest;
        [items[0]] + rest
      else rest
  }

  /** Every entry but `Users` is for everyone; `Users` is for administrators alone. */
  lemma LayoutAccess(user: Option<User>)
    ensures forall i | 0 <= i < |LayoutNavigation| ::
      HasAccess(user, LayoutNavigation[i]) <==> LayoutNavigation[i].name != "Users" || IsAdmin(user)
    ensures IsAdmin(user) ==> FilterAccess(user, LayoutNavigation) == LayoutNavigation
  {
    assert HasAnyRole(user, [AD]) <==> HasRole(user, AD) by {
      assert [AD][1..] == [];
    }
  }

  /**
   * The layout sidebar's highlight: the exact path, or any path that merely
   * starts with the entry's address (no `/` boundary), except the dashboard,
   * which is highlighted on its own path alone.
   */
  predicate LayoutIsActive(pathname: string, href: string) {
    pathname == href || (href != "/dashboard" && StartsWith(pathname, href))
  }

  // ----- The navigation sidebar -----

  /** The navigation sidebar's entries. */
  const SidebarNavigation: seq<NavItem> := [
    NavItem("Dashboard", "/dashboard", None),
    NavItem("Structures", "/structures", None),
    NavItem("Create Structure", "/structures/create", None),
    NavItem("Profile", "/profile", None)]

  /** The navigation sidebar's administration section. */
  const AdminNavigation: seq<NavItem> := [NavItem("Admin Panel", "/admin", None)]

  /** The navigation sidebar's entries: the fixed ones, then the administration section for an administrator. */
  function SidebarEntries(user: Option<User>): seq<NavItem> {
    SidebarNavigation + (if IsAdmin(user) then AdminNavigation else [])
  }

  /**
   * The two sidebars agree on who administers: the navigation sidebar shows
   * `Admin Panel` exactly to the users for whom the layout sidebar keeps
   * `Users`, and everyone sees the fixed entries first.
   */
  lemma AdminSectionsAgree(user: Option<User>)
    ensures AdminNavigation[0] in SidebarEntries(user) <==> LayoutNavigation[5] in FilterAccess(user, LayoutNavigation)
    ensures SidebarEntries(user)[..|SidebarNavigation|] == SidebarNavigation
  {
    LayoutAccess(user);
    assert AdminNavigation[0] !in SidebarNavigation by {
      assert forall i | 0 <= i < |SidebarNavigation| :: SidebarNavigation[i].href[1] != 'a';
    }
  }

  /** The navigation sidebar's highlight: the exact path, or a path below it after a `/`. */
  predicate SidebarIsActive(pathname: string, href: string) {
    pathname == href || StartsWith(pathname, href + "/")
  }

  /**
   * The navigation sidebar's highlight implies the layout's, except on the
   * dashboard; the layout's also fires on a path that only shares a prefix
   * (`/reportsarchive` under `/reports`), where the navigation sidebar's
   * does not.
   */
  lemma HighlightsCompared(pathname: string, href: string)
    ensures href != "/dashboard" && SidebarIsActive(pathname, href) ==> LayoutIsActive(pathname, href)
    ensures LayoutIsActive(pathname, "/dashboard") <==> pathname == "/dashboard"
    ensures LayoutIsActive("/reportsarchive", "/reports") && !SidebarIsActive("/reportsarchive", "/reports")
  {
    if href != "/dashboard" && StartsWith(pathname, href + "/") {
      assert pathname[..|href|] == (href + "/")[..|href|] == href;
    }
    assert "/reportsarchive"[..8] == "/reports";
    assert "/reportsarchive"[..9][8] == 'a' && "/reports/"[8] == '/';
  }

  /** On the create page both `Structures` and `Create Structure` are highlighted, and nothing else. */
  lemma CreatePageHighlights()
    ensures forall i | 0 <= i < |SidebarNavigation| ::
      SidebarIsActive("/structures/create", SidebarNavigation[i].href) <==> i in {1, 2}
  {
    var p := "/structures/create";
    assert p[..12] == "/structures/";
    assert p[1] == 's' && "/dashboard"[1] == 'd' && "/dashboard/"[1] == 'd';
    assert "/profile"[1] == 'p' && "/profile/"[1] == 'p';
  }

  // ----- The navigation hook -----

  datatype NavState = NavState(isLoading: bool, error: Option<string>, previousPath: Option<string>)

  const InitialNavState := NavState(false, None, None)

  /** What the router is asked to do. */
  datatype Navigation = Push(path: string) | Replace(path: string) | HistoryBack

  /**
   * `navigateTo`: the error is cleared, the current location is remembered
   * as the previous path, and the router pushes the path, or replaces the
   * current entry when asked to.
   */
  function NavigateTo(st: NavState, pathname: string, path: string, replace: bool): (r: (NavState, Navigation))
    ensures r.0.error.None? && r.0.previousPath == Some(pathname) && r.0.isLoading == st.isLoading
    ensures !r.1.HistoryBack? && r.1.path == path && (r.1.Replace? <==> replace)
  {
    (st.(error := None, previousPath := Some(pathname)), if replace then Replace(path) else Push(path))
  }

  /** `navigateBack`: to the previous path when one is remembered, else one step back in history. */
  function NavigateBack(st: NavState): (r: Navigation)
    ensures r.HistoryBack? <==> !Truthy(st.previousPath)
    ensures r.Push? ==> r.path == st.previousPath.value
  {
    if Truthy(st.previousPath) then Push(st.previousPath.value) else HistoryBack
  }

  /** Going somewhere and then back returns to where the user was. */
  lemma BackUndoesNavigate(st: NavState, pathname: string, path: string, replace: bool)
    requires pathname != ""
    ensures NavigateBack(NavigateTo(st, pathname, path, replace).0) == Push(pathname)
  {
  }

  function NavigateToStructure(st: NavState, pathname: string, id: string): (NavState, Navigation) {
    NavigateTo(st, pathname, "/structures/" + id, false)
  }

  function NavigateToLogin(st: NavState, pathname: string): (NavState, Navigation) {
    NavigateTo(st, pathname, "/login", true)
  }

  /** Signing in again always replaces the current entry; opening a structure pushes its page. */
  lemma FixedDestinations(st: NavState, pathname: string, id: string)
    ensures NavigateToLogin(st, pathname).1 == Replace("/login")
    ensures NavigateToStructure(st, pathname, id).1 == Push("/structures/" + id)
    ensures PathSegmentsOf(id) ==> PathSegments(NavigateToStructure(st, pathname, id).1.path) == ["structures", id]
  {
    if PathSegmentsOf(id) {
      StructurePathSegments(id);
    }
  }

  predicate IsCurrentPath(pathname: string, path: string) {
    pathname == path
  }

  predicate IsChildPath(pathname: string, parent: string) {
    StartsWith(pathname, parent)
  }

  /** The current path is always also a child path of itself. */
  lemma CurrentIsChild(pathname: string, path: string)
    ensures IsCurrentPath(pathname, path) ==> IsChildPath(pathname, path)
  {
    if pathname == path {
      assert pathname[..|path|] == pathname;
    }
  }

  /** The non-empty pieces, in order. */
  function DropEmpty(ps: seq<string>): (r: seq<string>)
    ensures forall i | 0 <= i < |r| :: r[i] != "" && r[i] in ps
    ensures (forall i | 0 <= i < |ps| :: ps[i] != "") ==> r == ps
    decreases |ps|
  {
    if |ps| == 0 then []
    else
      var rest := DropEmpty(ps[1..]);
      if ps[0] == "" then rest else [ps[0]] + rest
  }

  /** `getPathSegments`: the pieces between slashes, empty pieces dropped. */
  function PathSegments(pathname: string): (r: seq<string>)
    ensures forall i | 0 <= i < |r| :: r[i] != "" && '/' !in r[i]
  {
    SplitPiecesAvoidSeparator(pathname, '/');
    DropEmpty(Split(pathname, '/'))
  }

  /** A single segment: non-empty, with no slash. */
  predicate PathSegmentsOf(id: string) {
    id != "" && '/' !in id
  }

  /**
   * A path of the form `/a/b/c` with no empty piece is rebuilt from its
   * segments by joining them with slashes after a leading slash.
   */
  lemma SegmentsRebuildPath(pathname: string)
    requires |pathname| > 0 && pathname[0] == '/'
    requires forall k | 0 <= k < |Split(pathname[1..], '/')| :: Split(pathname[1..], '/')[k] != ""
    ensures "/" + Join(PathSegments(pathname), "/") == pathname
  {
    var body := pathname[1..];
    assert pathname == "" + ['/'] + body;
    SplitCons("", '/', body);
    assert DropEmpty([""] + Split(body, '/')) == DropEmpty(Split(body, '/')) by {
      assert ([""] + Split(body, '/'))[1..] == Split(body, '/');
    }
    JoinSplit(body, '/');
  }

  /** A structure's page has exactly two segments: `structures` and the id. */
  lemma StructurePathSegments(id: string)
    requires PathSegmentsOf(id)
    ensures PathSegments("/structures/" + id) == ["structures", id]
  {
    var p := "/structures/" + id;
    assert p == "" + ['/'] + ("structures" + ['/'] + id);
    SplitCons("", '/', "structures" + ['/'] + id);
    SplitCons("structures", '/', id);
    SplitWithoutSeparator(id, '/');
    var parts := Split(p, '/');
    assert parts == ["", "structures", id];
    assert parts[1..] == ["structures", id];
    assert parts[1..][1..] == [id];
  }
}

=== FILE: remarks.dfy ===
/**
 * The remarks dialog of a structure: who may edit which remark, the add and
 * update guards, and the single list that merges field-engineer and
 * verification-engineer remarks, newest first.
 *
 * Timestamps are integers; the server calls are parameters (`succeeded`).
 */
module Remarks {
  import opened Wrappers
  import opened Text
  import opened Users
  import opened Structures

  /**
   * `canEditRemark`: an administrator edits any remark, a verification or
   * field engineer only remarks written by their own role, anyone else (and
   * nobody signed in) none.
   */
  predicate CanEditRemark(user: Option<User>, remark: Remark) {
    user.Some? &&
      ((user.value.role == VE && remark.authorRole == VE) ||
       (user.value.role == FE && remark.authorRole == FE) ||
       user.value.role == AD)
  }

  /** The add form is shown to verification engineers, field engineers and administrators. */
  predicate ShowsAddForm(user: Option<User>) {
    user.Some? && user.value.role in {VE, FE, AD}
  }

  /**
   * Edit rights follow the primary role only: a user who may edit some remark
   * also sees the add form, and the author's name plays no part.
   */
  lemma EditRights(user: Option<User>, remark: Remark, name: string)
    ensures CanEditRemark(user, remark) ==> ShowsAddForm(user)
    ensures CanEditRemark(user, remark) <==> CanEditRemark(user, remark.(authorName := name))
    ensures user.Some? && user.value.role == AD ==> CanEditRemark(user, remark)
    ensures user.Some? && user.value.role !in {VE, FE, AD} ==> !CanEditRemark(user, remark)
    ensures user.Some? && user.value.role in {VE, FE} ==>
      (CanEditRemark(user, remark) <==> remark.authorRole == user.value.role)
  {
  }

  /**
   * `handleAddRemark`: whitespace-only text makes no call; otherwise the
   * trimmed text is sent, and the input is emptied only when the call
   * succeeds. Returns the text sent, if any, and the new input.
   */
  function HandleAdd(input: string, succeeded: bool): (r: (Option<string>, string))
    ensures IsBlank(input) ==> r == (None, input)
    ensures !IsBlank(input) ==> r.0 == Some(Trim(input)) && r.0.value != ""
    ensures !IsBlank(input) ==> (r.1 == if succeeded then "" else input)
  {
    if IsBlank(input) then (None, input)
    else (Some(Trim(input)), if succeeded then "" else input)
  }

  datatype Editing = Editing(id: string, text: string)

  /**
   * `handleUpdateRemark`: without an edit under way, or with whitespace-only
   * text, nothing is sent; otherwise the remark's id and trimmed text are
   * sent, and the edit ends only when the call succeeds.
   */
  function HandleUpdate(editing: Option<Editing>, succeeded: bool): (r: (Option<Editing>, Option<Editing>))
    ensures editing.None? || IsBlank(editing.value.text) ==> r == (None, editing)
    ensures editing.Some? && !IsBlank(editing.value.text) ==>
      && r.0 == Some(Editing(editing.value.id, Trim(editing.value.text)))
      && (r.1 == if succeeded then None else editing)
    ensures r.0.Some? ==> r.0.value.text != "" && !IsWhitespace(r.0.value.text[0])
  {
    if editing.None? || IsBlank(editing.value.text) then (None, editing)
    else (Some(Editing(editing.value.id, Trim(editing.value.text))), if succeeded then None else editing)
  }

  /** The `(edited)` marker: shown when the remark was changed after it was written. */
  function EditedMark(remark: Remark): (m: string)
    ensures m != "" <==> remark.updatedAt != remark.createdAt
    ensures m != "" ==> m == "(edited)"
  {
    if remark.updatedAt != remark.createdAt then "(edited)" else ""
  }

  /** A remark in the merged list, tagged with the list it came from. */
  datatype Tagged = Tagged(remark: Remark, source: string)

  function Tag(rs: seq<Remark>, source: string): (r: seq<Tagged>)
    ensures |r| == |rs| && forall i | 0 <= i < |rs| :: r[i] == Tagged(rs[i], source)
  {
    seq(|rs|, i requires 0 <= i < |rs| => Tagged(rs[i], source))
  }

  predicate NewestFirst(s: seq<Tagged>) {
    forall i | 0 <= i < |s| - 1 :: s[i].remark.createdAt >= s[i + 1].remark.createdAt
  }

  /** Inserts `x` after every entry at least as new. */
  function Insert(x: Tagged, s: seq<Tagged>): (r: seq<Tagged>)
    requires NewestFirst(s)
    ensures NewestFirst(r)
    ensures multiset(r) == multiset(s) + multiset{x}
    ensures |r| == |s| + 1
    decreases |s|
  {
    if |s| == 0 then [x]
    else if s[0].remark.createdAt >= x.remark.createdAt then
      var rest := Insert(x, s[1..]);
      assert s == [s[0]] + s[1..];
      assert |rest| > 0 && (rest[0] == x || rest[0] == s[1]);
      [s[0]] + rest
    else [x] + s
  }

  /** The sort by creation time, newest first. */
  function SortNewestFirst(s: seq<Tagged>): (r: seq<Tagged>)
    ensures NewestFirst(r)
    ensures multiset(r) == multiset(s)
    decreases |s|
  {
    if |s| == 0 then []
    else
      var init := s[..|s| - 1];
      assert s == init + [s[|s| - 1]];
      Insert(s[|s| - 1], SortNewestFirst(init))
  }

  /**
   * The merged list: the field-engineer remarks tagged `FE` followed by the
   * verification-engineer remarks tagged `VE` (a missing list counts as
   * empty), sorted newest first.
   */
  function MergedRemarks(lists: RemarkLists): (r: seq<Tagged>)
    ensures NewestFirst(r)
    ensures multiset(r) == multiset(Tag(lists.fe.GetOr([]), FE)) + multiset(Tag(lists.ve.GetOr([]), VE))
    ensures |r| == |lists.fe.GetOr([])| + |lists.ve.GetOr([])|
  {
    var all := Tag(lists.fe.GetOr([]), FE) + Tag(lists.ve.GetOr([]), VE);
    var r := SortNewestFirst(all);
    assert |r| == |multiset(r)| == |multiset(all)| == |all|;
    r
  }

  /**
   * Every remark of either list appears in the merged list under its own tag,
   * and every entry of the merged list comes from the list its tag names.
   */
  lemma MergedMembership(lists: RemarkLists, t: Tagged)
    ensures t in MergedRemarks(lists) <==>
      (t.source == FE && t.remark in lists.fe.GetOr([])) || (t.source == VE && t.remark in lists.ve.GetOr([]))
  {
    var fe, ve := lists.fe.GetOr([]), lists.ve.GetOr([]);
    var m := MergedRemarks(lists);
    assert t in m <==> t in multiset(m);
    assert t in multiset(Tag(fe, FE)) <==> t.source == FE && t.remark in fe by {
      if t.source == FE && t.remark in fe {
        var i :| 0 <= i < |fe| && fe[i] == t.remark;
        assert Tag(fe, FE)[i] == t;
      }
    }
    assert t in multiset(Tag(ve, VE)) <==> t.source == VE && t.remark in ve by {
      if t.source == VE && t.remark in ve {
        var i :| 0 <= i < |ve| && ve[i] == t.remark;
        assert Tag(ve, VE)[i] == t;
      }
    }
  }
}

=== FILE: session.dfy ===
/**
 * Browser `localStorage` as a string-to-string map, and the keys the service
 * layer keeps the session under.
 */
module Session {
  import opened Wrappers

  type Storage = map<string, string>

  const AccessTokenKey := "accessToken"
  const RefreshTokenKey := "refreshToken"
  const UserDataKey := "userData"

  /** The key the authentication context writes the user under; not the service's key. */
  const ContextUserKey := "user"

  /** `localStorage.getItem(k)`. */
  function GetItem(st: Storage, k: string): (r: Option<string>)
    ensures r.Some? <==> k in st
    ensures r.Some? ==> r.value == st[k]
  {
    if k in st then Some(st[k]) else None
  }

  /** Removing the three session keys, as logout and a failed refresh do. */
  function ClearSession(st: Storage): (r: Storage)
    ensures AccessTokenKey !in r && RefreshTokenKey !in r && UserDataKey !in r
    ensures forall k | k in st && k != AccessTokenKey && k != RefreshTokenKey && k != UserDataKey
      :: k in r && r[k] == st[k]
    ensures forall k | k in r :: k in st
  {
    st - {AccessTokenKey, RefreshTokenKey, UserDataKey}
  }
}

=== FILE: structure_lists.dfy ===
/**
 * The three structure listings: the dashboard list (status toggle, sort
 * toggle, shown range, page buttons, empty-state text), the structures page
 * and the structures dialog (filter updates, page changes, the summary
 * counts, the shown range).
 *
 * The structures page routes its page buttons through the filter handler,
 * which always resets the page to 1; `PageHandler` models that as written
 * and `GoToPage` is the page change the dialog performs and the page
 * evidently intends.
 */
module StructureLists {
  import opened Wrappers
  import opened Text
  import Structures

  // ----- Dashboard list -----

  /** `handleStatusFilter`: choosing the current status clears the filter; any other choice selects it. */
  function ToggleStatus(current: string, chosen: string): (r: string)
    ensures chosen == current ==> r == ""
    ensures chosen != current ==> r == chosen
  {
    if chosen == current then "" else chosen
  }

  /** Choosing the same status twice restores the filter exactly when it was empty or that status. */
  lemma ToggleStatusTwice(current: string, chosen: string)
    ensures ToggleStatus(ToggleStatus(current, chosen), chosen) == current <==> current == "" || current == chosen
  {
  }

  datatype Order = Asc | Desc

  function Flip(o: Order): Order { if o == Asc then Desc else Asc }

  /** `handleSort`: the same field flips the order; another field is selected in descending order. */
  function SortBy(field: string, order: Order, clicked: string): (r: (string, Order))
    ensures r.0 == clicked
    ensures clicked == field ==> r.1 != order
    ensures clicked != field ==> r.1 == Desc
  {
    if field == clicked then (field, Flip(order)) else (clicked, Desc)
  }

  /** Clicking one field twice gives back the original order; a new field always starts descending. */
  lemma SortByTwice(field: string, order: Order, clicked: string)
    ensures clicked == field ==> SortBy(SortBy(field, order, clicked).0, SortBy(field, order, clicked).1, clicked) == (field, order)
    ensures clicked != field ==> SortBy(SortBy(field, order, clicked).0, SortBy(field, order, clicked).1, clicked) == (clicked, Asc)
  {
  }

  /** JavaScript's `n || d` on a number. */
  function OrNum(n: int, d: int): int { if n != 0 then n else d }

  /** "Showing `first` to `last`": `(page - 1) * perPage + 1` and `min(page * perPage, total)`. */
  function ShownRange(page: int, perPage: int, total: int): (r: (int, int))
    ensures page >= 1 && perPage > 0 && (page - 1) * perPage < total ==>
      && 1 <= r.0 <= r.1 <= total
      && r.1 - r.0 + 1 <= perPage
      && (r.1 - r.0 + 1 == perPage || r.1 == total)
  {
    var first := (page - 1) * perPage + 1;
    var last := if page * perPage <= total then page * perPage else total;
    assert page >= 1 && perPage > 0 ==> first <= page * perPage by {
      if page >= 1 && perPage > 0 {
        assert page * perPage == (page - 1) * perPage + perPage;
      }
    }
    (first, last)
  }

  /** The dashboard list's range: a missing page counts as 1, a missing size or total as 0. */
  function DashboardRange(p: Structures.Pagination): (r: (int, int))
    ensures p.currentPage != 0 && p.perPage != 0 ==> r.0 == (p.currentPage - 1) * p.perPage + 1
    ensures p.currentPage == 0 || p.perPage == 0 ==> r.0 == 1
    ensures p.perPage == 0 && p.totalItems >= 0 ==> r.1 == 0
    ensures p.totalItems == 0 ==> r.1 <= 0
    ensures p.currentPage > 0 && p.perPage > 0 ==> 
      r.1 <= p.totalItems && r.1 <= p.currentPage * p.perPage && (r.1 == p.totalItems || r.1 == p.currentPage * p.perPage)
  {
    ShownRange(OrNum(p.currentPage, 1), OrNum(p.perPage, 0), OrNum(p.totalItems, 0))
  }

  /**
   * On a page inside the listing, the range covers at most one page of
   * items and ends at the page size or at the total.
   */
  lemma DashboardRangeWithin(p: Structures.Pagination)
    requires p.currentPage >= 1 && p.perPage > 0 && (p.currentPage - 1) * p.perPage < p.totalItems
    ensures 1 <= DashboardRange(p).0 <= DashboardRange(p).1 <= p.totalItems
    ensures DashboardRange(p).1 - DashboardRange(p).0 + 1 <= p.perPage
  {
  }

  /** The page buttons: `1 .. min(totalPages, 5)`, none when the count is not positive. */
  function PageButtons(totalPages: int): (r: seq<int>)
    ensures |r| == if totalPages <= 0 then 0 else if totalPages < 5 then totalPages else 5
    ensures forall i | 0 <= i < |r| :: r[i] == i + 1
  {
    var n := if totalPages <= 0 then 0 else if totalPages < 5 then totalPages else 5;
    seq(n, i requires 0 <= i < n => i + 1)
  }

  /** Every page button names an existing page, and the trailing `... N` appears exactly when some pages have no button. */
  lemma PageButtonsValid(totalPages: int, b: int)
    ensures b in PageButtons(totalPages) <==> 1 <= b <= totalPages && b <= 5
    ensures |PageButtons(totalPages)| < totalPages <==> totalPages > 5
  {
    if 1 <= b <= totalPages && b <= 5 {
      assert PageButtons(totalPages)[b - 1] == b;
    }
  }

  /** The dashboard list shows the pager when it is not loading and there is more than one page. */
  predicate ShowsPager(loading: bool, totalPages: int) {
    !loading && totalPages > 1
  }

  /** The dashboard list's Previous and Next are enabled by the normalised pagination's flags. */
  function PrevNextEnabled(p: Structures.Pagination): (r: (bool, bool))
    ensures r == (p.hasPrevPage, p.hasNextPage)
  {
    (p.hasPrevPage, p.hasNextPage)
  }

  /**
   * The dashboard list's pagination comes through the service's
   * normalisation: when the backend sends no flags, Previous is enabled
   * exactly after the first page and Next exactly before the last; flags
   * that are sent win.
   */
  lemma PrevNextFollowPosition(raw: Structures.RawPagination, paramPage: Option<int>, paramLimit: Option<int>, received: nat)
    ensures var p := Structures.NormalizePagination(raw, paramPage, paramLimit, received);
      && (raw.hasPrevPage.None? && raw.hasPrevPageCamel.None? ==> (PrevNextEnabled(p).0 <==> p.currentPage > 1))
      && (raw.hasNextPage.None? && raw.hasNextPageCamel.None? ==> (PrevNextEnabled(p).1 <==> p.currentPage < p.totalPages))
      && (raw.hasPrevPage.Some? ==> PrevNextEnabled(p).0 == raw.hasPrevPage.value)
      && (raw.hasNextPage.Some? ==> PrevNextEnabled(p).1 == raw.hasNextPage.value)
  {
  }

  /** Once loaded, the pager is shown exactly when it would hold at least two page buttons. */
  lemma PagerHasTwoButtons(loading: bool, totalPages: int)
    ensures !loading ==> (ShowsPager(loading, totalPages) <==> |PageButtons(totalPages)| >= 2)
    ensures loading ==> !ShowsPager(loading, totalPages)
  {
  }

  /** The empty state: which title and hint, by whether a search is typed. */
  function EmptyStateText(searchQuery: string): (r: (string, string))
    ensures searchQuery != "" ==> r == ("No structures found", "Try adjusting your search terms or filters")
    ensures searchQuery == "" ==> r == ("No structures yet", "Get started by creating your first structure")
  {
    if searchQuery != "" then ("No structures found", "Try adjusting your search terms or filters")
    else ("No structures yet", "Get started by creating your first structure")
  }

  // ----- Structures page and structures dialog -----

  datatype ListFilters = ListFilters(
    page: int, limit: Option<int>, search: string, status: Option<string>, kind: Option<string>,
    sortBy: string, sortOrder: string)

  const InitialFilters := ListFilters(1, Some(20), "", None, None, "last_updated_date", "desc")

  /** One `handleFilterChange(key, value)`: the key and its new value. */
  datatype FilterUpdate =
    | SetPage(page: int)
    | SetLimit(limit: Option<int>)
    | SetSearch(search: string)
    | SetStatus(status: Option<string>)
    | SetKind(kind: Option<string>)
    | SetSortBy(sortBy: string)
    | SetSortOrder(sortOrder: string)

  function Apply(f: ListFilters, u: FilterUpdate): ListFilters {
    match u
    case SetPage(p) => f.(page := p)
    case SetLimit(l) => f.(limit := l)
    case SetSearch(s) => f.(search := s)
    case SetStatus(s) => f.(status := s)
    case SetKind(k) => f.(kind := k)
    case SetSortBy(s) => f.(sortBy := s)
    case SetSortOrder(o) => f.(sortOrder := o)
  }

  /** `handleFilterChange` of both screens: the key takes its value and then the page goes back to 1. */
  function FilterChange(f: ListFilters, u: FilterUpdate): (r: ListFilters)
    ensures r.page == 1
    ensures r.limit == if u.SetLimit? then u.limit else f.limit
    ensures r.search == if u.SetSearch? then u.search else f.search
    ensures r.status == if u.SetStatus? then u.status else f.status
    ensures r.kind == if u.SetKind? then u.kind else f.kind
    ensures r.sortBy == if u.SetSortBy? then u.sortBy else f.sortBy
    ensures r.sortOrder == if u.SetSortOrder? then u.sortOrder else f.sortOrder
  {
    Apply(f, u).(page := 1)
  }

  /** `handleSearch`: the search text is replaced and the page goes back to 1. */
  function Search(f: ListFilters, term: string): (r: ListFilters)
    ensures r == FilterChange(f, SetSearch(term))
    ensures r.search == term && r.page == 1
  {
    f.(search := term, page := 1)
  }

  /** The dialog's `handlePageChange`: only the page changes. */
  function GoToPage(f: ListFilters, page: int): (r: ListFilters)
    ensures r.page == page
    ensures r.(page := f.page) == f
  {
    f.(page := page)
  }

  /** A select's value: the empty choice means "no filter". */
  function SelectValue(v: string): (r: Option<string>)
    ensures r.None? <==> v == ""
    ensures r.Some? ==> r.value == v
  {
    if v == "" then None else Some(v)
  }

  /** What the pager buttons of the structures page do, as written: they go through `handleFilterChange`. */
  function PageHandler(f: ListFilters, page: int): (r: ListFilters)
    ensures r.page == 1
    ensures r.(page := f.page) == f
  {
    FilterChange(f, SetPage(page))
  }

  /**
   * The page's Previous, numbered and Next buttons all land on page 1: from
   * page 2 of a listing, Next asks for page 3 and shows page 1.
   */
  lemma PagerAlwaysFirstPage(f: ListFilters, page: int)
    ensures PageHandler(f, page).page == 1
    ensures f.page == 2 ==> PageHandler(f, f.page + 1).page != f.page + 1
  {
  }

  /** The intended pager: each button shows the page it names and keeps every other filter. */
  function PagerTarget(f: ListFilters, page: int): (r: ListFilters)
    ensures r.page == page
    ensures r.(page := f.page) == f
  {
    GoToPage(f, page)
  }

  /** Changing a filter and then paging keeps the filter and shows the page asked for. */
  lemma FilterThenPage(f: ListFilters, u: FilterUpdate, page: int)
    requires !u.SetPage?
    ensures PagerTarget(FilterChange(f, u), page) == Apply(f, u).(page := page)
  {
  }

  /** The structures page's range uses the request's `limit`, 20 when it is missing or zero. */
  function PageRange(p: Structures.Pagination, f: ListFilters): (r: (int, int))
    ensures var size := if f.limit.Some? && f.limit.value != 0 then f.limit.value else 20;
      r.0 == (p.currentPage - 1) * size + 1
      && (p.currentPage >= 1 && size > 0 && (p.currentPage - 1) * size < p.totalItems ==>
            1 <= r.0 <= r.1 <= p.totalItems && r.1 - r.0 + 1 <= size)
  {
    ShownRange(p.currentPage, OrNum(f.limit.GetOr(0), 20), p.totalItems)
  }

  /** The dialog's range uses the request's `limit`, which it asserts to be present. */
  function DialogRange(p: Structures.Pagination, f: ListFilters): (r: (int, int))
    requires f.limit.Some?
    ensures r.0 == (p.currentPage - 1) * f.limit.value + 1
    ensures p.currentPage >= 1 && f.limit.value > 0 && (p.currentPage - 1) * f.limit.value < p.totalItems ==>
      1 <= r.0 <= r.1 <= p.totalItems && r.1 - r.0 + 1 <= f.limit.value
  {
    ShownRange(p.currentPage, f.limit.value, p.totalItems)
  }

  /** Starting from the initial filters, the page's and the dialog's ranges agree until the limit changes. */
  lemma RangesAgreeOnInitialLimit(p: Structures.Pagination, f: ListFilters)
    requires f.limit == Some(20)
    ensures PageRange(p, f) == DialogRange(p, f)
    ensures FilterChange(f, SetSearch("x")).limit == Some(20)
  {
  }

  /**
   * The dialog's Previous and Next: its pagination is the backend's own
   * block, not normalised, so a button is enabled only when the backend
   * sends its flag as `true`; a missing flag disables it.
   */
  function DialogPrevNext(raw: Structures.RawPagination): (r: (bool, bool))
    ensures r.0 <==> raw.hasPrevPage == Some(true)
    ensures r.1 <==> raw.hasNextPage == Some(true)
  {
    (raw.hasPrevPage.GetOr(false), raw.hasNextPage.GetOr(false))
  }

  /**
   * On the middle page of three with no flags sent, the dashboard list
   * enables both buttons and the dialog neither.
   */
  lemma DialogAndListButtonsDiffer()
    ensures var raw := Structures.RawPagination(Some(2), None, None, None, None, None, Some(3), None, None, None, None);
      && DialogPrevNext(raw) == (false, false)
      && PrevNextEnabled(Structures.NormalizePagination(raw, None, None, 0)) == (true, true)
  {
  }

  /** Viewing a structure from the dialog: its page, and the dialog closes. */
  function ViewFromDialog(structureId: string): (r: (string, bool))
    ensures StartsWith(r.0, "/structures/") && r.0[12..] == structureId
    ensures r.1
  {
    ("/structures/" + structureId, true)
  }

  // ----- Summary counts of the page and the dialog -----

  /** The fields of a listed structure the summary cards read. */
  datatype Listed = Listed(status: string, priorityIssues: Option<int>)

  function CountStatus(rows: seq<Listed>, status: string): (n: nat)
    ensures n <= |rows|
    decreases |rows|
  {
    if |rows| == 0 then 0
    else (if rows[0].status == status then 1 else 0) + CountStatus(rows[1..], status)
  }

  /** `priority_issues && priority_issues > 0`. */
  predicate HasIssues(r: Listed) {
    r.priorityIssues.Some? && r.priorityIssues.value > 0
  }

  function CountWithIssues(rows: seq<Listed>): (n: nat)
    ensures n <= |rows|
    decreases |rows|
  {
    if |rows| == 0 then 0 else (if HasIssues(rows[0]) then 1 else 0) + CountWithIssues(rows[1..])
  }

  /**
   * The Approved and Need Inspection cards count disjoint rows, so together
   * they never exceed the listing; a card is non-zero exactly when some row
   * has its status.
   */
  lemma {:induction false} SummaryCounts(rows: seq<Listed>, status: string)
    ensures CountStatus(rows, "approved") + CountStatus(rows, "requires_inspection") <= |rows|
    ensures CountStatus(rows, status) > 0 <==> exists i | 0 <= i < |rows| :: rows[i].status == status
    decreases |rows|
  {
    if |rows| > 0 {
      SummaryCounts(rows[1..], status);
      if exists i | 0 <= i < |rows| - 1 :: rows[1..][i].status == status {
        var i :| 0 <= i < |rows| - 1 && rows[1..][i].status == status;
        assert rows[i + 1].status == status;
      }
      if exists i | 0 <= i < |rows| :: rows[i].status == status {
        var i :| 0 <= i < |rows| && rows[i].status == status;
        if i > 0 {
          assert rows[1..][i - 1].status == status;
        }
      }
    }
  }
}

=== FILE: structures.dfy ===
/**
 * The structures service: how the list request is built, how each list item
 * the backend returns is turned into a `Structure`, the pagination and
 * status-summary defaults filled in when the backend leaves them out, and
 * the derived labels, badge classes and completion percentage.
 *
 * Numbers are integers where the dashboard only counts, and reals where it
 * displays measurements and scores.
 */
module Structures {
  import opened Wrappers
  import opened Text
  import UrlQuery

  // ----- Data model -----

  datatype Remark = Remark(id: Option<string>, text: string, authorName: string, authorRole: string,
                           createdAt: int, updatedAt: int)

  datatype RemarkLists = RemarkLists(fe: Option<seq<Remark>>, ve: Option<seq<Remark>>)

  datatype Flat = Flat(combinedScore: Option<real>)

  datatype Floor = Floor(flats: Option<seq<Flat>>)

  datatype Progress = Progress(overallPercentage: int)

  datatype Statistics = Statistics(totalFloors: int, totalFlats: int, ratedFlats: int,
                                   pendingRatings: int, criticalIssues: int, highPriorityIssues: int)

  datatype HealthSummary = HealthSummary(overallHealthScore: Option<real>, structuralHealth: Option<real>,
                                         priorityLevel: Option<string>)

  datatype Structure = Structure(
    id: string,
    uid: string,
    identityNumber: Option<string>,
    latitude: Option<real>,
    clientName: Option<string>,
    emailId: Option<string>,
    width: Option<real>,
    height: Option<real>,
    floors: Option<seq<Floor>>,
    status: string,
    progress: Option<Progress>,
    statistics: Option<Statistics>,
    health: Option<HealthSummary>,
    remarks: Option<RemarkLists>)

  // ----- The list request -----

  /** A value of the request parameters object. */
  datatype ParamValue = Undefined | Null | Text(s: string) | Number(n: int)

  /** Parameters that are undefined, null or the empty string are not sent. */
  predicate Sent(v: ParamValue) {
    v.Number? || (v.Text? && v.s != "")
  }

  /** `value.toString()`. */
  function ParamString(v: ParamValue): string
    requires Sent(v)
  {
    if v.Text? then v.s else IntToString(v.n)
  }

  /** The parameters that are sent, in the order of the object's entries, as strings. */
  function SentPairs(params: seq<(string, ParamValue)>): (r: seq<(string, string)>)
    ensures |r| <= |params|
    ensures forall i | 0 <= i < |params| && Sent(params[i].1) :: (params[i].0, ParamString(params[i].1)) in r
    ensures forall j | 0 <= j < |r| :: exists i | 0 <= i < |params| ::
      Sent(params[i].1) && r[j] == (params[i].0, ParamString(params[i].1))
    decreases |params|
  {
    if |params| == 0 then []
    else
      var rest := SentPairs(params[1..]);
      assert forall i | 1 <= i < |params| :: params[i] == params[1..][i - 1];
      if Sent(params[0].1) then [(params[0].0, ParamString(params[0].1))] + rest else rest
  }

  lemma {:induction false} SentPairsEmptyIff(params: seq<(string, ParamValue)>)
    ensures SentPairs(params) == [] <==> forall i | 0 <= i < |params| :: !Sent(params[i].1)
    decreases |params|
  {
    if |params| > 0 {
      SentPairsEmptyIff(params[1..]);
      assert forall i | 1 <= i < |params| :: params[i] == params[1..][i - 1];
    }
  }

  /**
   * The sent pairs keep the entries' order and multiplicity: each entry
   * contributes its own pair or nothing, and the pairs of consecutive runs
   * of entries follow each other.
   */
  lemma {:induction false} SentPairsInOrder(a: seq<(string, ParamValue)>, b: seq<(string, ParamValue)>)
    ensures SentPairs(a + b) == SentPairs(a) + SentPairs(b)
    ensures |a| == 1 ==> SentPairs(a) == if Sent(a[0].1) then [(a[0].0, ParamString(a[0].1))] else []
    decreases |a|
  {
    if |a| > 0 {
      var ab := a + b;
      var head := if Sent(a[0].1) then [(a[0].0, ParamString(a[0].1))] else [];
      assert ab[0] == a[0] && ab[1..] == a[1..] + b;
      SentPairsInOrder(a[1..], b);
      assert SentPairs(ab) == head + SentPairs(ab[1..]);
      assert SentPairs(a) == head + SentPairs(a[1..]);
      assert head + (SentPairs(a[1..]) + SentPairs(b)) == (head + SentPairs(a[1..])) + SentPairs(b);
      if |a| == 1 {
        assert a[1..] == [];
      }
    } else {
      assert a + b == b;
    }
  }

  const ListPath := "/structures"

  /** The list URL: the path, then `?` and the query only when the query is non-empty. */
  function ListUrl(params: seq<(string, ParamValue)>): string {
    var query := UrlQuery.Serialize(SentPairs(params));
    ListPath + (if query != "" then "?" + query else "")
  }

  /**
   * The URL carries a query exactly when some parameter is sent, and then the
   * query is the serialisation of the sent parameters.
   */
  lemma ListUrlQuery(params: seq<(string, ParamValue)>)
    ensures (forall i | 0 <= i < |params| :: !Sent(params[i].1)) ==> ListUrl(params) == ListPath
    ensures (exists i | 0 <= i < |params| :: Sent(params[i].1)) ==>
      ListUrl(params) == ListPath + "?" + UrlQuery.Serialize(SentPairs(params))
  {
    SentPairsEmptyIff(params);
    UrlQuery.SerializeEmptyIff(SentPairs(params));
  }

  // ----- Normalising list items -----

  datatype RatingsSummary = RatingsSummary(totalFlats: Option<int>, ratedFlats: Option<int>,
                                           avgStructuralRating: Option<real>, overallHealth: Option<string>)

  /** A list item as the backend sends it (only the fields the dashboard reads). */
  datatype RawItem = RawItem(
    id: Option<string>, structureId: Option<string>, uid: Option<string>,
    identityNumber: Option<string>, latitude: Option<real>, clientName: Option<string>,
    floorCount: Option<int>, width: Option<real>, height: Option<real>,
    status: Option<string>, progress: Option<Progress>, ratings: Option<RatingsSummary>)

  /** `item._id || item.structure_id || item.uid || ''`. */
  function ItemId(item: RawItem): (r: string)
    ensures Truthy(item.id) ==> r == item.id.value
    ensures !Truthy(item.id) && Truthy(item.structureId) ==> r == item.structureId.value
    ensures !Truthy(item.id) && !Truthy(item.structureId) && Truthy(item.uid) ==> r == item.uid.value
    ensures r == "" <==> !Truthy(item.id) && !Truthy(item.structureId) && !Truthy(item.uid)
  {
    OrElse(item.id, OrElse(item.structureId, OrElse(item.uid, "")))
  }

  function Max(a: int, b: int): int { if a >= b then a else b }

  /** The statistics derived from a ratings summary: missing counts are 0, pending is never negative. */
  function ItemStatistics(floorCount: Option<int>, rs: RatingsSummary): (r: Statistics)
    ensures r.pendingRatings >= 0
    ensures r.pendingRatings >= r.totalFlats - r.ratedFlats
    ensures r.pendingRatings == 0 || r.pendingRatings == r.totalFlats - r.ratedFlats
    ensures r.totalFlats == rs.totalFlats.GetOr(0) && r.ratedFlats == rs.ratedFlats.GetOr(0)
    ensures r.criticalIssues == 0 && r.highPriorityIssues == 0
  {
    var total := rs.totalFlats.GetOr(0);
    var rated := rs.ratedFlats.GetOr(0);
    Statistics(floorCount.GetOr(0), total, rated, Max(0, total - rated), 0, 0)
  }

  /**
   * `transformItem`: the id fallback chain, `uid` falling back to the id, the
   * status falling back to `'draft'`, an empty floor list, and statistics and
   * health only when a ratings summary is present.
   */
  function TransformItem(item: RawItem): (r: Structure)
    ensures r.id == ItemId(item)
    ensures r.uid == OrElse(item.uid, r.id)
    ensures r.status != "" && (Truthy(item.status) ==> r.status == item.status.value)
    ensures !Truthy(item.status) ==> r.status == "draft"
    ensures r.floors == Some([]) && r.emailId.None? && r.remarks.None?
    ensures r.statistics.Some? <==> item.ratings.Some?
    ensures r.statistics.Some? ==> r.statistics.value.pendingRatings >= 0
  {
    var id := ItemId(item);
    Structure(
      id, OrElse(item.uid, id), item.identityNumber, item.latitude, item.clientName, None,
      item.width, item.height, Some([]), OrElse(item.status, "draft"), item.progress,
      if item.ratings.Some? then Some(ItemStatistics(item.floorCount, item.ratings.value)) else None,
      if item.ratings.Some? then
        Some(HealthSummary(None, item.ratings.value.avgStructuralRating, item.ratings.value.overallHealth))
      else None,
      None)
  }

  // ----- Pagination -----

  /** `Math.ceil(a / b)`. */
  function CeilDiv(a: int, b: int): (q: int)
    requires b != 0
    ensures b > 0 ==> (q - 1) * b < a <= q * b
    ensures b < 0 ==> (q - 1) * (-b) < -a <= q * (-b)
  {
    if b > 0 then
      var f := (-a) / b;
      assert -a == f * b + (-a) % b;
      -f
    else
      var f := a / (-b);
      assert a == f * (-b) + a % (-b);
      -f
  }

  datatype RawPagination = RawPagination(
    currentPage: Option<int>, page: Option<int>,
    perPage: Option<int>, limit: Option<int>,
    totalItems: Option<int>, total: Option<int>,
    totalPages: Option<int>,
    hasNextPage: Option<bool>, hasNextPageCamel: Option<bool>,
    hasPrevPage: Option<bool>, hasPrevPageCamel: Option<bool>)

  datatype Pagination = Pagination(currentPage: int, perPage: int, totalItems: int, totalPages: int,
                                   hasNextPage: bool, hasPrevPage: bool)

  /** The first present value of a `??` chain. */
  function Coalesce<T>(a: Option<T>, b: Option<T>): Option<T> {
    if a.Some? then a else b
  }

  /** `total_pages` when the backend leaves it out: `max(1, ceil(items / (perPage || 1)))`. */
  function DefaultTotalPages(totalItems: int, perPage: int): (r: int)
    ensures r >= 1
    ensures perPage > 0 && totalItems > 0 ==> (r - 1) * perPage < totalItems <= r * perPage
    ensures perPage > 0 && totalItems <= 0 ==> r == 1
  {
    Max(1, CeilDiv(totalItems, if perPage != 0 then perPage else 1))
  }

  /**
   * The pagination block: each field taken from the backend when present,
   * then from the request parameters, then from the defaults (page 1,
   * 12 per page, the number of items received).
   */
  function NormalizePagination(p: RawPagination, paramPage: Option<int>, paramLimit: Option<int>,
                               received: nat): (r: Pagination)
    ensures r.currentPage == Coalesce(p.currentPage, Coalesce(p.page, paramPage)).GetOr(1)
    ensures r.perPage == Coalesce(p.perPage, Coalesce(p.limit, paramLimit)).GetOr(12)
    ensures r.totalItems == Coalesce(p.totalItems, p.total).GetOr(received)
    ensures p.totalPages.Some? ==> r.totalPages == p.totalPages.value
    ensures p.totalPages.None? ==> r.totalPages >= 1
    ensures p.totalPages.None? && r.perPage > 0 && r.totalItems > 0 ==>
      (r.totalPages - 1) * r.perPage < r.totalItems <= r.totalPages * r.perPage
    ensures p.hasNextPage.Some? ==> r.hasNextPage == p.hasNextPage.value
    ensures p.hasNextPage.None? && p.hasNextPageCamel.Some? ==> r.hasNextPage == p.hasNextPageCamel.value
    ensures p.hasPrevPage.Some? ==> r.hasPrevPage == p.hasPrevPage.value
    ensures p.hasPrevPage.None? && p.hasPrevPageCamel.Some? ==> r.hasPrevPage == p.hasPrevPageCamel.value
    ensures Coalesce(p.hasNextPage, p.hasNextPageCamel).None? ==> (r.hasNextPage <==> r.currentPage < r.totalPages)
    ensures Coalesce(p.hasPrevPage, p.hasPrevPageCamel).None? ==> (r.hasPrevPage <==> r.currentPage > 1)
  {
    var current := Coalesce(p.currentPage, Coalesce(p.page, paramPage)).GetOr(1);
    var per := Coalesce(p.perPage, Coalesce(p.limit, paramLimit)).GetOr(12);
    var items := Coalesce(p.totalItems, p.total).GetOr(received);
    var pages := p.totalPages.GetOr(DefaultTotalPages(items, per));
    Pagination(current, per, items, pages,
               Coalesce(p.hasNextPage, p.hasNextPageCamel).GetOr(current < pages),
               Coalesce(p.hasPrevPage, p.hasPrevPageCamel).GetOr(current > 1))
  }

  /** With nothing from the backend or the request, the defaults describe one page of 12. */
  lemma EmptyPaginationDefaults(received: nat)
    requires received <= 12
    ensures var none := RawPagination(None, None, None, None, None, None, None, None, None, None, None);
      NormalizePagination(none, None, None, received) == Pagination(1, 12, received, 1, false, false)
  {
    var r := DefaultTotalPages(received, 12);
    if received > 0 {
      assert (r - 1) * 12 < received;
      assert r == 1;
    }
  }

  // ----- Status summary -----

  /** The status a structure is counted under. */
  function StatusKey(s: Structure): string {
    if s.status != "" then s.status else "unknown"
  }

  /** Status counts, one entry per status, in first-seen order. */
  type Tally = seq<(string, nat)>

  function CountOf(t: Tally, key: string): nat
    decreases |t|
  {
    if |t| == 0 then 0 else if t[0].0 == key then t[0].1 else CountOf(t[1..], key)
  }

  function Total(t: Tally): nat
    decreases |t|
  {
    if |t| == 0 then 0 else t[0].1 + Total(t[1..])
  }

  predicate HasKey(t: Tally, key: string)
    decreases |t|
  {
    |t| > 0 && (t[0].0 == key || HasKey(t[1..], key))
  }

  /** No status is listed twice. */
  predicate DistinctKeys(t: Tally)
    decreases |t|
  {
    |t| == 0 || (!HasKey(t[1..], t[0].0) && DistinctKeys(t[1..]))
  }

  /** `acc[key] = (acc[key] || 0) + 1`. */
  function Bump(t: Tally, key: string): (r: Tally)
    decreases |t|
  {
    if |t| == 0 then [(key, 1)]
    else if t[0].0 == key then [(key, t[0].1 + 1)] + t[1..]
    else [t[0]] + Bump(t[1..], key)
  }

  lemma {:induction false} BumpKeys(t: Tally, key: string, k: string)
    ensures HasKey(Bump(t, key), k) <==> k == key || HasKey(t, k)
    decreases |t|
  {
    if |t| > 0 {
      var r := Bump(t, key);
      if t[0].0 == key {
        assert r[1..] == t[1..];
      } else {
        BumpKeys(t[1..], key, k);
        assert r[1..] == Bump(t[1..], key);
      }
    }
  }

  lemma {:induction false} BumpDistinct(t: Tally, key: string)
    requires DistinctKeys(t)
    ensures DistinctKeys(Bump(t, key))
    decreases |t|
  {
    if |t| > 0 {
      var r := Bump(t, key);
      if t[0].0 == key {
        assert r[1..] == t[1..];
      } else {
        BumpDistinct(t[1..], key);
        BumpKeys(t[1..], key, t[0].0);
        assert r[1..] == Bump(t[1..], key);
      }
    }
  }

  lemma {:induction false} BumpCounts(t: Tally, key: string, k: string)
    requires DistinctKeys(t)
    ensures Total(Bump(t, key)) == Total(t) + 1
    ensures CountOf(Bump(t, key), k) == CountOf(t, k) + (if k == key then 1 else 0)
    decreases |t|
  {
    if |t| > 0 {
      var r := Bump(t, key);
      if t[0].0 == key {
        assert r[1..] == t[1..];
      } else {
        BumpCounts(t[1..], key, k);
        assert r[1..] == Bump(t[1..], key);
      }
    }
  }

  /** The computed `by_status`: one entry per status seen, counting the structures in it. */
  function CountByStatus(structures: seq<Structure>): (r: Tally)
    decreases |structures|
  {
    if |structures| == 0 then []
    else Bump(CountByStatus(structures[..|structures| - 1]), StatusKey(structures[|structures| - 1]))
  }

  /** How many structures are counted under `key`. */
  function Occurrences(structures: seq<Structure>, key: string): nat
    decreases |structures|
  {
    if |structures| == 0 then 0
    else Occurrences(structures[..|structures| - 1], key)
         + (if StatusKey(structures[|structures| - 1]) == key then 1 else 0)
  }

  /**
   * The computed counts list each status once, count exactly the structures
   * with that status, and add up to the number of structures.
   */
  lemma {:induction false} CountByStatusSpec(structures: seq<Structure>)
    ensures DistinctKeys(CountByStatus(structures))
    ensures Total(CountByStatus(structures)) == |structures|
    ensures forall k :: CountOf(CountByStatus(structures), k) == Occurrences(structures, k)
    decreases |structures|
  {
    if |structures| > 0 {
      var init := structures[..|structures| - 1];
      CountByStatusSpec(init);
      BumpCounts(CountByStatus(init), StatusKey(structures[|structures| - 1]), "");
      var key := StatusKey(structures[|structures| - 1]);
      BumpDistinct(CountByStatus(init), key);
      forall k ensures CountOf(CountByStatus(structures), k) == Occurrences(structures, k) {
        BumpCounts(CountByStatus(init), key, k);
      }
    }
  }

  datatype SummaryNode = SummaryNode(totalStructures: Option<int>, byStatus: Option<Tally>)

  datatype Summary = Summary(totalStructures: int, byStatus: Tally)

  /** The summary: the backend's when it sends one, else counted from the list. */
  function Summarize(node: Option<SummaryNode>, structures: seq<Structure>): (r: Summary)
    ensures node.None? || node.value.byStatus.None? ==>
      Total(r.byStatus) == |structures| && DistinctKeys(r.byStatus)
    ensures node.None? || node.value.totalStructures.None? ==> r.totalStructures == |structures|
  {
    CountByStatusSpec(structures);
    var counted := CountByStatus(structures);
    if node.None? then Summary(|structures|, counted)
    else Summary(node.value.totalStructures.GetOr(|structures|), node.value.byStatus.GetOr(counted))
  }

  datatype Filters = Filters(status: string, search: string, sortBy: string, sortOrder: string)

  /** The first value given for `key` in the request parameters. */
  function Param(params: seq<(string, ParamValue)>, key: string): ParamValue
    decreases |params|
  {
    if |params| == 0 then Undefined
    else if params[0].0 == key then params[0].1
    else Param(params[1..], key)
  }

  /** `params.key ?? ''`, as a string. */
  function EchoParam(params: seq<(string, ParamValue)>, key: string): string {
    match Param(params, key)
    case Text(s) => s
    case Number(n) => IntToString(n)
    case _ => ""
  }

  function NumberParam(params: seq<(string, ParamValue)>, key: string): Option<int> {
    match Param(params, key)
    case Number(n) => Some(n)
    case _ => None
  }

  /** The filters echoed back: the request's own values, `''` when not given. */
  function EchoFilters(params: seq<(string, ParamValue)>): Filters {
    Filters(EchoParam(params, "status"), EchoParam(params, "search"),
            EchoParam(params, "sortBy"), EchoParam(params, "sortOrder"))
  }

  datatype ListResponse = ListResponse(structures: seq<Structure>, pagination: Pagination,
                                       filters: Filters, summary: Summary)

  /** `normalize`, given the item list, pagination block and summary the backend's reply holds. */
  function Normalize(items: seq<RawItem>, p: RawPagination, node: Option<SummaryNode>,
                     params: seq<(string, ParamValue)>): (r: ListResponse)
    ensures |r.structures| == |items|
    ensures forall i | 0 <= i < |items| :: r.structures[i] == TransformItem(items[i])
    ensures p.totalItems.None? && p.total.None? ==> r.pagination.totalItems == |items|
    ensures node.None? ==> r.summary.totalStructures == |items| && Total(r.summary.byStatus) == |items|
  {
    var structures := seq(|items|, i requires 0 <= i < |items| => TransformItem(items[i]));
    ListResponse(
      structures,
      NormalizePagination(p, NumberParam(params, "page"), NumberParam(params, "limit"), |structures|),
      EchoFilters(params),
      Summarize(node, structures))
  }

  // ----- Labels and badge classes -----

  /** `status.split('_').map(w => w.charAt(0).toUpperCase() + w.slice(1)).join(' ')`. */
  function UpperFirst(w: string): string {
    if |w| == 0 then "" else [UpperChar(w[0])] + w[1..]
  }

  function FormatStatusText(status: string): string {
    var words := Split(status, '_');
    Join(seq(|words|, i requires 0 <= i < |words| => UpperFirst(words[i])), " ")
  }

  function StatusCase(first: bool, c: char): char {
    if first then UpperChar(c) else c
  }

  /**
   * The status text, character by character: underscores become spaces, the
   * first character of the text and every character after an underscore is
   * uppercased, and the rest is kept; so the length is preserved.
   */
  lemma FormatStatusTextPointwise(status: string)
    ensures |FormatStatusText(status)| == |status|
    ensures forall i | 0 <= i < |status| ::
      FormatStatusText(status)[i] ==
        if status[i] == '_' then ' '
        else if i == 0 || status[i - 1] == '_' then UpperChar(status[i])
        else status[i]
  {
    var words := Split(status, '_');
    forall i | 0 <= i < |words| ensures UpperFirst(words[i]) == WordCase(StatusCase, words[i]) { }
    assert seq(|words|, i requires 0 <= i < |words| => UpperFirst(words[i]))
        == seq(|words|, i requires 0 <= i < |words| => WordCase(StatusCase, words[i]));
    TransformWordsPointwise(status, '_', ' ', StatusCase);
  }

  const FallbackBadge := "badge bg-gray-100 text-gray-600"

  type Table = seq<(string, string)>

  /** The value of the first entry for `key`. */
  function Lookup<V>(t: seq<(string, V)>, key: string): Option<V>
    decreases |t|
  {
    if |t| == 0 then None else if t[0].0 == key then Some(t[0].1) else Lookup(t[1..], key)
  }

  predicate Listed<V>(t: seq<(string, V)>, key: string) {
    exists i | 0 <= i < |t| :: t[i].0 == key
  }

  const StatusClasses: Table := [
    ("draft", "status-draft"), ("location_completed", "badge-blue"), ("admin_completed", "badge-blue"),
    ("geometric_completed", "badge-blue"), ("ratings_in_progress", "badge-amber"),
    ("flat_ratings_completed", "badge-green"), ("submitted", "badge-blue"), ("approved", "status-approved")]

  const HealthClasses: Table := [
    ("Good", "status-good"), ("Fair", "badge-amber"), ("Poor", "status-poor"), ("Critical", "status-critical")]

  const PriorityClasses: Table := [
    ("Low", "status-good"), ("Medium", "badge-amber"), ("High", "badge-red"), ("Critical", "status-critical")]

  /** `classes[key] || 'badge bg-gray-100 text-gray-600'`. */
  function BadgeClass(t: Table, key: string): string {
    OrElse(Lookup(t, key), FallbackBadge)
  }

  function StatusBadgeClass(status: string): string { BadgeClass(StatusClasses, status) }
  function HealthBadgeClass(health: string): string { BadgeClass(HealthClasses, health) }
  function PriorityBadgeClass(priority: string): string { BadgeClass(PriorityClasses, priority) }

  lemma {:induction false} LookupListed<V>(t: seq<(string, V)>, key: string)
    ensures Lookup(t, key).Some? <==> Listed(t, key)
    ensures Lookup(t, key).Some? ==> exists i | 0 <= i < |t| :: t[i] == (key, Lookup(t, key).value)
    decreases |t|
  {
    if |t| > 0 {
      LookupListed(t[1..], key);
      if Listed(t[1..], key) {
        var i :| 0 <= i < |t[1..]| && t[1..][i].0 == key;
        assert t[i + 1].0 == key;
      }
      if Listed(t, key) && t[0].0 != key {
        var i :| 0 <= i < |t| && t[i].0 == key;
        assert t[1..][i - 1].0 == key;
      }
      if Lookup(t, key).Some? && t[0].0 != key {
        var i :| 0 <= i < |t[1..]| && t[1..][i] == (key, Lookup(t, key).value);
        assert t[i + 1] == (key, Lookup(t, key).value);
      }
    }
  }

  /**
   * In a table whose classes are all non-empty and differ from the fallback,
   * a key gets the fallback exactly when the table does not list it.
   */
  lemma BadgeFallbackIff(t: Table, key: string)
    requires forall i | 0 <= i < |t| :: t[i].1 != "" && t[i].1 != FallbackBadge
    ensures BadgeClass(t, key) == FallbackBadge <==> !Listed(t, key)
  {
    LookupListed(t, key);
  }

  /** Each of the three badge lookups falls back exactly for the keys it does not list. */
  lemma BadgeLookupsFallBack(key: string)
    ensures StatusBadgeClass(key) == FallbackBadge <==> !Listed(StatusClasses, key)
    ensures HealthBadgeClass(key) == FallbackBadge <==> !Listed(HealthClasses, key)
    ensures PriorityBadgeClass(key) == FallbackBadge <==> !Listed(PriorityClasses, key)
  {
    ShortClasses(StatusClasses);
    BadgeFallbackIff(StatusClasses, key);
    ShortClasses(HealthClasses);
    BadgeFallbackIff(HealthClasses, key);
    ShortClasses(PriorityClasses);
    BadgeFallbackIff(PriorityClasses, key);
  }

  /** Classes that are non-empty and shorter than the fallback differ from it. */
  lemma ShortClasses(t: Table)
    requires forall i | 0 <= i < |t| :: 0 < |t[i].1| < |FallbackBadge|
    ensures forall i | 0 <= i < |t| :: t[i].1 != "" && t[i].1 != FallbackBadge
  {
  }

  // ----- Completion -----

  /** `Math.round(k / 6 * 100)`: the nearest integer, halves rounded up. */
  function SixthsPercent(k: int): (r: int)
    requires 0 <= k <= 6
    ensures 6 * r - 3 <= 100 * k < 6 * r + 3
    ensures 0 <= r <= 100
  {
    (100 * k + 3) / 6
  }

  predicate SomeFloorHasFlats(floors: seq<Floor>) {
    exists i | 0 <= i < |floors| :: floors[i].flats.Some? && |floors[i].flats.value| > 0
  }

  predicate AllFlatsRated(floors: seq<Floor>) {
    forall i | 0 <= i < |floors| ::
      floors[i].flats.Some? &&
      forall j | 0 <= j < |floors[i].flats.value| :: TruthyReal(floors[i].flats.value[j].combinedScore)
  }

  function B2I(b: bool): int { if b then 1 else 0 }

  /** The six completion steps met by a structure without a progress record. */
  function CompletedSteps(s: Structure): (k: int)
    ensures 0 <= k <= 6
  {
    B2I(Truthy(s.identityNumber) && TruthyReal(s.latitude))
    + B2I(Truthy(s.clientName) && Truthy(s.emailId))
    + B2I(TruthyReal(s.width) && TruthyReal(s.height))
    + B2I(s.floors.Some? && |s.floors.value| > 0)
    + B2I(s.floors.Some? && SomeFloorHasFlats(s.floors.value))
    + B2I(s.floors.Some? && AllFlatsRated(s.floors.value))
  }

  /** `calculateCompletionPercentage`. */
  function CompletionPercentage(s: Structure): (r: int)
    ensures s.progress.Some? ==> r == s.progress.value.overallPercentage
    ensures s.progress.None? ==> 0 <= r <= 100 && 6 * r - 3 <= 100 * CompletedSteps(s) < 6 * r + 3
  {
    if s.progress.Some? then s.progress.value.overallPercentage else SixthsPercent(CompletedSteps(s))
  }

  /** Without a progress record the percentage is one of the seven sixths, rounded. */
  lemma CompletionValues(s: Structure)
    requires s.progress.None?
    ensures CompletionPercentage(s) in {0, 17, 33, 50, 67, 83, 100}
  {
    var k := CompletedSteps(s);
    assert k == 0 || k == 1 || k == 2 || k == 3 || k == 4 || k == 5 || k == 6;
  }

  /**
   * A list item as normalised has no floors and no e-mail address: the
   * "all flats rated" step holds vacuously while the floor, flat and
   * administration steps never do, so without progress it scores 17, 33 or 50.
   */
  lemma TransformedCompletion(item: RawItem)
    requires item.progress.None?
    ensures var s := TransformItem(item);
      && AllFlatsRated(s.floors.value)
      && CompletedSteps(s) == 1 + B2I(Truthy(item.identityNumber) && TruthyReal(item.latitude))
                                + B2I(TruthyReal(item.width) && TruthyReal(item.height))
      && CompletionPercentage(s) in {17, 33, 50}
  {
  }
}

=== FILE: table.dfy ===
/**
 * The generic data table: the sort-header toggle and where its result goes
 * (the caller's callback or the table's own state), which columns sort,
 * what the body shows, and how a cell without a renderer prints its value.
 */
module Table {
  import opened Wrappers
  import opened Text

  datatype Direction = Asc | Desc

  /** The table's own sort state, used when the caller does not control it. */
  datatype SortState = SortState(key: Option<string>, direction: Direction)

  const InitialSort := SortState(None, Asc)

  /** The caller's props that bear on sorting. */
  datatype SortProps = SortProps(sortable: bool, hasOnSort: bool, sortKey: Option<string>, sortDirection: Option<Direction>)

  /** A non-empty `sortKey` prop and any `sortDirection` prop override the table's own state. */
  function CurrentKey(p: SortProps, st: SortState): (k: Option<string>)
    ensures Truthy(p.sortKey) ==> k == p.sortKey
    ensures !Truthy(p.sortKey) ==> k == st.key
  {
    if Truthy(p.sortKey) then p.sortKey else st.key
  }

  function CurrentDirection(p: SortProps, st: SortState): (d: Direction)
    ensures d == p.sortDirection.GetOr(st.direction)
  {
    if p.sortDirection.Some? then p.sortDirection.value else st.direction
  }

  /**
   * `handleSort`: nothing happens in a non-sortable table; otherwise the new
   * direction is descending exactly when the clicked column is the current
   * one and the current direction is ascending. With an `onSort` callback
   * the pair goes to the callback and the table's state is untouched;
   * without one the state takes the pair.
   */
  function HandleSort(p: SortProps, st: SortState, key: string): (r: (SortState, Option<(string, Direction)>))
    ensures !p.sortable ==> r == (st, None)
    ensures p.sortable && p.hasOnSort ==> r.0 == st && r.1.Some? && r.1.value.0 == key
    ensures p.sortable && p.hasOnSort ==>
      (r.1.value.1 == Desc <==> CurrentKey(p, st) == Some(key) && CurrentDirection(p, st) == Asc)
    ensures p.sortable && !p.hasOnSort ==> r.1.None? && r.0.key == Some(key)
    ensures p.sortable && !p.hasOnSort ==>
      (r.0.direction == Desc <==> CurrentKey(p, st) == Some(key) && CurrentDirection(p, st) == Asc)
  {
    if !p.sortable then (st, None)
    else
      var dir := if CurrentKey(p, st) == Some(key) && CurrentDirection(p, st) == Asc then Desc else Asc;
      if p.hasOnSort then (st, Some((key, dir))) else (SortState(Some(key), dir), None)
  }

  /**
   * Without a callback or overriding props, clicking one column repeatedly
   * starts ascending and then alternates; clicking another column starts
   * that one ascending again.
   */
  lemma ClickToggles(st: SortState, key: string, other: string)
    requires key != other
    ensures var p := SortProps(true, false, None, None);
      var once := HandleSort(p, st, key).0;
      var twice := HandleSort(p, once, key).0;
      && once.key == Some(key)
      && (st.key != Some(key) ==> once.direction == Asc)
      && twice.key == Some(key) && twice.direction != once.direction
      && HandleSort(p, twice, key).0 == once
      && HandleSort(p, once, other).0 == SortState(Some(other), Asc)
  {
  }

  /** A column sorts when the table does and the column does not opt out. */
  predicate ColumnSortable(tableSortable: bool, columnSortable: Option<bool>) {
    tableSortable && columnSortable != Some(false)
  }

  /**
   * A click on a column header: `handleSort` runs only for a sortable
   * column, so a column that opts out changes nothing even in a sortable
   * table, and the sort handler's own guard never fires from a header.
   */
  function HeaderClick(p: SortProps, columnSortable: Option<bool>, st: SortState, key: string): (r: (SortState, Option<(string, Direction)>))
    ensures columnSortable == Some(false) || !p.sortable ==> r == (st, None)
    ensures ColumnSortable(p.sortable, columnSortable) ==> p.sortable && r == HandleSort(p, st, key)
    ensures r != (st, None) ==> columnSortable != Some(false) && p.sortable
  {
    if ColumnSortable(p.sortable, columnSortable) then HandleSort(p, st, key) else (st, None)
  }

  datatype Body = LoadingSpinner | Empty(title: string) | Rows(count: nat)

  /** The body: the spinner while loading (even with rows), the empty state without rows, else the rows. */
  function TableBody(loading: bool, rows: nat, emptyMessage: Option<string>): (b: Body)
    ensures loading <==> b == LoadingSpinner
    ensures !loading && rows == 0 ==> b == Empty(emptyMessage.GetOr("No data available"))
    ensures b.Rows? <==> !loading && rows > 0
    ensures b.Rows? ==> b.count == rows
  {
    if loading then LoadingSpinner
    else if rows == 0 then Empty(emptyMessage.GetOr("No data available"))
    else Rows(rows)
  }

  /** A cell value, with JavaScript's notion of falsy (NaN aside). */
  datatype Value = Undefined | Null | Bool(b: bool) | Number(n: int) | Str(s: string)

  predicate Falsy(v: Value) {
    v.Undefined? || v.Null? || v == Bool(false) || v == Number(0) || v == Str("")
  }

  /** `String(v)` for a truthy value. */
  function Show(v: Value): string
    requires !Falsy(v)
  {
    match v
    case Bool(_) => "true"
    case Number(n) => IntToString(n)
    case Str(s) => s
  }

  const Dash := "\U{2014}"

  /**
   * A cell without a renderer: the value's text, or the dash for a falsy
   * value. The dash is shown exactly for falsy values and for the text dash
   * itself, and any other text is shown as it is.
   */
  function Cell(v: Value): (r: string)
    ensures r == Dash <==> Falsy(v) || v == Str(Dash)
    ensures v.Str? && v.s != "" ==> r == v.s
    ensures v.Number? && v.n != 0 ==> r == IntToString(v.n)
  {
    if Falsy(v) then Dash
    else
      assert v.Number? ==> IntToString(v.n) != Dash by {
        if v.Number? { IntToStringNotDash(v.n); }
      }
      Show(v)
  }

  lemma IntToStringNotDash(n: int)
    ensures IntToString(n) != Dash
  {
    var t := IntToString(n);
    if n >= 0 {
      assert IsDigit(NatToString(n)[0]);
    } else {
      assert t[0] == '-';
    }
  }
}

=== FILE: text.dfy ===
/**
 * String primitives the dashboard borrows from JavaScript: character classes of
 * its regular expressions, `trim`, `split`/`join` on one separator character,
 * `startsWith`, `includes`, and number-to-string conversion.
 * Case mapping is ASCII only.
 */
module Text {

  /** `\d` in a JavaScript regular expression without the `u` flag. */
  predicate IsDigit(c: char) { '0' <= c <= '9' }

  predicate IsLower(c: char) { 'a' <= c <= 'z' }

  predicate IsUpper(c: char) { 'A' <= c <= 'Z' }

  /** `\w`: ASCII letters, digits and the underscore. */
  predicate IsWordChar(c: char) { IsDigit(c) || IsLower(c) || IsUpper(c) || c == '_' }

  /**
   * `\s` and the characters `String.prototype.trim` removes: the ECMAScript
   * WhiteSpace and LineTerminator productions (tab, vertical tab, form feed,
   * no-break space, byte-order mark, every space separator, line feed,
   * carriage return, line and paragraph separators).
   */
  predicate IsWhitespace(c: char) {
    var n := c as int;
    (9 <= n <= 13) || n == 0x20 || n == 0xA0 || n == 0x1680 || (0x2000 <= n <= 0x200A)
    || n == 0x2028 || n == 0x2029 || n == 0x202F || n == 0x205F || n == 0x3000 || n == 0xFEFF
  }

  /** The characters `.` in a regular expression does not match. */
  predicate IsLineTerminator(c: char) {
    var n := c as int;
    n == 0x0A || n == 0x0D || n == 0x2028 || n == 0x2029
  }

  function UpperChar(c: char): char {
    if IsLower(c) then (c as int - 32) as char else c
  }

  function LowerChar(c: char): char {
    if IsUpper(c) then (c as int + 32) as char else c
  }

  function Upper(s: string): string {
    seq(|s|, i requires 0 <= i < |s| => UpperChar(s[i]))
  }

  function Lower(s: string): string {
    seq(|s|, i requires 0 <= i < |s| => LowerChar(s[i]))
  }

  /** Every character of `s` is whitespace (so `s.trim()` is falsy). */
  predicate IsBlank(s: string) {
    forall i | 0 <= i < |s| :: IsWhitespace(s[i])
  }

  function TrimStart(s: string): (r: string)
    ensures |r| <= |s| && r == s[|s| - |r|..]
    ensures IsBlank(s[..|s| - |r|])
    ensures |r| > 0 ==> !IsWhitespace(r[0])
    decreases |s|
  {
    if |s| > 0 && IsWhitespace(s[0]) then TrimStart(s[1..]) else s
  }

  function TrimEnd(s: string): (r: string)
    ensures |r| <= |s| && r == s[..|r|]
    ensures IsBlank(s[|r|..])
    ensures |r| > 0 ==> !IsWhitespace(r[|r| - 1])
    decreases |s|
  {
    if |s| > 0 && IsWhitespace(s[|s| - 1]) then TrimEnd(s[..|s| - 1]) else s
  }

  /** `String.prototype.trim`. */
  function Trim(s: string): (r: string)
    ensures r == "" <==> IsBlank(s)
    ensures |r| > 0 ==> !IsWhitespace(r[0]) && !IsWhitespace(r[|r| - 1])
  {
    var t := TrimStart(s);
    var r := TrimEnd(t);
    assert s == s[..|s| - |t|] + t;
    assert r == "" ==> t == t[|r|..];
    r
  }

  /** `s.split(c)`: never empty; splitting `''` yields `['']`. */
  function Split(s: string, c: char): (r: seq<string>)
    ensures |r| >= 1
    decreases |s|
  {
    if |s| == 0 then [""]
    else
      var rest := Split(s[1..], c);
      if s[0] == c then [""] + rest
      else [[s[0]] + rest[0]] + rest[1..]
  }

  /** `parts.join(sep)`. */
  function Join(parts: seq<string>, sep: string): string
    decreases |parts|
  {
    if |parts| == 0 then ""
    else if |parts| == 1 then parts[0]
    else parts[0] + sep + Join(parts[1..], sep)
  }

  /** Joining the pieces of a split with the separator gives the string back. */
  lemma {:induction false} JoinSplit(s: string, c: char)
    ensures Join(Split(s, c), [c]) == s
    decreases |s|
  {
    if |s| > 0 {
      var rest := Split(s[1..], c);
      JoinSplit(s[1..], c);
      if s[0] == c {
        assert Split(s, c) == [""] + rest;
        assert ([""] + rest)[1..] == rest;
        assert s == [c] + s[1..];
      } else if |rest| == 1 {
        assert Split(s, c) == [[s[0]] + rest[0]];
        assert s == [s[0]] + s[1..];
      } else {
        var parts := Split(s, c);
        assert parts == [[s[0]] + rest[0]] + rest[1..];
        assert parts[1..] == rest[1..];
        assert Join(rest, [c]) == rest[0] + [c] + Join(rest[1..], [c]);
        assert s == [s[0]] + s[1..];
      }
    }
  }

  /** No piece of a split contains the separator. */
  lemma {:induction false} SplitPiecesAvoidSeparator(s: string, c: char)
    ensures forall k | 0 <= k < |Split(s, c)| :: c !in Split(s, c)[k]
    decreases |s|
  {
    if |s| > 0 {
      SplitPiecesAvoidSeparator(s[1..], c);
      var rest := Split(s[1..], c);
      if s[0] != c {
        assert c !in rest[0];
        assert c !in [s[0]] + rest[0];
      }
    }
  }

  /** A string without the separator splits into itself alone. */
  lemma {:induction false} SplitWithoutSeparator(s: string, c: char)
    requires c !in s
    ensures Split(s, c) == [s]
    decreases |s|
  {
    if |s| > 0 {
      assert c !in s[1..];
      SplitWithoutSeparator(s[1..], c);
      assert s == [s[0]] + s[1..];
    }
  }

  /** Splitting `w + c + rest`, where `w` has no `c`, peels off `w`. */
  lemma {:induction false} SplitCons(w: string, c: char, rest: string)
    requires c !in w
    ensures Split(w + [c] + rest, c) == [w] + Split(rest, c)
    decreases |w|
  {
    if |w| == 0 {
      assert w + [c] + rest == [c] + rest;
      assert ([c] + rest)[1..] == rest;
    } else {
      var s := w + [c] + rest;
      assert s[0] == w[0];
      assert s[1..] == w[1..] + [c] + rest;
      assert c !in w[1..];
      SplitCons(w[1..], c, rest);
      assert [w[0]] + w[1..] == w;
    }
  }

  /** `Join` of two or more pieces peels off the first. */
  lemma JoinCons(p: string, ps: seq<string>, sep: string)
    requires |ps| >= 1
    ensures Join([p] + ps, sep) == p + sep + Join(ps, sep)
  {
    assert ([p] + ps)[1..] == ps;
  }

  /** The length of a join: the pieces plus one separator between each pair. */
  function SumLengths(parts: seq<string>): nat
    decreases |parts|
  {
    if |parts| == 0 then 0 else |parts[0]| + SumLengths(parts[1..])
  }

  lemma {:induction false} JoinLength(parts: seq<string>, sep: string)
    requires |parts| >= 1
    ensures |Join(parts, sep)| == SumLengths(parts) + (|parts| - 1) * |sep|
    decreases |parts|
  {
    if |parts| > 1 {
      JoinLength(parts[1..], sep);
    }
  }

  /** The first index of `c` in `s`. */
  function IndexOf(s: string, c: char): (k: nat)
    requires c in s
    ensures k < |s| && s[k] == c && c !in s[..k]
    decreases |s|
  {
    if s[0] == c then 0
    else
      assert c in s[1..] by { var j :| 0 <= j < |s| && s[j] == c; assert s[1..][j - 1] == c; }
      var k := IndexOf(s[1..], c);
      assert s[..k + 1] == [s[0]] + s[1..][..k];
      k + 1
  }

  /** A word whose every character is recased by `g`, told whether it is the first. */
  function WordCase(g: (bool, char) -> char, w: string): (r: string)
    ensures |r| == |w|
  {
    seq(|w|, i requires 0 <= i < |w| => g(i == 0, w[i]))
  }

  /** `s.split(c).map(w => WordCase(g, w)).join(d)`. */
  function TransformWords(s: string, c: char, d: char, g: (bool, char) -> char): string {
    var parts := Split(s, c);
    Join(seq(|parts|, i requires 0 <= i < |parts| => WordCase(g, parts[i])), [d])
  }

  /**
   * The same transformation stated character by character: separators become
   * `d`, and every other character is recased by `g` according to whether it
   * starts a word.
   */
  function TransformChars(s: string, c: char, d: char, g: (bool, char) -> char): (r: string)
    ensures |r| == |s|
  {
    seq(|s|, i requires 0 <= i < |s| => if s[i] == c then d else g(i == 0 || s[i - 1] == c, s[i]))
  }

  /** Splitting into words, recasing each and joining is the character-wise transformation. */
  lemma {:induction false} TransformWordsPointwise(s: string, c: char, d: char, g: (bool, char) -> char)
    ensures TransformWords(s, c, d, g) == TransformChars(s, c, d, g)
    decreases |s|
  {
    if c !in s {
      TransformSingleWord(s, c, d, g);
    } else {
      var k := IndexOf(s, c);
      var w, rest := s[..k], s[k + 1..];
      assert s == w + [c] + rest;
      TransformWordsCons(w, rest, c, d, g);
      TransformCharsCons(w, rest, c, d, g);
      TransformWordsPointwise(rest, c, d, g);
    }
  }

  lemma TransformSingleWord(s: string, c: char, d: char, g: (bool, char) -> char)
    requires c !in s
    ensures TransformWords(s, c, d, g) == TransformChars(s, c, d, g)
  {
    SplitWithoutSeparator(s, c);
    var parts := Split(s, c);
    assert seq(|parts|, i requires 0 <= i < |parts| => WordCase(g, parts[i])) == [WordCase(g, s)];
    forall i | 0 <= i < |s| - 1 ensures s[i] != c {
      assert s[i] in s;
    }
  }

  lemma TransformWordsCons(w: string, rest: string, c: char, d: char, g: (bool, char) -> char)
    requires c !in w
    ensures TransformWords(w + [c] + rest, c, d, g) == WordCase(g, w) + [d] + TransformWords(rest, c, d, g)
  {
    SplitCons(w, c, rest);
    var tail := Split(rest, c);
    var parts := Split(w + [c] + rest, c);
    var mapped := seq(|parts|, i requires 0 <= i < |parts| => WordCase(g, parts[i]));
    var mappedTail := seq(|tail|, i requires 0 <= i < |tail| => WordCase(g, tail[i]));
    assert mapped == [WordCase(g, w)] + mappedTail;
    JoinCons(WordCase(g, w), mappedTail, [d]);
  }

  lemma TransformCharsCons(w: string, rest: string, c: char, d: char, g: (bool, char) -> char)
    requires c !in w
    ensures TransformChars(w + [c] + rest, c, d, g) == WordCase(g, w) + [d] + TransformChars(rest, c, d, g)
  {
    var s := w + [c] + rest;
    var k := |w|;
    var lhs := WordCase(g, w) + [d] + TransformChars(rest, c, d, g);
    forall i | 0 <= i < |s| ensures lhs[i] == TransformChars(s, c, d, g)[i] {
      if i < k {
        assert s[i] == w[i];
        assert w[i] in w;
        if i > 0 {
          assert s[i - 1] == w[i - 1];
          assert w[i - 1] in w;
        }
      } else if i > k {
        assert s[i] == rest[i - k - 1];
        if i > k + 1 { assert s[i - 1] == rest[i - k - 2]; }
      }
    }
  }

  /**
   * `s.replace(/\b\w/g, ch => ch.toUpperCase())`: every word character that
   * starts a run of word characters is uppercased.
   */
  function UpperWordStarts(s: string): (r: string)
    ensures |r| == |s|
  {
    seq(|s|, i requires 0 <= i < |s| =>
      if IsWordChar(s[i]) && (i == 0 || !IsWordChar(s[i - 1])) then UpperChar(s[i]) else s[i])
  }

  /** `s.startsWith(p)`. */
  predicate StartsWith(s: string, p: string) {
    |p| <= |s| && s[..|p|] == p
  }

  /** `s.includes(sub)`. */
  predicate Contains(s: string, sub: string)
    decreases |s|
  {
    StartsWith(s, sub) || (|s| > 0 && Contains(s[1..], sub))
  }

  /** `s.replace(/\D/g, '')`: the ASCII digits of `s`, in order. */
  function Digits(s: string): (r: string)
    ensures |r| <= |s|
    ensures forall i | 0 <= i < |r| :: IsDigit(r[i])
    decreases |s|
  {
    if |s| == 0 then ""
    else if IsDigit(s[0]) then [s[0]] + Digits(s[1..])
    else Digits(s[1..])
  }

  /** A string made only of digits is its own digit string. */
  lemma {:induction false} DigitsOfDigits(s: string)
    requires forall i | 0 <= i < |s| :: IsDigit(s[i])
    ensures Digits(s) == s
    decreases |s|
  {
    if |s| > 0 {
      DigitsOfDigits(s[1..]);
      assert s == [s[0]] + s[1..];
    }
  }

  lemma {:induction false} DigitsAppend(a: string, b: string)
    ensures Digits(a + b) == Digits(a) + Digits(b)
    decreases |a|
  {
    if |a| > 0 {
      assert (a + b)[1..] == a[1..] + b;
      DigitsAppend(a[1..], b);
    } else {
      assert a + b == b;
    }
  }

  /** `c.repeat(n)`. */
  function Repeat(c: char, n: nat): (r: string)
    ensures |r| == n && forall i | 0 <= i < n :: r[i] == c
  {
    seq(n, _ => c)
  }

  function DigitChar(d: int): char
    requires 0 <= d < 10
  {
    "0123456789"[d]
  }

  /** Decimal rendering of a natural number, as `String(n)` prints it. */
  function NatToString(n: nat): (r: string)
    ensures |r| >= 1 && forall i | 0 <= i < |r| :: IsDigit(r[i])
    decreases n
  {
    if n < 10 then [DigitChar(n)] else NatToString(n / 10) + [DigitChar(n % 10)]
  }

  /** Decimal rendering of an integer, with a leading `-` when negative. */
  function IntToString(n: int): string {
    if n < 0 then "-" + NatToString(-n) else NatToString(n)
  }
}

=== FILE: url_query.dfy ===
/**
 * `URLSearchParams.prototype.toString`: the application/x-www-form-urlencoded
 * serialisation of a list of name/value pairs (section 5.2 of the WHATWG URL
 * Standard). Characters outside the unreserved set are written as the
 * percent-encoded bytes of their UTF-8 encoding (section 3 of RFC 3629).
 */
module UrlQuery {
  import opened Text

  /** The characters the serialiser leaves as they are. */
  predicate Unreserved(c: char) {
    IsDigit(c) || IsLower(c) || IsUpper(c) || c == '*' || c == '-' || c == '.' || c == '_'
  }

  /** The UTF-8 encoding of one scalar value. */
  function Utf8(c: char): (bytes: seq<int>)
    ensures 1 <= |bytes| <= 4
    ensures forall i | 0 <= i < |bytes| :: 0 <= bytes[i] < 256
  {
    var n := c as int;
    if n < 0x80 then [n]
    else if n < 0x800 then [0xC0 + n / 64, 0x80 + n % 64]
    else if n < 0x10000 then [0xE0 + n / 4096, 0x80 + (n / 64) % 64, 0x80 + n % 64]
    else [0xF0 + n / 262144, 0x80 + (n / 4096) % 64, 0x80 + (n / 64) % 64, 0x80 + n % 64]
  }

  function HexDigit(d: int): char
    requires 0 <= d < 16
  {
    "0123456789ABCDEF"[d]
  }

  /** `%XX` for each byte, in upper-case hexadecimal. */
  function PercentBytes(bytes: seq<int>): (r: string)
    requires forall i | 0 <= i < |bytes| :: 0 <= bytes[i] < 256
    ensures |r| == 3 * |bytes|
    decreases |bytes|
  {
    if |bytes| == 0 then ""
    else ['%', HexDigit(bytes[0] / 16), HexDigit(bytes[0] % 16)] + PercentBytes(bytes[1..])
  }

  function EncodeChar(c: char): string {
    if Unreserved(c) then [c]
    else if c == ' ' then "+"
    else PercentBytes(Utf8(c))
  }

  /** The form encoding of a name or a value. */
  function Encode(s: string): (r: string)
    ensures |s| <= |r| <= 12 * |s|
    decreases |s|
  {
    if |s| == 0 then "" else EncodeChar(s[0]) + Encode(s[1..])
  }

  /** The characters an encoding can contain. */
  predicate EncodedChar(c: char) {
    Unreserved(c) || c == '+' || c == '%'
  }

  lemma {:induction false} PercentBytesChars(bytes: seq<int>)
    requires forall i | 0 <= i < |bytes| :: 0 <= bytes[i] < 256
    ensures forall i | 0 <= i < |PercentBytes(bytes)| :: EncodedChar(PercentBytes(bytes)[i])
    decreases |bytes|
  {
    if |bytes| > 0 {
      PercentBytesChars(bytes[1..]);
      var head: string := ['%', HexDigit(bytes[0] / 16), HexDigit(bytes[0] % 16)];
      assert PercentBytes(bytes) == head + PercentBytes(bytes[1..]);
    }
  }

  /**
   * An encoding uses only unreserved characters, `+` and `%`; in particular
   * it never contains the pair separator `&` or the name/value separator `=`.
   */
  lemma {:induction false} EncodeChars(s: string)
    ensures forall i | 0 <= i < |Encode(s)| :: EncodedChar(Encode(s)[i])
    ensures '&' !in Encode(s) && '=' !in Encode(s)
    decreases |s|
  {
    if |s| > 0 {
      EncodeChars(s[1..]);
      EncodeCharChars(s[0]);
      AllEncodedAppend(EncodeChar(s[0]), Encode(s[1..]));
    }
    assert !EncodedChar('&') && !EncodedChar('=');
  }

  /** One character's encoding uses only the encoded characters. */
  lemma EncodeCharChars(c: char)
    ensures forall i | 0 <= i < |EncodeChar(c)| :: EncodedChar(EncodeChar(c)[i])
  {
    if !Unreserved(c) && c != ' ' {
      PercentBytesChars(Utf8(c));
    }
  }

  lemma AllEncodedAppend(a: string, b: string)
    requires forall i | 0 <= i < |a| :: EncodedChar(a[i])
    requires forall i | 0 <= i < |b| :: EncodedChar(b[i])
    ensures forall i | 0 <= i < |a + b| :: EncodedChar((a + b)[i])
  {
    forall i | 0 <= i < |a + b| ensures EncodedChar((a + b)[i]) {
      if i >= |a| {
        assert (a + b)[i] == b[i - |a|];
      }
    }
  }

  /** One `name=value` piece. */
  function Pair(name: string, value: string): string {
    Encode(name) + "=" + Encode(value)
  }

  /** The `name=value` pieces, one per pair, in order. */
  function Pieces(pairs: seq<(string, string)>): (r: seq<string>)
    ensures |r| == |pairs|
    decreases |pairs|
  {
    if |pairs| == 0 then [] else [Pair(pairs[0].0, pairs[0].1)] + Pieces(pairs[1..])
  }

  /** The serialised list: the pieces joined with `&`. */
  function Serialize(pairs: seq<(string, string)>): string {
    Join(Pieces(pairs), "&")
  }

  /** Every piece holds exactly one `=`, so it splits back into its encoded name and value. */
  lemma PairSplits(name: string, value: string)
    ensures '&' !in Pair(name, value)
    ensures Split(Pair(name, value), '=') == [Encode(name), Encode(value)]
  {
    EncodeChars(name);
    EncodeChars(value);
    SplitCons(Encode(name), '=', Encode(value));
    SplitWithoutSeparator(Encode(value), '=');
  }

  /**
   * Splitting the serialisation on `&` gives back one piece per pair, in
   * order, and each piece splits on `=` into the pair's encoded name and value.
   */
  lemma {:induction false} SerializeSplits(pairs: seq<(string, string)>)
    requires |pairs| > 0
    ensures Split(Serialize(pairs), '&') == Pieces(pairs)
    ensures forall i | 0 <= i < |pairs| :: Split(Pieces(pairs)[i], '=') == [Encode(pairs[i].0), Encode(pairs[i].1)]
    decreases |pairs|
  {
    var p := Pair(pairs[0].0, pairs[0].1);
    PairSplits(pairs[0].0, pairs[0].1);
    if |pairs| == 1 {
      SplitWithoutSeparator(p, '&');
    } else {
      var rest := pairs[1..];
      SerializeSplits(rest);
      JoinCons(p, Pieces(rest), "&");
      SplitCons(p, '&', Serialize(rest));
      forall i | 0 <= i < |pairs| ensures Split(Pieces(pairs)[i], '=') == [Encode(pairs[i].0), Encode(pairs[i].1)] {
        if i > 0 {
          assert Pieces(pairs)[i] == Pieces(rest)[i - 1];
        }
      }
    }
  }

  /** The serialisation is empty exactly when there are no pairs. */
  lemma SerializeEmptyIff(pairs: seq<(string, string)>)
    ensures Serialize(pairs) == "" <==> |pairs| == 0
  {
    if |pairs| > 0 {
      var p := Pair(pairs[0].0, pairs[0].1);
      if |pairs| > 1 {
        JoinCons(p, Pieces(pairs[1..]), "&");
      }
      assert Serialize(pairs)[|Encode(pairs[0].0)|] == '=';
    }
  }
}

=== FILE: users.dfy ===
/**
 * The signed-in user as the dashboard receives it from the API, and the role
 * test every screen shares: a user holds role `r` when `r` is among their
 * `roles` or equals their primary `role`.
 */
module Users {
  import opened Wrappers

  /** The four role codes: administrator, technical, verification and field engineer. */
  const AD := "AD"
  const TE := "TE"
  const VE := "VE"
  const FE := "FE"

  datatype Profile = Profile(firstName: Option<string>, lastName: Option<string>)

  datatype Permissions = Permissions(canCreateStructures: bool)

  datatype User = User(
    username: string,
    email: string,
    role: string,
    roles: Option<seq<string>>,
    profile: Option<Profile>,
    permissions: Option<Permissions>,
    isEmailVerified: bool,
    isActive: bool)

  /** `user.roles?.includes(r) || user.role === r`. */
  predicate UserHasRole(u: User, r: string) {
    (u.roles.Some? && r in u.roles.value) || u.role == r
  }

  /** The role test with the "no user" case: nobody holds any role. */
  predicate HasRole(u: Option<User>, r: string) {
    u.Some? && UserHasRole(u.value, r)
  }

  /** `roles.some(hasRole)`, evaluated left to right. */
  predicate HasAnyRole(u: Option<User>, rs: seq<string>)
    decreases |rs|
  {
    |rs| > 0 && (HasRole(u, rs[0]) || HasAnyRole(u, rs[1..]))
  }

  /** `HasAnyRole` is the existential over the listed roles. */
  lemma {:induction false} HasAnyRoleIff(u: Option<User>, rs: seq<string>)
    ensures HasAnyRole(u, rs) <==> exists i | 0 <= i < |rs| :: HasRole(u, rs[i])
    decreases |rs|
  {
    if |rs| > 0 {
      HasAnyRoleIff(u, rs[1..]);
      if HasAnyRole(u, rs[1..]) {
        var i :| 0 <= i < |rs[1..]| && HasRole(u, rs[1..][i]);
        assert HasRole(u, rs[i + 1]);
      }
      if exists i | 0 <= i < |rs| :: HasRole(u, rs[i]) {
        var i :| 0 <= i < |rs| && HasRole(u, rs[i]);
        if i > 0 {
          assert HasRole(u, rs[1..][i - 1]);
        }
      }
    }
  }

  /** With no user, no list of roles matches. */
  lemma {:induction false} HasAnyRoleNoUser(rs: seq<string>)
    ensures !HasAnyRole(None, rs)
    decreases |rs|
  {
    if |rs| > 0 {
      HasAnyRoleNoUser(rs[1..]);
    }
  }

  /** The role-specific helpers are `hasRole` at a fixed code. */
  predicate IsAdmin(u: Option<User>) { HasRole(u, AD) }
  predicate IsVerificationEngineer(u: Option<User>) { HasRole(u, VE) }
  predicate IsFieldEngineer(u: Option<User>) { HasRole(u, FE) }
  predicate IsTechnicalEngineer(u: Option<User>) { HasRole(u, TE) }

  /**
   * Each helper is `hasAnyRole` of its single code, and a user passes one of
   * the four helpers exactly when they hold one of the four codes.
   */
  lemma RoleHelpers(u: Option<User>)
    ensures IsAdmin(u) <==> HasAnyRole(u, [AD])
    ensures IsFieldEngineer(u) <==> HasAnyRole(u, [FE])
    ensures IsTechnicalEngineer(u) <==> HasAnyRole(u, [TE])
    ensures IsVerificationEngineer(u) <==> HasAnyRole(u, [VE])
    ensures IsAdmin(u) || IsTechnicalEngineer(u) || IsVerificationEngineer(u) || IsFieldEngineer(u)
      <==> HasAnyRole(u, [AD, TE, VE, FE])
  {
    HasAnyRoleIff(u, [AD]);
    HasAnyRoleIff(u, [FE]);
    HasAnyRoleIff(u, [TE]);
    HasAnyRoleIff(u, [VE]);
    var all := [AD, TE, VE, FE];
    HasAnyRoleIff(u, all);
    assert all[0] == AD && all[1] == TE && all[2] == VE && all[3] == FE;
  }
}

=== FILE: verify_email.dfy ===
/**
 * The e-mail verification page: six one-digit entry cells, typing and
 * pasting into them, the submission guards, the resend cooldown and the
 * masked display of the pending address.
 *
 * Focus moves and submissions are returned as values; the timer that drives
 * the cooldown is an explicit `Tick`.
 */
module VerifyEmail {
  import opened Wrappers
  import opened Text

  const Cells := 6
  const CooldownSeconds := 30

  /** `/^\d?$/`: the empty string or one ASCII digit. */
  predicate CellValue(v: string) {
    v == "" || (|v| == 1 && IsDigit(v[0]))
  }

  /** Six cells, each empty or holding one digit. */
  predicate WellFormed(otp: seq<string>) {
    |otp| == Cells && forall i | 0 <= i < Cells :: CellValue(otp[i])
  }

  const EmptyOtp: seq<string> := ["", "", "", "", "", ""]

  function Concat(cells: seq<string>): (code: string)
    decreases |cells|
  {
    if |cells| == 0 then "" else cells[0] + Concat(cells[1..])
  }

  predicate AllFilled(otp: seq<string>) {
    forall i | 0 <= i < |otp| :: otp[i] != ""
  }

  /** A well-formed row whose cells are all filled spells a six-digit code. */
  lemma {:induction false} FilledConcat(cells: seq<string>)
    requires forall i | 0 <= i < |cells| :: CellValue(cells[i]) && cells[i] != ""
    ensures |Concat(cells)| == |cells|
    ensures forall k | 0 <= k < |cells| :: Concat(cells)[k] == cells[k][0]
    decreases |cells|
  {
    if |cells| > 0 {
      FilledConcat(cells[1..]);
      assert Concat(cells) == cells[0] + Concat(cells[1..]);
      forall k | 0 <= k < |cells| ensures Concat(cells)[k] == cells[k][0] {
        if k > 0 {
          assert Concat(cells)[k] == Concat(cells[1..])[k - 1];
          assert cells[1..][k - 1] == cells[k];
        }
      }
    }
  }

  /** What a change to one cell did: the new row, where focus went, and the code submitted, if any. */
  datatype Change = Change(otp: seq<string>, focus: Option<nat>, submitted: Option<string>)

  /**
   * `handleOtpChange`: a value other than empty or one digit is ignored;
   * otherwise it goes into cell `index` alone, focus advances after a digit
   * (except in the last cell), and the code is submitted once every cell is
   * filled.
   */
  function OtpChange(otp: seq<string>, index: nat, value: string): (r: Change)
    requires WellFormed(otp) && index < Cells
    ensures WellFormed(r.otp)
    ensures !CellValue(value) ==> r == Change(otp, None, None)
    ensures CellValue(value) ==> r.otp[index] == value
    ensures forall j | 0 <= j < Cells && j != index :: r.otp[j] == otp[j]
    ensures r.focus.Some? <==> CellValue(value) && value != "" && index < Cells - 1
    ensures r.focus.Some? ==> r.focus.value == index + 1
    ensures r.submitted.Some? <==> CellValue(value) && AllFilled(r.otp)
    ensures r.submitted.Some? ==> |r.submitted.value| == Cells && r.submitted.value == Concat(r.otp)
  {
    if !CellValue(value) then Change(otp, None, None)
    else
      var next := otp[index := value];
      var focus := if value != "" && index < Cells - 1 then Some(index + 1) else None;
      if AllFilled(next) && |Concat(next)| == Cells then Change(next, focus, Some(Concat(next)))
      else
        assert AllFilled(next) ==> |Concat(next)| == Cells by {
          if AllFilled(next) { FilledConcat(next); }
        }
        Change(next, focus, None)
  }

  /**
   * Pasting: the digits of the clipboard text, at most six, overwrite the
   * first cells; the rest keep their value. Focus goes to the cell after the
   * last digit written (the last cell at most), and a full code is submitted.
   */
  function Paste(otp: seq<string>, text: string): (r: Change)
    requires WellFormed(otp)
    ensures WellFormed(r.otp)
    ensures var k := Min(|Digits(text)|, Cells);
      && (forall i | 0 <= i < k :: r.otp[i] == [Digits(text)[i]])
      && (forall i | k <= i < Cells :: r.otp[i] == otp[i])
      && r.focus == Some(Min(k, Cells - 1))
      && (r.submitted.Some? <==> k == Cells)
      && (r.submitted.Some? ==> r.submitted.value == Digits(text)[..Cells])
  {
    var digits := Digits(text)[..Min(|Digits(text)|, Cells)];
    var k := |digits|;
    var next := seq(Cells, i requires 0 <= i < Cells => if i < k then [digits[i]] else otp[i]);
    Change(next, Some(Min(k, Cells - 1)), if k == Cells then Some(digits) else None)
  }

  function Min(a: nat, b: nat): nat { if a <= b then a else b }

  /** Where a submission attempt goes. */
  datatype Submit =
    | WrongLength                           // the 6-digit reminder, no call
    | NoPendingEmail                        // back to `/auth/login`, no call
    | Verify(email: string, code: string)   // the verification request

  /**
   * `handleSubmit`: the code is the given one, or else the cells joined; a
   * code that is not six characters long, or a missing pending address, stops
   * the submission before the verification request.
   */
  function HandleSubmit(given: Option<string>, otp: seq<string>, pending: Option<string>): (r: Submit)
    ensures var code := if Truthy(given) then given.value else Concat(otp);
      && (|code| != Cells <==> r.WrongLength?)
      && (|code| == Cells && !Truthy(pending) <==> r.NoPendingEmail?)
      && (r.Verify? ==> r.email == pending.value && r.code == code && |r.code| == Cells)
  {
    var code := if Truthy(given) then given.value else Concat(otp);
    if |code| != Cells then WrongLength
    else if !Truthy(pending) then NoPendingEmail
    else Verify(pending.value, code)
  }

  /** Every code the cells submit on their own is accepted for sending when an address is pending. */
  lemma AutoSubmitReachesVerify(otp: seq<string>, index: nat, value: string, email: string)
    requires WellFormed(otp) && index < Cells && email != ""
    requires OtpChange(otp, index, value).submitted.Some?
    ensures HandleSubmit(OtpChange(otp, index, value).submitted, OtpChange(otp, index, value).otp, Some(email))
      == Verify(email, OtpChange(otp, index, value).submitted.value)
  {
  }

  /** The page state the handlers share. */
  datatype Page = Page(otp: seq<string>, cooldown: nat)

  /** A failed verification empties every cell. */
  function OnVerifyFailed(p: Page): (r: Page)
    ensures r.cooldown == p.cooldown
    ensures WellFormed(r.otp) && forall i | 0 <= i < Cells :: r.otp[i] == ""
  {
    p.(otp := EmptyOtp)
  }

  /** The outcome of asking for a new code. */
  datatype Resend = ResendRedirect | ResendDone(page: Page)

  /**
   * `handleResendOTP`: without a pending address the user is sent back to
   * sign in; a successful resend starts the cooldown and empties the cells;
   * a failed one changes nothing.
   */
  function HandleResend(p: Page, pending: Option<string>, succeeded: bool): (r: Resend)
    ensures !Truthy(pending) <==> r.ResendRedirect?
    ensures Truthy(pending) && succeeded ==> r == ResendDone(Page(EmptyOtp, CooldownSeconds))
    ensures Truthy(pending) && !succeeded ==> r == ResendDone(p)
  {
    if !Truthy(pending) then ResendRedirect
    else if succeeded then ResendDone(Page(EmptyOtp, CooldownSeconds))
    else ResendDone(p)
  }

  /** One second of the cooldown timer: a positive cooldown goes down by one. */
  function Tick(c: nat): (r: nat)
    ensures c > 0 ==> r == c - 1
    ensures c == 0 ==> r == 0
  {
    if c > 0 then c - 1 else c
  }

  function Ticks(c: nat, n: nat): nat
    decreases n
  {
    if n == 0 then c else Ticks(Tick(c), n - 1)
  }

  /** After `n` seconds the cooldown is `c - n`, and it stops at zero. */
  lemma {:induction false} CooldownCountsDown(c: nat, n: nat)
    ensures Ticks(c, n) == if n <= c then c - n else 0
    decreases n
  {
    if n > 0 {
      CooldownCountsDown(Tick(c), n - 1);
    }
  }

  /**
   * Where the page sends the user on entry: signed-in users to the
   * dashboard, and anyone without a pending verification to sign in.
   */
  function EntryRedirect(isAuthenticated: bool, requiresVerification: bool, pending: Option<string>)
    : (r: Option<string>)
    ensures isAuthenticated ==> r == Some("/dashboard")
    ensures !isAuthenticated ==> (r.Some? <==> !requiresVerification || !Truthy(pending))
    ensures !isAuthenticated && r.Some? ==> r.value == "/auth/login"
  {
    if isAuthenticated then Some("/dashboard")
    else if !requiresVerification || !Truthy(pending) then Some("/auth/login")
    else None
  }

  /**
   * `maskEmail`: the first two characters of the part before the first `@`,
   * stars for the rest of it, `@`, and the piece after it up to any second
   * `@` (the text `undefined` when there is no `@`). A part before the `@`
   * shorter than two characters makes `repeat` throw: `None`.
   */
  function MaskEmail(email: string): (r: Option<string>)
    ensures r.None? <==> |Split(email, '@')[0]| < 2
  {
    var parts := Split(email, '@');
    var local := parts[0];
    if |local| < 2 then None
    else Some(local[..2] + Repeat('*', |local| - 2) + "@" + (if |parts| > 1 then parts[1] else "undefined"))
  }

  /**
   * On an address `local@domain` with a local part of at least two
   * characters, the mask keeps the length, the first two characters, the `@`
   * and the domain, and stars every other character of the local part.
   */
  lemma MaskEmailShape(local: string, domain: string)
    requires '@' !in local && '@' !in domain && |local| >= 2
    ensures MaskEmail(local + "@" + domain).Some?
    ensures var m := MaskEmail(local + "@" + domain).value;
      && |m| == |local| + 1 + |domain|
      && m[..2] == local[..2]
      && (forall i | 2 <= i < |local| :: m[i] == '*')
      && m[|local|] == '@'
      && m[|local| + 1..] == domain
  {
    SplitCons(local, '@', domain);
    SplitWithoutSeparator(domain, '@');
    assert local + "@" + domain == local + ['@'] + domain;
  }

  /** A local part of fewer than two characters cannot be masked. */
  lemma MaskEmailShortLocal(local: string, domain: string)
    requires '@' !in local && |local| < 2
    ensures MaskEmail(local + "@" + domain).None?
  {
    SplitCons(local, '@', domain);
    assert local + "@" + domain == local + ['@'] + domain;
  }
}

=== FILE: wrappers.dfy ===
/** Optional values, standing in for the dashboard's `undefined`/`null` fields. */
module Wrappers {

  datatype Option<+T> = None | Some(value: T) {

    /** The value, or `default` when absent (the `??` operator). */
    function GetOr(default: T): T {
      match this
      case Some(v) => v
      case None => default
    }
  }

  /** `o || fallback` for an optional string: absent and `''` are both falsy. */
  function OrElse(o: Option<string>, fallback: string): string {
    if o.Some? && o.value != "" then o.value else fallback
  }

  /** JavaScript truthiness of an optional string. */
  predicate Truthy(o: Option<string>) {
    o.Some? && o.value != ""
  }

  /** JavaScript truthiness of an optional number: absent and `0` are falsy. */
  predicate TruthyNum(o: Option<int>) {
    o.Some? && o.value != 0
  }

  /** JavaScript truthiness of an optional fractional number. */
  predicate TruthyReal(o: Option<real>) {
    o.Some? && o.value != 0.0
  }
}
